=== FILE: README.md ===
# slack-esque gateway core, modelled in Dafny

This project models the core of the slack-esque chat service's Go API
gateway and one record of its Node.js messaging service:

- **Signed session ids** (`sessions/sessionid.go`): 32 random bytes plus
  their HMAC-SHA256 signature (RFC 2104), written as padded URL-safe base64
  (section 5 of RFC 4648).
- **Session stores** (`sessions/memstore.go`, `sessions/redisstore.go`):
  - the in-process cache;
  - the Redis store with its `sid:` keys, expiries and failed-sign-in
    counters;
  - the `Store` interface over both.
- **Sessions** (`sessions/session.go`): `BeginSession`, `GetSessionID`,
  `GetState` and `EndSession`.
- **Search index** (`indexes/trie.go`, `indexes/int64set.go`): the rune
  trie of user ids, with `Add`, `Find` and `Remove`.
- **Handlers** (`handlers/auth.go`):
  - the specific-user GET and PATCH, with the search index kept in step;
  - sign-in with its five-failure lockout.
- **Gateway plumbing** (`handlers/cors.go`, `handlers/proxy.go`,
  `handlers/websockets.go`, `handlers/notifier.go`):
  - the CORS middleware;
  - the round-robin reverse-proxy director, which forwards the signed-in
    user as `X-User`;
  - the WebSocket upgrade;
  - the notifier that registers connections and broadcasts queued messages.
- **Link previews** (`handlers/summary.go`): the Open Graph summary built
  from the tokens of a page's `<head>`.
- **User store** (`models/users/mysqlstore.go`): the result and error
  handling of the MySQL user store, and the search query it builds.
- **Channel record** (`servers/messaging/models/channel.js`): the channel
  object of the messaging service.

Each Go file is one Dafny module. `Wrappers` holds the Option/Result/Outcome
types. `Text` holds the Go `strings`/`strconv` behaviour the core relies on:

- `HasPrefix`, `TrimPrefix`, `Split`, `Join`, `Fields`;
- `TrimSpace`, with Go's `unicode.IsSpace`;
- `ToLower` on ASCII;
- `ParseInt` and `FormatInt`.

`Base64` is the URL-safe alphabet as Go's `base64.URLEncoding` writes and
reads it. `Http` holds header maps and requests.

Structures the Go code mutates in place are classes with `modifies` frames:

- `Int64Set`, the trie, the stores;
- `Header`, `Request`;
- the CORS handler, the proxy, the notifier and the channel.

Pure logic is written as functions, for example id validation, the scan of
the page head and the trie specification. Outside inputs are parameters:

- random bytes and the HMAC;
- whether a Redis call fails;
- whether JSON decodes or a password matches;
- which WebSocket write fails.

A panic of the Go code is the `Panicked` case of `Outcome`, and
`log.Fatalf`, which ends the process, is its `Exited` case, wherever the
model keeps that behaviour.

## Model

| member | source | states |
|---|---|---|
| Int64Sets.Int64Set.constructor | servers/gateway/indexes/int64set.go:3 | a new set has no members |
| Int64Sets.Int64Set.Add | servers/gateway/indexes/int64set.go:5-9 | answers true exactly when the value was absent; afterwards the members are the old ones plus the value, every other member unchanged |
| Int64Sets.Int64Set.Remove | servers/gateway/indexes/int64set.go:11-15 | answers true exactly when the value was present; afterwards the members are the old ones minus the value |
| Int64Sets.Int64Set.Has | servers/gateway/indexes/int64set.go:17-20 | answers membership and changes nothing |
| Int64Sets.Int64Set.All | servers/gateway/indexes/int64set.go:22-30 | lists every member exactly once: length equals the set's size, no duplicates, and a value is listed iff it is a member; no order is promised |
| Indexes.Reach | servers/gateway/indexes/trie.go:53-65 | the walk along a key's runes only moves to later nodes of the arena, and moves at least one node for a non-empty key |
| Indexes.ReachConcat | servers/gateway/indexes/trie.go:78-83 | walking `s + t` is walking `s`, then `t` from where `s` ended |
| Indexes.ReachStep | servers/gateway/indexes/trie.go:54-62 | one more rune follows exactly one more edge, or fails when the edge is missing |
| Indexes.ReachLabel | servers/gateway/indexes/trie.go:11-16 | the node a key reaches is labelled with that key by its back-references |
| Indexes.ReachInjective | servers/gateway/indexes/trie.go:11-16 | two keys that reach the same node are equal: the trie is a tree |
| Indexes.InStored | servers/gateway/indexes/trie.go:11-16 | a (key, id) pair is held exactly when the walk along the key ends at a node whose id set contains the id |
| Indexes.SortedIds | servers/gateway/indexes/trie.go:92-97 | the ids of a node, each once, strictly ascending, and exactly the set's members |
| Indexes.SortedRunes | servers/gateway/indexes/trie.go:98-103 | the child runes of a node, each once, strictly ascending, and exactly the map's keys |
| Indexes.Take | servers/gateway/indexes/trie.go:93-94 | a prefix of the list, of length n (or the whole list when shorter, none for n <= 0) |
| Indexes.EnumerateSound | servers/gateway/indexes/trie.go:91-105 | every id the depth-first enumeration lists is held at some node below the start node |
| Indexes.EnumerateComplete | servers/gateway/indexes/trie.go:91-105 | every id held below the start node is listed by the enumeration |
| Indexes.NonEmptyBelow | servers/gateway/indexes/trie.go:107-108 | in a trimmed trie every node reached by a non-empty key has some id below it |
| Indexes.FindSpec | servers/gateway/indexes/trie.go:67-88 | what `Find` answers: nil for an empty trie, empty prefix, n == 0 or a missing edge, otherwise at most n ids |
| Indexes.FindSound | servers/gateway/indexes/trie.go:67-88 | every id `Find` returns is held under some key that starts with the prefix |
| Indexes.FindComplete | servers/gateway/indexes/trie.go:67-88 | every id held under a key that starts with the prefix is returned, unless the n slots are already full |
| Indexes.FindNil | servers/gateway/indexes/trie.go:67-81 | past the guards, in a trimmed trie, `Find` is nil iff no held key starts with the prefix, and is otherwise non-empty |
| Indexes.GrowLemma | servers/gateway/indexes/trie.go:55-60 | appending a fresh empty child keeps the tree shape, every held pair and every existing walk; only the new node may be an empty leaf |
| Indexes.InsertLemma | servers/gateway/indexes/trie.go:45-48 | adding an id at the node a key reaches holds exactly one more pair, (key, id) |
| Indexes.DeleteLemma | servers/gateway/indexes/trie.go:120 | dropping an id at the node a key reaches holds exactly one pair fewer, (key, id) |
| Indexes.CutLemma | servers/gateway/indexes/trie.go:107-124 | unlinking an empty leaf keeps the tree shape, every held pair and every walk that does not end at that leaf |
| Indexes.NameTokens | servers/gateway/indexes/trie_test.go:260-308 | the search tokens of a user's names: each is one lower-case word |
| Indexes.HeldExactly | servers/gateway/indexes/trie.go:11-16 | a set of pairs is the one the arena stores iff it agrees with the walk pair by pair |
| Indexes.Trie.constructor | servers/gateway/indexes/trie.go:25-31 | a new trie is valid, holds nothing and counts 0 |
| Indexes.Trie.Len | servers/gateway/indexes/trie.go:33-36 | the count is never below the number of distinct pairs held |
| Indexes.Trie.Add | servers/gateway/indexes/trie.go:38-50 | the held pairs gain exactly (key, value), the count grows by one on every call (a repeated pair included), and at most one node per rune of the key is created |
| Indexes.AddHelper | servers/gateway/indexes/trie.go:52-65 | walks the key creating missing nodes; the key then reaches the returned node, no held pair changes, and at most one node per rune is added |
| Indexes.AddRune | servers/gateway/indexes/trie.go:55-61 | one step of the walk: follows the existing edge or appends a fresh empty child along the rune |
| Indexes.AddEntry | servers/gateway/indexes/trie.go:39-50 | the trie invariant holds afterwards with the pair added and the count one higher |
| Indexes.Trie.Remove | servers/gateway/indexes/trie.go:107-125 | corrected (see Findings): the held pairs lose exactly (key, value), the count drops only when the pair was held, and emptied branches are trimmed |
| Indexes.RemoveEntry | servers/gateway/indexes/trie.go:109-125 | the trie invariant holds afterwards with the pair removed and the count lowered only for a held pair |
| Indexes.RemoveFrom | servers/gateway/indexes/trie.go:109-125 | a missing path changes nothing; otherwise the id leaves the node reached and empty nodes are unlinked up the path; reports whether the pair was held |
| Indexes.Descend | servers/gateway/indexes/trie.go:113-119 | the walk of `Remove`: the node of every prefix of the key, root first, or None exactly when some rune of the key has no edge |
| Indexes.Prune | servers/gateway/indexes/trie.go:122-124 | unlinks the nodes of the path left with no ids and no children, deepest first, keeping every held pair |
| Indexes.Trie.AddConvertedUsers | servers/gateway/indexes/trie_test.go:260-308 | the held pairs gain (token, id) for every lower-cased, white-space separated token of the three names, one count per token |
| Indexes.Trie.RemoveConvertedUsers | servers/gateway/indexes/trie_test.go:310-383 | the held pairs lose (token, id) for every token of the first and last names |
| Indexes.Trie.Find | servers/gateway/indexes/trie.go:67-88 | corrected (see Findings): answers exactly `FindSpec`, the node's ids ascending before its children in ascending rune order |
| Indexes.Walk | servers/gateway/indexes/trie.go:77-83 | the node the prefix reaches, or None at the first missing edge |
| Indexes.Collect | servers/gateway/indexes/trie.go:90-105 | with one shared buffer, appends the first ids of the node's depth-first enumeration until n are held |
| Indexes.CollectKids | servers/gateway/indexes/trie.go:98-103 | visits the children in ascending rune order and stops once n ids are held |
| Indexes.TakeMore | servers/gateway/indexes/trie.go:92-97 | appends the node's ids while fewer than n are held |
| TrieExamples.MultipleValuesFind | servers/gateway/indexes/trie_test.go:41-55 | on the trie of the "Multiple Values" case, `Find("he", 4)` answers [5, 1, 10, 3] once corrected, and [] as written |
| Indexes.FindSingleId | servers/gateway/indexes/trie_test.go:260-308 | when every held pair carries one id, a one-slot search for any prefix of a held key answers [id] |
| Indexes.SearchConvertedUser | servers/gateway/indexes/trie_test.go:260-308 | a converted user is found alone by any non-empty prefix of any of its name tokens ("m" for "multiple first") |
| Indexes.OneWordNames | servers/gateway/indexes/trie_test.go:310-383 | two one-word names give their lower-cased forms as tokens |
| Indexes.SearchRemovedUser | servers/gateway/indexes/trie_test.go:310-383 | a user indexed under its first and last names is found by the first letter until both are removed; then the search is nil |
| Indexes.FindAsWritten | servers/gateway/indexes/trie.go:84-96 | as written: wherever `Find` gets past its guards it answers an empty slice, since `findHelper` appends to a copy |
| Indexes.RemoveAsWritten | servers/gateway/indexes/trie.go:109-125 | as written: a missing path panics; otherwise the id leaves the node reached, the count always drops by one, and nothing is trimmed |
| Indexes.FindLosesResults | servers/gateway/indexes/trie.go:84-86 | with ("a", 1) held, `Find("a", 1)` should answer [1] and answers [] as written |
| Indexes.RemoveMissingPathPanics | servers/gateway/indexes/trie.go:113-120 | removing a key whose path is missing panics as written |
| Indexes.RemoveAbsentHidesEntries | servers/gateway/indexes/trie.go:120-121 | removing an absent pair still lowers the count as written, after which `Find` is nil although a pair is held |
| Indexes.RemoveLeavesEmptyBranch | servers/gateway/indexes/trie.go:122-124 | removing the last id of a key leaves an empty leaf as written, so `Find` answers [] instead of nil |
| Base64.Encode | servers/gateway/sessions/sessionid.go:63 | every byte string encodes to four symbols per started group of three bytes, with no line breaks |
| Base64.RoundTrip | servers/gateway/sessions/sessionid.go:63-83 | decoding an encoding gives the bytes back |
| Base64.EncodeEmpty | servers/gateway/sessions/sessionid.go:63-80 | an encoding is empty only for no bytes |
| SessionIds.String | servers/gateway/sessions/sessionid.go:106-109 | the text read back into an id is the same id |
| SessionIds.NewSessionId | servers/gateway/sessions/sessionid.go:39-66 | an empty signing key, then a failed random read, are the errors; otherwise the id decodes to the random bytes followed by their HMAC |
| SessionIds.ValidateId | servers/gateway/sessions/sessionid.go:71-96 | corrected (see Findings): an empty id, then text that is not base64url, are the errors; it succeeds, with the id unchanged, exactly when the decoded id portion's HMAC equals the rest, and answers `ErrInvalidID` otherwise |
| SessionIds.NewThenValidate | servers/gateway/sessions/sessionid.go:60-93 | a fresh id validates under the same key and comes back unchanged |
| SessionIds.NewIdLength | servers/gateway/sessions/sessionid.go:16-63 | with a SHA-256 sized HMAC a fresh id decodes to 64 bytes and is 88 symbols long |
| SessionIds.ValidateIdAsWritten | servers/gateway/sessions/sessionid.go:83-95 | as written: panics exactly when the decoded id is shorter than 32 bytes, and otherwise answers what `ValidateId` answers |
| SessionIds.ShortIdPanics | servers/gateway/sessions/sessionid.go:87 | any well-formed id of 1 to 31 bytes panics as written and is rejected with `ErrInvalidID` once corrected |
| MemStores.MemStore.constructor | servers/gateway/sessions/memstore.go:18-22 | a new cache is empty |
| MemStores.MemStore.Save | servers/gateway/sessions/memstore.go:27-34 | a marshal failure is the error and stores nothing; otherwise the JSON is cached under the id's text |
| MemStores.MemStore.Get | servers/gateway/sessions/memstore.go:38-46 | the cache is unchanged; an unknown id is `ErrStateNotFound`; saved JSON comes back when it decodes, else the decode error |
| MemStores.MemStore.Delete | servers/gateway/sessions/memstore.go:49-52 | never fails, absent ids included, and removes the id's entry |
| MemStores.MemStore.Increment | servers/gateway/sessions/memstore.go:55-57 | always (0, nil), so the throttle never triggers with this store |
| MemStores.MemStore.TimeLeft | servers/gateway/sessions/memstore.go:60-62 | always ("", nil) |
| MemStores.MemStore.SavePass | servers/gateway/sessions/memstore.go:65-67 | always nil |
| MemStores.MemStore.GetReset | servers/gateway/sessions/memstore.go:70-72 | always ("", nil) |
| MemStores.SaveThenGet | servers/gateway/sessions/memstore.go:27-46 | a save then a get of the same id gives back the saved JSON |
| MemStores.DeleteThenGet | servers/gateway/sessions/memstore.go:38-52 | after a delete, a get of that id is `ErrStateNotFound` |
| RedisStores.RedisKey | servers/gateway/sessions/redisstore.go:134-139 | the key is "sid:" followed by the id's text |
| RedisStores.RedisKeyInjective | servers/gateway/sessions/redisstore.go:134-139 | two ids share a key only when they are equal |
| RedisStores.RedisStore.constructor | servers/gateway/sessions/redisstore.go:21-30 | the store starts over the server's current keys with the given session duration |
| RedisStores.RedisStore.Save | servers/gateway/sessions/redisstore.go:37-51 | a marshal failure, then a client failure, are the errors and change nothing; otherwise the JSON is under the session key with time to live `SessionDuration` |
| RedisStores.RedisStore.Get | servers/gateway/sessions/redisstore.go:55-84 | values never change; a missing key or a failed pipeline is `ErrStateNotFound`; otherwise the key's time to live is reset to `SessionDuration` and the JSON is handed back when it decodes |
| RedisStores.RedisStore.Delete | servers/gateway/sessions/redisstore.go:87-95 | a client failure changes nothing; otherwise the session key and its time to live are gone, absent keys included |
| RedisStores.RedisStore.Increment | servers/gateway/sessions/redisstore.go:98-109 | the new count is the old one (absent as 0) plus the amount; a non-integer value, overflow or a client failure answers (0, err); the 10-minute expiry is armed exactly when the new count is 5 |
| RedisStores.RedisStore.SavePass | servers/gateway/sessions/redisstore.go:121-126 | the reset password goes under the raw email key, with no "sid:" prefix, for five minutes |
| RedisStores.RedisStore.GetReset | servers/gateway/sessions/redisstore.go:129-131 | reads the raw email key; an absent key is `redis.Nil` and a failure the client error |
| RedisStores.IncrementReadBack | servers/gateway/sessions/redisstore.go:99 | a stored count is read back by the next increment as that count |
| Stores.Save | servers/gateway/sessions/memstore.go:27-34 | over either store: success iff the state marshals and the client does not fail; then the JSON is saved under the id, and no other id's state or failure count changes |
| Stores.Get | servers/gateway/sessions/memstore.go:38-46 | over either store: no saved state changes; nothing saved (or a client failure) is `ErrStateNotFound`; a success is the saved JSON, which decodes |
| Stores.Delete | servers/gateway/sessions/memstore.go:49-52 | over either store: afterwards nothing is saved under the id, and other ids keep their state |
| Stores.Increment | servers/gateway/sessions/redisstore.go:98-109 | over either store: (0, nil) for the in-process store; the Redis rule otherwise; only the client's counter may change |
| Sessions.GetSessionId | servers/gateway/sessions/session.go:45-68 | the credential is the `Authorization` header, else the `auth` query parameter; without the "Bearer " prefix it is refused; otherwise exactly one prefix is stripped and the answer is `ValidateId`'s on the rest |
| Sessions.HeaderWins | servers/gateway/sessions/session.go:52-56 | with a non-empty `Authorization` header the query string is not consulted |
| Sessions.OnlyAuthorizationRead | servers/gateway/sessions/session.go:52 | no other request header changes the answer |
| Sessions.QueryFallback | servers/gateway/sessions/session.go:53-55 | with no `Authorization` value the `auth` query parameter is read in its place |
| Sessions.BearerAccepted | servers/gateway/sessions/session.go:40-67 | the header `BeginSession` writes, sent back, yields the same id |
| Sessions.BeginSession | servers/gateway/sessions/session.go:22-42 | id failure leaves store and header untouched; a save failure adds no header; success saves the JSON under the new id and adds "Authorization: Bearer <id>"; no other id's state changes |
| Sessions.GetState | servers/gateway/sessions/session.go:73-86 | an id extraction failure comes back without touching the store; nothing saved under the id is `ErrStateNotFound`; a Redis failure is an error; success is the valid id and the JSON saved under it, which decodes; no saved state or count changes |
| Sessions.EndSession | servers/gateway/sessions/session.go:91-103 | an id extraction failure leaves the store untouched; otherwise the state under the id is deleted |
| Sessions.BeginThenGet | servers/gateway/sessions/session.go:22-86 | a session begun on one response is found by the next request carrying the returned header, with its state as saved |
| Sessions.BeginForRequest | servers/gateway/sessions/session.go:22-68 | after `BeginSession`, a request carrying the returned header names the new id, whose state is saved |
| Sessions.EndThenGet | servers/gateway/sessions/session.go:73-103 | once a session is ended, getting its state is `ErrStateNotFound` |
| Http.First | servers/gateway/sessions/session.go:52 | `Header.Get`: the first value under a name, or "" |
| Http.Header.Add | servers/gateway/handlers/cors.go:36-40 | the value is appended after those already under the name |
| Http.Header.Set | servers/gateway/handlers/proxy.go:39 | the name holds exactly the one value |
| Http.Header.Del | servers/gateway/handlers/proxy.go:29 | the name and its values are gone; nothing else changes |
| Auth.PathBase | servers/gateway/handlers/auth.go:113 | `path.Base`: never empty; "." for an empty path; "/" or a segment without '/' |
| Auth.LastSegment | servers/gateway/handlers/auth.go:113 | the text after the last '/': no '/' in it |
| Auth.TrimTrailingSlashes | servers/gateway/handlers/auth.go:113 | a prefix of the path that does not end in '/' |
| Auth.PathBaseOfId | servers/gateway/handlers/auth.go:113 | a path ending in "/<id>" names the id, whatever comes before |
| Auth.ParseId | servers/gateway/handlers/auth.go:437-449 | "me" is the session user's id; anything else succeeds exactly when it is a base-10 int64, which is the answer |
| Auth.ParseIdFormat | servers/gateway/handlers/auth.go:442-447 | every id written in decimal is read back as itself |
| Auth.GetClientKey | servers/gateway/handlers/auth.go:451-459 | with a non-empty X-Forwarded-For, its text up to the first comma, untrimmed; otherwise the remote address |
| Auth.DecodeReq | servers/gateway/handlers/auth.go:426-434 | 415 exactly when Content-Type lacks the "application/json" prefix, whatever the body; 400 exactly when it has it and the body does not decode; 200 otherwise |
| Auth.Next | servers/gateway/handlers/auth.go:183-198 | a refused or wrong attempt adds exactly one failure, a success none |
| Auth.Run | servers/gateway/handlers/auth.go:177-198 | one verdict per attempt |
| Auth.LockedStaysLocked | servers/gateway/handlers/auth.go:183-189 | once a client has five failures, every further attempt is refused, the right password included |
| Auth.AcceptedBelowLimit | servers/gateway/handlers/auth.go:183-191 | below five failures the right password is accepted |
| Auth.SixthAttemptLocked | servers/gateway/handlers/auth.go:177-198 | from a clean record, five wrong passwords get 401 and the sixth attempt is refused with 429 |
| Auth.CountFailures | servers/gateway/handlers/auth.go:177-198 | a failed count read, including a failed EXPIRE when the count read is exactly five (redisstore.go:103-106), is 500 with the count unchanged; five or more failures is 429 with Retry-After set to its own name and one more failure; a wrong password counts one failure and is 401 (500 when that increment failed); a right one passes with the count and response untouched; only the client's counter may change |
| Auth.CountFailure | servers/gateway/handlers/auth.go:192-195 | one more failure is stored (none in the in-process store), and the error comes back exactly when the increment fails |
| Auth.StartSession | servers/gateway/handlers/auth.go:199-221 | 201 exactly when the sign-in record was written and a session began, whose state is then saved; 500 otherwise; no failure count changes |
| Auth.SessionsHandler | servers/gateway/handlers/auth.go:160-227 | only POST (405 otherwise); a media or body error is its own code; an unknown email is 401 without touching the counter; then `CountFailures`' answers; a sign-in that passes gets 201 with its session saved, or 500, and leaves the count untouched |
| Auth.SignedInUser | servers/gateway/handlers/auth.go:106-111 | the user of the request's valid session whose state decodes, or None (always None on a Redis failure); nothing saved changes |
| Auth.PatchUser | servers/gateway/handlers/auth.go:131-149 | 403 exactly when the id is not the session user's; a media or body error is its own code; 500 when the store did not apply the update; success (200) only after it did, and then the trie drops the old first and last names' tokens and indexes the new names; any other outcome leaves the trie unchanged |
| Auth.ServeUser | servers/gateway/handlers/auth.go:122-155 | GET is 200 or 404 by the store's answer; PATCH as `PatchUser`; other methods 405; only a successful PATCH changes the trie |
| Auth.SpecificUserHandler | servers/gateway/handlers/auth.go:104-156 | 401 without a valid session; 500 when the last path segment is neither "me" nor an int64; then `ServeUser`; no saved session changes |
| Auth.AnswerUser | servers/gateway/handlers/auth.go:113-155 | the rest of the handler once the session check has answered: 401 without a user, else the id parse and `ServeUser` |
| Cors.DistinctNames | servers/gateway/handlers/cors.go:36-40 | the five header names are distinct |
| Cors.Handler.ServeHTTP | servers/gateway/handlers/cors.go:44 | the wrapped handler records each request with the response header it was handed, and may leave any header behind (`written`) |
| Cors.CorsHandler.constructor | servers/gateway/handlers/cors.go:25-27 | the middleware wraps the given handler |
| Cors.CorsHandler.ServeHTTP | servers/gateway/handlers/cors.go:30-45 | the wrapped handler serves every request, OPTIONS included, on the response header with each CORS header's value added after those already present (add, then delegate); the final header is what the wrapped handler leaves |
| Cors.CorsValues | servers/gateway/handlers/cors.go:33-40 | Allow-Origin gains "*", Allow-Methods "GET, PUT, POST, PATCH, DELETE", Allow-Headers "Content-Type, Authorization", Expose-Headers "Authorization", Max-Age "600"; every other header keeps its values |
| Cors.FreshResponse | servers/gateway/handlers/cors.go:36-40 | on a response without CORS headers each reads back as exactly its value |
| Proxies.ModStep | servers/gateway/handlers/proxy.go:26 | moving the cursor by one and wrapping tracks the request count modulo the number of addresses |
| Proxies.ServiceProxy.constructor | servers/gateway/handlers/proxy.go:16-18 | the addresses are the raw comma-separated pieces, at least one, joining back to the list; the cursor starts at 0 |
| Proxies.ServiceProxy.NextHost | servers/gateway/handlers/proxy.go:24-27 | request i gets address i modulo the number of addresses, and the cursor stays in range |
| Proxies.ServiceProxy.Director | servers/gateway/handlers/proxy.go:22-41 | round-robin host, scheme "http"; a client's X-User is dropped, and set to the session user's JSON exactly when the session lookup and the marshalling succeed; nothing saved changes |
| Proxies.UserHeader | servers/gateway/handlers/proxy.go:30-38 | the session user's JSON, or None when the session is missing or invalid, the state does not decode, the user does not marshal or the client fails |
| Proxies.DelThenSet | servers/gateway/handlers/proxy.go:29-39 | deleting a header and then setting it is setting it |
| Proxies.ReplaceUser | servers/gateway/handlers/proxy.go:29-39 | the header step alone: X-User removed, or replaced by the forwarded user |
| Proxies.DropUser | servers/gateway/handlers/proxy.go:29 | deleting X-User removes only that header and does not change which session the request names |
| Notifiers.UserTargets | servers/gateway/handlers/notifier.go:79-86 | one write per connection of the user, in list order |
| Notifiers.TargetsAppend | servers/gateway/handlers/notifier.go:77-88 | broadcasting to two user lists in turn is broadcasting to their concatenation |
| Notifiers.TargetsMembership | servers/gateway/handlers/notifier.go:76-89 | a private broadcast writes to a connection exactly when its user is listed and has an entry holding it: ids with no entry are skipped |
| Notifiers.ListedTwice | servers/gateway/handlers/notifier.go:77-79 | a user listed twice has each connection written to twice |
| Notifiers.Without | servers/gateway/handlers/notifier.go:47-48 | the list without the first occurrence of a connection: one shorter when present, unchanged when absent, the same multiset less that connection |
| Notifiers.SpliceFirst | servers/gateway/handlers/notifier.go:82-83 | splicing out the index `findConn` gives is dropping the first occurrence |
| Notifiers.AppendThenWithout | servers/gateway/handlers/notifier.go:38-48 | a connection registered and then dropped leaves its user's list as it was |
| Notifiers.PublicReachesAll | servers/gateway/handlers/notifier.go:92-103 | a public broadcast over the map's keys writes to every registered connection and no other |
| Notifiers.Decodable | servers/gateway/handlers/notifier.go:56-62 | the leading messages that decode; the one after them, if any, does not |
| Notifiers.FindConn | servers/gateway/handlers/notifier.go:105-113 | the first index holding the connection, or -1 exactly when it is absent |
| Notifiers.Notifier.constructor | servers/gateway/handlers/notifier.go:18-25 | the registry starts empty |
| Notifiers.Notifier.AddClient | servers/gateway/handlers/notifier.go:34-40 | the connection goes to the end of its user's list (a new list for a new user); every other list is unchanged |
| Notifiers.Notifier.Splice | servers/gateway/handlers/notifier.go:82-83 | a registered connection is dropped from its user's list, nothing else changes |
| Notifiers.Notifier.ReadLoopRemovalAsWritten | servers/gateway/handlers/notifier.go:45-48 | as written: panics exactly when the connection is no longer in its user's list; otherwise drops it |
| Notifiers.Notifier.ReadLoopRemoval | servers/gateway/handlers/notifier.go:43-52 | corrected (see Findings): drops a registered connection from its user's list; an unregistered one changes nothing |
| Notifiers.Notifier.BroadcastPrivate | servers/gateway/handlers/notifier.go:75-89 | the successful writes are the leading targets of the listed users; either all succeeded and nothing changed, or the first failure's connection is dropped and nothing after it is written |
| Notifiers.Notifier.WriteConnections | servers/gateway/handlers/notifier.go:79-86 | the inner loop over one user's connections, with the same outcome on its part of the targets |
| Notifiers.Notifier.BroadcastPublic | servers/gateway/handlers/notifier.go:91-103 | the same outcome over every user in the map's order |
| Notifiers.Notifier.ProcessMessage | servers/gateway/handlers/notifier.go:57-71 | a message that does not decode is not acknowledged and changes nothing; otherwise an empty user list is a public broadcast, any other a private one, then the acknowledgement; no user or list is added |
| Notifiers.Notifier.ProcessMessages | servers/gateway/handlers/notifier.go:55-73 | messages are acknowledged exactly up to the first that does not decode; the registries between messages run from the one before to the one after, and each acknowledged message made its broadcast (`Broadcasted`) to its recipients (every user in that message's map order for an empty list, else its list) from the registry it found; the registered users stay and no list grows |
| Notifiers.ProcessedStep | servers/gateway/handlers/notifier.go:57-71 | one more acknowledged message's broadcast extends the run of processed messages |
| Notifiers.FailedWrite | servers/gateway/handlers/notifier.go:80-85 | a broadcast that stopped at a failed write is the outcome `Broadcasted` describes |
| Notifiers.WroteAll | servers/gateway/handlers/notifier.go:77-88 | a broadcast whose every write succeeded is the outcome `Broadcasted` describes |
| Notifiers.TargetsNext | servers/gateway/handlers/notifier.go:77-78 | the writes to one more listed user follow those before; a user with no entry adds none |
| Notifiers.DroppedKeeps | servers/gateway/handlers/notifier.go:83 | dropping a connection keeps every user and shrinks no list but that one |
| Notifiers.BroadcastThenReadError | servers/gateway/handlers/notifier.go:44-85 | a broadcast whose write fails drops the connection, and that connection's read loop then panics as written |
| Notifiers.AddThenReadError | servers/gateway/handlers/notifier.go:35-50 | a connection registered and then hit by a read error leaves the registry as it was |
| WebSockets.Contains | servers/gateway/handlers/websockets.go:136-143 | true exactly when the id occurs in the list, whatever order or duplicates |
| WebSockets.SelectedIsBroadcast | servers/gateway/handlers/websockets.go:120-127 | the delivery filter selects key k exactly when the notifier's broadcast writes to k's connections: an empty list means every key |
| WebSockets.WebSocketHandler.constructor | servers/gateway/handlers/websockets.go:32-42 | the handler keeps the context's signing key, store and notifier |
| WebSockets.WebSocketHandler.ServeHTTP | servers/gateway/handlers/websockets.go:47-62 | without session state, 401 and nothing registered; a failed upgrade registers nothing; otherwise the connection is appended under the session user's id; nothing saved changes |
| WebSockets.WebSocketHandler.SessionState | servers/gateway/handlers/websockets.go:48-53 | the session state that decodes, or None on any error of `GetState` |
| Summaries.KeywordsCount | servers/gateway/handlers/summary.go:310-320 | no keywords for an empty value, otherwise one more than the commas |
| Summaries.GetKeywords | servers/gateway/handlers/summary.go:309-320 | the comma-separated pieces, each trimmed, in order; one more than the commas |
| Summaries.KeywordsAre | servers/gateway/handlers/summary.go:314-316 | the pieces trimmed one by one are the keywords |
| Summaries.GetIconAsWritten | servers/gateway/handlers/summary.go:324-340 | as written: nil exactly when no icon was extracted; a height that is not a number ends the process, a number with no "x" after it panics, and a width that is not a number ends the process |
| Summaries.GetIcon | servers/gateway/handlers/summary.go:324-340 | corrected (see Findings): nil exactly when no icon was extracted; else the icon's URL and type, with zero dimensions for "any" or "" |
| Summaries.IconAsWrittenAgrees | servers/gateway/handlers/summary.go:324-340 | wherever the code as written returns, it returns the corrected icon |
| Summaries.IconSizes | servers/gateway/handlers/summary.go:327-331 | sizes "HxW" of two decimal numbers give height H and width W, as written and corrected |
| Summaries.SizesWithoutX | servers/gateway/handlers/summary.go:328-330 | sizes without a lower-case "x" panic as written when they are a number and end the process in `convToInt` otherwise; once corrected they give zero dimensions |
| Summaries.SixteenStops | servers/gateway/handlers/summary.go:328-330 | as written, sizes "16" panic and sizes "16X16" end the process |
| Summaries.IconFor | servers/gateway/handlers/summary.go:290-307 | the corrected `getIcon` always returns; wherever the code as written returns, it returns the corrected icon |
| Summaries.ConstructSummary | servers/gateway/handlers/summary.go:290-307 | panics or ends the process exactly when `getIcon` does, which only the code as written can and only with an icon; otherwise the Open Graph values are copied straight through, the keywords and icon derived, and the images and videos kept |
| Summaries.CleanedAdd | servers/gateway/handlers/summary.go:399-407 | cleaning one more key adds at most that key |
| Summaries.DimFailsAdd | servers/gateway/handlers/summary.go:403-404 | one more key halts the cleaning exactly when it is a dimension that is not a number |
| Summaries.DimsAdd | servers/gateway/handlers/summary.go:403-404 | one more key adds at most its dimension |
| Summaries.CleanMedia | servers/gateway/handlers/summary.go:394-410 | halts exactly when a dimension of the media type is not a number; otherwise keeps exactly that type's keys, URL values resolved against the page, and parses the dimensions |
| Summaries.MakeImages | servers/gateway/handlers/summary.go:364-377 | the image of the cleaned group, or a halt |
| Summaries.MakeVideosAsWritten | servers/gateway/handlers/summary.go:379-392 | as written: the intended video, except that its secure URL is always empty |
| Summaries.NotContainsVideo | servers/gateway/handlers/summary.go:385 | the misspelt key does not mention "og:video", so no cleaned key can be it |
| Summaries.MakeVideos | servers/gateway/handlers/summary.go:379-392 | corrected (see Findings): the video of the cleaned group, secure URL included |
| Summaries.VideoSecureUrl | servers/gateway/handlers/summary.go:385 | once corrected, a video's secure URL is kept, resolved against the page |
| Summaries.VideoFor | servers/gateway/handlers/summary.go:379-392 | in either version nil exactly when a video dimension is not a number; as written, the corrected video with an empty secure URL |
| Summaries.MakeVideo | servers/gateway/handlers/summary.go:379-392 | computes the video of the chosen version |
| Summaries.Flush | servers/gateway/handlers/summary.go:207-222 | an exact "og:image" or "og:video" property finishes the group started, when there is one; in the code as written a finished video's secure URL is empty, once corrected it is kept |
| Summaries.MetaTag | servers/gateway/handlers/summary.go:197-245 | the meta branch of the head loop computes the scan step `Meta` defines, as written (finished videos with an empty secure URL) or corrected |
| Summaries.LinkTag | servers/gateway/handlers/summary.go:250-264 | the link branch of the head loop |
| Summaries.HeadStep | servers/gateway/handlers/summary.go:189-267 | one pass of the head loop moves on at least one token and leaves the rest of the scan's result unchanged, as written or corrected |
| Summaries.Conclude | servers/gateway/handlers/summary.go:272-287 | the last non-empty groups are finished, then the summary is built; as written this can panic or end the process in `getIcon` |
| Summaries.ExtractSummary | servers/gateway/handlers/summary.go:151-288 | the outer loop and the head loop compute the extraction the token sequence defines, as written or corrected |
| Summaries.OutsideHead | servers/gateway/handlers/summary.go:186-188 | tokens before any `<head>` start tag contribute nothing |
| Summaries.NoHeadEmpty | servers/gateway/handlers/summary.go:186-307 | a page without a `<head>` start tag gives the empty summary |
| Summaries.TitleWhenSet | servers/gateway/handlers/summary.go:246-249 | a `<title>` start tag is passed over once a title is set |
| Summaries.TitleWhenUnset | servers/gateway/handlers/summary.go:246-249 | while no title is set, a `<title>` start tag takes the next token's data as the title |
| Summaries.DescriptionOnlyIfUnset | servers/gateway/handlers/summary.go:228-231 | `name="description"` sets the description only while none is set; otherwise its content lands under the empty key |
| Summaries.NewImageFlushes | servers/gateway/handlers/summary.go:205-213 | an "og:image" property after the first finishes the current group and starts a new one holding its content |
| Summaries.FirstImageJoins | servers/gateway/handlers/summary.go:205-213 | the first "og:image" property joins whatever the group already holds |
| Summaries.NewVideoFlushes | servers/gateway/handlers/summary.go:214-222 | an "og:video" property after the first finishes the current video group (the version's video) and starts a new one holding its content |
| Summaries.FirstVideoJoins | servers/gateway/handlers/summary.go:214-222 | the first "og:video" property joins whatever the video group already holds |
| Summaries.VideoNotImage | servers/gateway/handlers/summary.go:205-214 | "og:video" does not contain "og:image", so a video property takes the video branch |
| Summaries.LastGroupKept | servers/gateway/handlers/summary.go:272-278 | the last image and video groups are finished at the end exactly when they are not empty, the video as the version makes it |
| Summaries.MetaAttrGrows | servers/gateway/handlers/summary.go:203-238 | one attribute of a meta tag only adds to the finished images and videos |
| Summaries.MetaAttrFlushes | servers/gateway/handlers/summary.go:203-238 | one meta attribute leaves the finished groups as they were or finishes one group |
| Summaries.MetaAttrsGrow | servers/gateway/handlers/summary.go:203-238 | the attributes of a meta tag only add to the finished images and videos |
| Summaries.MetaGrows | servers/gateway/handlers/summary.go:197-245 | a meta tag only adds to the finished images and videos |
| Summaries.FinishedGroupsKept | servers/gateway/handlers/summary.go:175-270 | finished images and videos are never changed or dropped by the rest of the page |
| Summaries.BlankVideos | servers/gateway/handlers/summary.go:385 | the videos one for one, each with its secure URL emptied |
| Summaries.FlushVideoBlank | servers/gateway/handlers/summary.go:214-222 | finishing a video group as written finishes the corrected group with its secure URL emptied |
| Summaries.MetaBlank | servers/gateway/handlers/summary.go:197-245 | a meta tag read as written gives the corrected result with every finished video's secure URL emptied |
| Summaries.RunBlank | servers/gateway/handlers/summary.go:175-270 | the whole scan as written is the corrected scan with every finished video's secure URL emptied |
| Summaries.ExtractVersions | servers/gateway/handlers/summary.go:151-307 | the corrected code never panics; it stops exactly where the code as written stops for a dimension or in the head; where the code as written builds a summary, it is the corrected one with empty video secure URLs; only `getIcon` can stop the code as written where the corrected code succeeds, and never on a page without an icon |
| UserStores.GetBase | servers/gateway/models/users/mysqlstore.go:23-38 | `sql.ErrNoRows` becomes `ErrUserNotFound`, other errors pass through unchanged, and a scanned row is the user |
| UserStores.CheckRowsAffected | servers/gateway/models/users/mysqlstore.go:142-152 | an error reading the count is wrapped, 0 rows is `ErrUserNotFound`, any other count is success |
| UserStores.Update | servers/gateway/models/users/mysqlstore.go:82-95 | a statement error is wrapped; no affected row is `ErrUserNotFound`; otherwise the user read back by id |
| UserStores.Delete | servers/gateway/models/users/mysqlstore.go:108-119 | a statement error is wrapped; no affected row is `ErrUserNotFound`; otherwise success |
| UserStores.QueryForSearch | servers/gateway/models/users/mysqlstore.go:234-241 | "(?", then ",?" for each further id, then ") order by username asc": one '?' per id, at least one |
| UserStores.SearchQuery | servers/gateway/models/users/mysqlstore.go:234-241 | the placeholders hold max(1, n) '?' and open with "(?" |
| UserStores.Placeholders | servers/gateway/models/users/mysqlstore.go:235-239 | the placeholder list opens with "(?" |
| UserStores.PlaceholdersCount | servers/gateway/models/users/mysqlstore.go:235-239 | the placeholder list holds max(1, n) '?' |
| UserStores.MakeInterface | servers/gateway/models/users/mysqlstore.go:207-213 | the ids as statement arguments, same length and order |
| UserStores.GetSearchUsers | servers/gateway/models/users/mysqlstore.go:187-203 | an empty id list gives (nil, nil) without a query; otherwise the select with one placeholder per id, bound in order; a query error is wrapped as "Error loading users for trie", and otherwise the answer is what `extractUserRows` makes of the rows |
| UserStores.ExtractUserRows | servers/gateway/models/users/mysqlstore.go:216-230 | the first row that fails to scan gives its error wrapped as "Error scanning users for trie"; with every row scanned, an iteration error is wrapped as "Error getting next row"; otherwise the users, one per row, in row order; exactly one of users and error is set |
| UserStores.ScannedOrFailed | servers/gateway/models/users/mysqlstore.go:218-224 | either every row scans or there is a first row that does not |
| Channels.Appended | servers/messaging/models/channel.js:53-56 | what `concat` appends: the member itself, or the array's elements in order |
| Channels.Ids | servers/messaging/models/channel.js:68-70 | the member ids, in member order |
| Channels.Channel.constructor | servers/messaging/models/channel.js:3-12 | the given fields, and no members |
| Channels.Channel.ContainsUserId | servers/messaging/models/channel.js:67-72 | true exactly when some member's id is the user id |
| Channels.Channel.PushMembers | servers/messaging/models/channel.js:53-56 | the members gain the argument at the end; membership grows by exactly its ids; no other field changes |
| Channels.Channel.SetId | servers/messaging/models/channel.js:38-40 | only the id changes |
| Channels.Channel.SetName | servers/messaging/models/channel.js:41-43 | only the name changes |
| Channels.Channel.SetDescription | servers/messaging/models/channel.js:44-46 | only the description changes |
| Channels.Channel.SetPrivate | servers/messaging/models/channel.js:47-49 | only the private flag changes |
| Channels.Channel.SetMembers | servers/messaging/models/channel.js:50-52 | only the members change, and membership is exactly the new ids |
| Channels.Channel.SetCreatedAt | servers/messaging/models/channel.js:57-59 | only the creation time changes |
| Channels.Channel.SetCreator | servers/messaging/models/channel.js:60-62 | only the creator changes |
| Channels.Channel.SetEditedAt | servers/messaging/models/channel.js:63-65 | only the edit time changes |
| Channels.NewThenPush | servers/messaging/models/channel.js:3-72 | a new channel contains nobody, and after pushing a member it contains that member's id |
| Summaries.DimsOfSizes | servers/gateway/handlers/summary.go:326-331 | sizes written "HxW" from two numbers split into those two numbers and parse back to them |
| Text.SplitJoin | servers/gateway/handlers/proxy.go:17 | `strings.Split` loses nothing: its pieces joined with the separator give the input back, and no piece holds the separator |
| Text.SplitLength | servers/gateway/handlers/proxy.go:17 | `strings.Split` gives one piece more than the separators in the input |

## Left out

- Concurrency: the mutexes of the trie, the proxy and the notifier, the `readLoop` goroutine and its unlocked map access. Each operation is one atomic step.
- Cryptography and randomness: HMAC-SHA256 is a function parameter whose output is 32 bytes, the 32 random bytes are a parameter, and bcrypt's verdict and zxcvbn are not modelled beyond the password-match input.
- JSON encoding and decoding: whether a value decodes or marshals is an input, and session state is kept as its JSON text.
- Expiry times: a TTL is recorded with each Redis entry but time never passes, so nothing expires; the in-process cache's TTL is not kept at all.
- The Redis store's `TimeLeft` is not modelled: it formats the minutes left as a floating-point number.
- I/O: the Redis and MySQL clients are modelled only through what they return (a stored value, a fault flag, a row or an error).
- Other I/O: the message-queue connection and consumer loop (`connectToMQ` and `processMessages`, servers/gateway/handlers/websockets.go:78-134), the WebSocket upgrade handshake, the `httputil.ReverseProxy` transport, and `fetchHTML`/`SummaryHandler`.
- The HTML tokenizer is replaced by a finite sequence of tokens; a tokenizer error other than the end of input is not modelled.
- `url.ResolveReference` in `convertRelative` is a total function parameter, so the `log.Fatalf` after a failed `url.Parse` there is not modelled.
- Handlers in auth.go other than the specific-user GET/PATCH and sign-in are not part of this model: `UsersHandler`, `SpecificSessionHandler`, `AvatarHandler`, `ResetHandler` and `CompleteResetHandler` (file system, mail and bcrypt work).
- The response bodies and message texts of the handlers are not modelled; only status codes, headers and store effects are.
- MySQL statements other than update, delete and the search select are not part of this model: `Insert`, `InsertLogin`, `GetByID`, `GetByEmail`, `GetByUserName`, `UpdatePhoto`, `UpdatePassword`, `LoadUsers`. Only the error mapping they share (`getBase`) is modelled.
- The channel record's getters are plain field reads and have no rows of their own.
- Indexes.Trie.AddConvertedUsers, Indexes.Trie.RemoveConvertedUsers: the file defining them is not part of this model. They are modelled from their tests: the lower-cased, whitespace-separated tokens of the first and last name, each added or removed with the user's id.
- `Trie.Dump` only logs.
- Cors.Handler.ServeHTTP: the wrapped mux is not modelled here; the header it leaves behind is the parameter `written`, and its own handlers are modelled on their own.
- Cors.CorsHandler.ServeHTTP: cors.go names its header values through lower-case constants that no file defines. The model uses the values of the exported constants in constants.go and the CORS tests.
- Auth.SessionsHandler: the throttle answers 429 from the sixth attempt after five failures, not on the fifth, because the count is read (`>= 5`) before the password is checked. This follows the code.
- Auth.SessionsHandler: the counter is stated unchanged on a successful sign-in only when the client key does not start with "sid:". Client keys and session keys share one Redis key space, and `BeginSession` writes a "sid:" key.
- `getClientKey` of blocker.go, a copy of the one in auth.go, is not modelled again.
- Proxies.ServiceProxy.Director: it sets the scheme and host after the X-User step rather than before. The two steps touch disjoint parts of the request.
- Notifiers.Notifier.BroadcastPublic: it iterates the registry's users in an order given as a parameter, because Go's map order is unspecified. Every order is covered.
- Notifiers.Notifier.ProcessMessages: it runs over a finite sequence of delivered messages; the Go loop waits for the queue forever.
- Summaries.CleanMedia: it builds the cleaned map as a new value instead of rewriting `extracted` in place. Nothing reads the old map afterwards.
- Summaries.ExtractSummary: running out of tokens inside `<head>` is reported as `Spins`, since the Go loop then keeps reading the error token; `log.Fatalf` is `Exits`.
- Summaries.ExtractSummary: it runs either the code as written (`AsWritten`) or the corrected code (`Corrected`), chosen by a parameter. The two differ only in `getIcon` and in the secure URL of videos (see Findings).
- Indexes.NameTokens: it lower-cases ASCII letters only, while Go's `strings.ToLower` folds every Unicode letter; the same holds for Indexes.Trie.AddConvertedUsers and Indexes.Trie.RemoveConvertedUsers. Names with non-ASCII capitals are tokenised with those capitals kept.

## Findings

| source | as written | input that shows it | evidently intended | confidence | as-written member | corrected member |
|---|---|---|---|---|---|---|
| servers/gateway/indexes/trie.go:84-96 | `findHelper` takes `result` by value and appends to its own copy, so `Find` always answers an empty slice | ("a", 1) held, `Find("a", 1)` answers [] | [1]: the ids under the prefix, at most n | not executed | Indexes.FindLosesResults | Indexes.Trie.Find |
| servers/gateway/indexes/trie.go:113-119 | `Remove` walks the key without checking that each child exists | with ("a", 1) held, `Remove("ab", 1)` dereferences a nil child | removing a missing pair changes nothing | not executed | Indexes.RemoveMissingPathPanics | Indexes.Trie.Remove |
| servers/gateway/indexes/trie.go:120-121 | `Remove` decrements the length even when the id was not at the key | ("a", 1) held, `Remove("a", 2)` leaves length 0 with one pair still held | the length counts held pairs | not executed | Indexes.RemoveAbsentHidesEntries | Indexes.Trie.Remove |
| servers/gateway/indexes/trie.go:107-124 | `Remove` never prunes, although its doc comment promises trimming | with ("a", 1) and ("b", 2) held, `Remove("a", 1)` leaves the empty node of "a", so `Find("a", 1)` answers [] instead of nil | nodes left with no ids and no children are unlinked | not executed | Indexes.RemoveLeavesEmptyBranch | Indexes.Trie.Remove |
| servers/gateway/sessions/sessionid.go:87 | `ValidateID` slices the decoded bytes at 32 without checking their length | the id "AAAA" (3 decoded bytes) panics | a short id is `ErrInvalidID` | not executed | SessionIds.ShortIdPanics | SessionIds.ValidateId |
| servers/gateway/handlers/notifier.go:47-48 | `readLoop` splices at `findConn`'s answer, which is -1 once a failed broadcast has already dropped the connection | a broadcast write to c fails, then c's read fails: the slice expression gets -1 and panics | a connection no longer registered is left alone | not executed | Notifiers.BroadcastThenReadError | Notifiers.Notifier.ReadLoopRemoval |
| servers/gateway/handlers/summary.go:328-330 | `getIcon` indexes the second piece of sizes split at "x" without checking there is one, and sends the first piece to `convToInt`, which calls `log.Fatalf` on a non-number | sizes "16" panic; sizes "16X16" end the process | sizes that are not "HxW" give zero dimensions | not executed | Summaries.SixteenStops | Summaries.GetIcon |
| servers/gateway/handlers/summary.go:385 | `makeVideos` reads the key "og:vide:secure_url" | a page with `og:video:secure_url` gets an empty secure URL | "og:video:secure_url" | not executed | Summaries.MakeVideosAsWritten | Summaries.MakeVideos |

=== FILE: auth.dfy ===
/**
 * The authentication handlers' decision logic (`handlers/auth.go`): reading
 * a user id from the request path, the client key the login throttle counts
 * failures under, the media-type check before a body is decoded, the
 * sign-in handler with its failure counter, and the user handler whose
 * PATCH keeps the search trie in step with a user's names.
 *
 * The user store (SQL), bcrypt and JSON are not modelled: what they answer
 * is an input of each handler. The fields of the handler context are
 * parameters.
 */
module Auth {
  import opened Wrappers
  import opened Text
  import opened Http
  import opened Base64
  import opened SessionIds
  import opened RedisStores
  import opened Stores
  import opened Sessions
  import opened Indexes

  const HeaderContentType := "Content-Type"
  const ContentTypeJson := "application/json"
  const HeaderForwardedFor := "X-Forwarded-For"
  const HeaderRetryAfter := "Retry-After"
  const MethodGet := "GET"
  const MethodPost := "POST"
  const MethodPatch := "PATCH"
  /** The path segment that names the signed-in user. */
  const Me := "me"

  /** The fields of a user the handlers read. */
  datatype User = User(id: Int64, userName: string, firstName: string, lastName: string)

  // ---------------------------------------------------------------------------
  // Request helpers

  /** The text after the last '/', once trailing slashes are gone. */
  function LastSegment(p: string): (s: string)
    ensures '/' !in s
    ensures |s| <= |p|
    decreases |p|
  {
    if p == [] then []
    else if p[|p| - 1] == '/' then []
    else LastSegment(p[..|p| - 1]) + [p[|p| - 1]]
  }

  function TrimTrailingSlashes(p: string): (t: string)
    ensures |t| <= |p| && t == p[..|t|]
    ensures t == [] || t[|t| - 1] != '/'
  {
    if p != [] && p[|p| - 1] == '/' then TrimTrailingSlashes(p[..|p| - 1]) else p
  }

  /** `path.Base`: "." for an empty path, "/" for a path of slashes only, else the last element. */
  function PathBase(p: string): (b: string)
    ensures b != []
    ensures p == [] ==> b == "."
    ensures b == "/" || '/' !in b
  {
    if p == [] then "."
    else
      var t := TrimTrailingSlashes(p);
      var s := LastSegment(t);
      if s == [] then "/" else s
  }

  lemma {:induction false} LastSegmentAppend(dir: string, id: string)
    requires '/' !in id
    ensures LastSegment(dir + "/" + id) == id
    decreases |id|
  {
    var p := dir + "/" + id;
    if id == [] {
      assert p[|p| - 1] == '/';
    } else {
      assert p[..|p| - 1] == dir + "/" + id[..|id| - 1];
      LastSegmentAppend(dir, id[..|id| - 1]);
      assert id[..|id| - 1] + [id[|id| - 1]] == id;
    }
  }

  /** A path ending in "/<id>" names the id, whatever comes before. */
  lemma PathBaseOfId(dir: string, id: string)
    requires id != [] && '/' !in id
    ensures PathBase(dir + "/" + id) == id
  {
    var p := dir + "/" + id;
    assert p[|p| - 1] == id[|id| - 1];
    LastSegmentAppend(dir, id);
  }

  datatype IdError = NotAnInt64

  /**
   * `parseID`: "me" is the signed-in user's id; anything else must be a
   * base-10 int64 (`strconv.ParseInt`), or the error comes back.
   */
  function ParseId(passedId: string, sessionUser: User): (r: Result<Int64, IdError>)
    ensures passedId == Me ==> r == Success(sessionUser.id)
    ensures passedId != Me ==> (r.Success? <==> ParseInt(passedId).Some?)
    ensures passedId != Me && r.Success? ==> ParseInt(passedId) == Some(r.value)
  {
    if passedId == Me then Success(sessionUser.id)
    else
      var n := ParseInt(passedId);
      if n.None? then Failure(NotAnInt64) else Success(n.value)
  }

  /** Every id written in decimal is read back as itself, for any signed-in user. */
  lemma ParseIdFormat(x: Int64, sessionUser: User)
    ensures ParseId(FormatInt(x), sessionUser) == Success(x)
  {
    ParseFormat(x);
  }

  /**
   * `getClientKey`: the first comma-separated element of X-Forwarded-For,
   * as it stands (not trimmed), when that header is non-empty; otherwise
   * the connection's remote address.
   */
  function GetClientKey(fields: map<string, seq<string>>, remoteAddr: string): (key: string)
    ensures First(fields, HeaderForwardedFor) == "" ==> key == remoteAddr
    ensures var f := First(fields, HeaderForwardedFor);
      f != "" ==> HasPrefix(f, key) && ',' !in key && (key == f || f[|key|] == ',')
  {
    var f := First(fields, HeaderForwardedFor);
    if f != "" then
      SplitFirst(f, ',');
      Split(f, ',')[0]
    else remoteAddr
  }

  /**
   * `decodeReq`: 415 when Content-Type does not start with
   * "application/json", whatever the body; 400 when the body does not
   * decode; 200 otherwise.
   */
  function DecodeReq(contentType: string, bodyDecodes: bool): (code: int)
    ensures code == StatusUnsupportedMediaType <==> !HasPrefix(contentType, ContentTypeJson)
    ensures code == StatusBadRequest <==> HasPrefix(contentType, ContentTypeJson) && !bodyDecodes
    ensures code == StatusOK <==> HasPrefix(contentType, ContentTypeJson) && bodyDecodes
  {
    if !HasPrefix(contentType, ContentTypeJson) then StatusUnsupportedMediaType
    else if !bodyDecodes then StatusBadRequest
    else StatusOK
  }

  // ---------------------------------------------------------------------------
  // The login throttle

  /** The failure count from which a known user's sign-in is refused. */
  const MaxFailures := 5

  /** What the sign-in handler decides for a known user whose client has `count` failures. */
  datatype Verdict = Locked | WrongPassword | Accepted

  function Judge(count: int, passwordMatches: bool): Verdict {
    if count >= MaxFailures then Locked
    else if passwordMatches then Accepted
    else WrongPassword
  }

  /** The count after a verdict: a refused or wrong attempt adds one failure, a success none. */
  function Next(count: int, v: Verdict): (n: int)
    ensures v == Accepted <==> n == count
    ensures v != Accepted <==> n == count + 1
  {
    if v == Accepted then count else count + 1
  }

  /** The verdicts of a run of sign-in attempts by one client, each a password that matches or not. */
  function Run(count: int, attempts: seq<bool>): (vs: seq<Verdict>)
    ensures |vs| == |attempts|
    decreases |attempts|
  {
    if attempts == [] then []
    else
      var v := Judge(count, attempts[0]);
      [v] + Run(Next(count, v), attempts[1..])
  }

  /** Once a client has five failures, every further attempt is refused, the right password included. */
  lemma {:induction false} LockedStaysLocked(count: int, attempts: seq<bool>)
    requires count >= MaxFailures
    ensures forall i :: 0 <= i < |attempts| ==> Run(count, attempts)[i] == Locked
    decreases |attempts|
  {
    if attempts != [] {
      LockedStaysLocked(count + 1, attempts[1..]);
    }
  }

  /** Below five failures the right password is accepted. */
  lemma AcceptedBelowLimit(count: int)
    requires count < MaxFailures
    ensures Judge(count, true) == Accepted
  {
  }

  /**
   * From a clean record, five wrong passwords are answered as such and the
   * sixth attempt is refused, even with the right password.
   */
  lemma {:induction false} SixthAttemptLocked()
    ensures Run(0, [false, false, false, false, false, true]) ==
      [WrongPassword, WrongPassword, WrongPassword, WrongPassword, WrongPassword, Locked]
  {
    var a := [false, false, false, false, false, true];
    assert a[1..] == [false, false, false, false, true];
    assert a[1..][1..] == [false, false, false, true];
    assert a[1..][1..][1..] == [false, false, true];
    assert a[1..][1..][1..][1..] == [false, true];
    assert a[1..][1..][1..][1..][1..] == [true];
  }

  /**
   * The outcomes of the Redis client calls one sign-in makes: the INCRBY
   * that reads the count and the EXPIRE it arms when the count is exactly
   * five, the INCRBY and EXPIRE of a failure, and the SET of the session.
   */
  datatype ClientFaults = ClientFaults(read: bool, readExpire: bool, bump: bool, expire: bool, save: bool)

  /**
   * Whether reading the count (an increment by 0) answers an error: the
   * client call fails, or the count is exactly five and its EXPIRE fails.
   */
  predicate ReadFails(store: Store, c: Option<Int64>, faults: ClientFaults) {
    c.None? || (store.Redis? && (faults.read || (c.value == LockoutCount && faults.readExpire)))
  }

  /** The count a failed attempt leaves: one more, unless the increment failed or the store keeps no count. */
  ghost function Bumped(store: Store, count: Int64, faults: ClientFaults): Option<Int64> {
    if store.Redis? && !faults.bump && count + 1 <= MaxInt64 then Some(count + 1) else Some(count)
  }

  /** Whether the increment of a failed attempt answers an error. */
  predicate BumpFails(store: Store, count: Int64, faults: ClientFaults) {
    store.Redis? && (faults.bump || count + 1 > MaxInt64 || (count + 1 == LockoutCount && faults.expire))
  }

  /**
   * How the counter step of a sign-in ends when it answers: a failed read
   * of the count (including the EXPIRE it arms at five) is a 500 that
   * leaves the count as it was; a locked-out client gets 429 with a Retry-After
   * header and one more failure; a wrong password counts one failure and
   * gets 401, or 500 when that increment failed.
   */
  ghost predicate Answered(store: Store, ip: string, c: Option<Int64>, passwordMatches: bool, faults: ClientFaults,
                           w0: map<string, seq<string>>, w1: map<string, seq<string>>, status: int)
    reads Footprint(store)
  {
    if ReadFails(store, c, faults) then
      status == StatusInternalServerError && Failures(store, ip) == c && w1 == w0
    else match Judge(c.value, passwordMatches)
      case Locked =>
        status == StatusTooManyRequests && Failures(store, ip) == Bumped(store, c.value, faults) &&
        w1 == w0[HeaderRetryAfter := Values(w0, HeaderRetryAfter) + [HeaderRetryAfter]]
      case WrongPassword =>
        status == (if BumpFails(store, c.value, faults) then StatusInternalServerError else StatusUnauthorized) &&
        Failures(store, ip) == Bumped(store, c.value, faults) && w1 == w0
      case Accepted => false
  }

  /** Whether the counter step lets a known user's sign-in through to the session. */
  predicate PassesThrottle(store: Store, c: Option<Int64>, passwordMatches: bool, faults: ClientFaults) {
    !ReadFails(store, c, faults) && Judge(c.value, passwordMatches) == Accepted
  }

  /**
   * The counter step of `SessionsHandler` for a known user: read the
   * client's failure count with an increment by 0, refuse a client with
   * five or more, then check the password. None means the sign-in goes on.
   */
  method CountFailures(store: Store, ip: string, passwordMatches: bool, faults: ClientFaults, w: Header)
    returns (answer: Option<int>)
    modifies Footprint(store), w
    ensures answer.None? <==> PassesThrottle(store, old(Failures(store, ip)), passwordMatches, faults)
    ensures answer.None? ==> Failures(store, ip) == old(Failures(store, ip)) && unchanged(w)
    ensures answer.Some? ==>
      Answered(store, ip, old(Failures(store, ip)), passwordMatches, faults, old(w.fields), w.fields, answer.value)
    ensures forall x :: Saved(store, x) == old(Saved(store, x)) || RedisKey(x) == ip
  {
    var currFails, err := Increment(store, ip, 0, faults.read, faults.readExpire);
    if err.Some? {
      return Some(StatusInternalServerError);
    }
    assert Failures(store, ip) == Some(currFails);
    if currFails >= MaxFailures {
      var _ := CountFailure(store, ip, currFails, faults);
      w.Add(HeaderRetryAfter, HeaderRetryAfter);
      return Some(StatusTooManyRequests);
    }
    if !passwordMatches {
      var bumpErr := CountFailure(store, ip, currFails, faults);
      if bumpErr.Some? {
        return Some(StatusInternalServerError);
      }
      return Some(StatusUnauthorized);
    }
    return None;
  }

  /** The increment that counts one more failed attempt of a client whose count is `c`. */
  method CountFailure(store: Store, ip: string, c: Int64, faults: ClientFaults) returns (err: Option<StoreError>)
    requires Failures(store, ip) == Some(c)
    modifies Footprint(store)
    ensures Failures(store, ip) == Bumped(store, c, faults)
    ensures err.Some? <==> BumpFails(store, c, faults)
    ensures forall x :: Saved(store, x) == old(Saved(store, x)) || RedisKey(x) == ip
  {
    var _, e := Increment(store, ip, 1, faults.bump, faults.expire);
    err := e;
  }

  /**
   * The end of a sign-in that passed the counter step: the sign-in record
   * must have been written, then a session begins for the user (201).
   */
  method StartSession(signingKey: string, store: Store, loginInserted: bool, json: Option<string>, w: Header,
                      random: Option<seq<Byte>>, mac: Hmac, saveFault: bool)
    returns (status: int)
    requires random.Some? ==> |random.value| == IdLength
    modifies Footprint(store), w
    ensures status == StatusCreated <==>
      loginInserted && NewSessionId(signingKey, random, mac).Success? && json.Some? && !(store.Redis? && saveFault)
    ensures status != StatusCreated ==> status == StatusInternalServerError
    ensures status == StatusCreated ==> Saved(store, NewSessionId(signingKey, random, mac).value) == json
    ensures forall k: string :: !HasPrefix(k, "sid:") ==> Failures(store, k) == old(Failures(store, k))
  {
    if !loginInserted {
      return StatusInternalServerError;
    }
    var _, beginErr := BeginSession(signingKey, store, json, w, random, mac, saveFault);
    if beginErr.Some? {
      return StatusInternalServerError;
    }
    return StatusCreated;
  }

  /** A sign-in request that reaches the counter step: a POST with a JSON body naming a known user. */
  predicate Known(r: Request, bodyDecodes: bool, found: Option<User>)
    reads r.header
  {
    r.verb == MethodPost && DecodeReq(r.header.Get(HeaderContentType), bodyDecodes) == StatusOK && found.Some?
  }

  /**
   * `SessionsHandler`: the sign-in of a user by email and password. Only
   * POST is served, the body must be JSON, an unknown email is refused
   * without touching the counter, a client with five or more failures is
   * refused (429) and counted again before the password is checked, a wrong
   * password counts one failure, and a right one begins a session.
   *
   * `bodyDecodes`, `found` (the user with the given email),
   * `passwordMatches`, `loginInserted` (the sign-in record was written),
   * `json` (the marshalled session state), `random` and `mac` are inputs.
   * The answer's body is not modelled; `status` is its code.
   */
  method SessionsHandler(r: Request, w: Header, signingKey: string, store: Store, bodyDecodes: bool,
                         found: Option<User>, passwordMatches: bool, loginInserted: bool,
                         json: Option<string>, random: Option<seq<Byte>>, mac: Hmac, faults: ClientFaults)
    returns (status: int)
    requires random.Some? ==> |random.value| == IdLength
    requires w != r.header
    modifies Footprint(store), w
    ensures r.verb != MethodPost ==> status == StatusMethodNotAllowed && unchanged(Footprint(store)) && unchanged(w)
    ensures var code := DecodeReq(r.header.Get(HeaderContentType), bodyDecodes);
      r.verb == MethodPost && code != StatusOK ==> status == code && unchanged(Footprint(store)) && unchanged(w)
    ensures r.verb == MethodPost && DecodeReq(r.header.Get(HeaderContentType), bodyDecodes) == StatusOK && found.None? ==>
      status == StatusUnauthorized && unchanged(Footprint(store)) && unchanged(w)
    ensures var ip := GetClientKey(r.header.fields, r.remoteAddr);
      Known(r, bodyDecodes, found) && !PassesThrottle(store, old(Failures(store, ip)), passwordMatches, faults) ==>
        Answered(store, ip, old(Failures(store, ip)), passwordMatches, faults, old(w.fields), w.fields, status)
    ensures var ip := GetClientKey(r.header.fields, r.remoteAddr);
      Known(r, bodyDecodes, found) && PassesThrottle(store, old(Failures(store, ip)), passwordMatches, faults) ==>
        (status == StatusCreated <==> loginInserted && NewSessionId(signingKey, random, mac).Success? &&
                                      json.Some? && !(store.Redis? && faults.save)) &&
        (status != StatusCreated ==> status == StatusInternalServerError) &&
        (status == StatusCreated ==> Saved(store, NewSessionId(signingKey, random, mac).value) == json)
    ensures var ip := GetClientKey(r.header.fields, r.remoteAddr);
      (Known(r, bodyDecodes, found) && PassesThrottle(store, old(Failures(store, ip)), passwordMatches, faults) &&
       !HasPrefix(ip, "sid:")) ==> Failures(store, ip) == old(Failures(store, ip))
  {
    if r.verb != MethodPost {
      return StatusMethodNotAllowed;
    }
    var code := DecodeReq(r.header.Get(HeaderContentType), bodyDecodes);
    if code != StatusOK {
      return code;
    }
    if found.None? {
      return StatusUnauthorized;
    }
    var ip := GetClientKey(r.header.fields, r.remoteAddr);
    var answer := CountFailures(store, ip, passwordMatches, faults, w);
    if answer.Some? {
      return answer.value;
    }
    status := StartSession(signingKey, store, loginInserted, json, w, random, mac, faults.save);
  }

  // ---------------------------------------------------------------------------
  // One user's resource

  /**
   * The user of the request's session: the session id must validate, state
   * must be saved under it, and that state must decode (`state` reads the
   * user out of the session state's JSON).
   */
  ghost function SessionUser(r: Request, signingKey: string, mac: Hmac, store: Store, state: string -> Option<User>)
    : Option<User>
    reads r.header, Footprint(store)
  {
    var id := GetSessionId(r.header.fields, r.query, signingKey, mac);
    if id.Failure? then None
    else
      var j := Saved(store, id.value);
      if j.None? then None else state(j.value)
  }

  /**
   * The session check that opens `SpecificUserHandler`: `GetState` with the
   * user read out of the state; None when it fails.
   */
  method SignedInUser(r: Request, signingKey: string, mac: Hmac, store: Store, state: string -> Option<User>, fault: bool)
    returns (u: Option<User>)
    modifies Footprint(store)
    ensures u == if store.Redis? && fault then None else old(SessionUser(r, signingKey, mac, store, state))
    ensures forall x :: Saved(store, x) == old(Saved(store, x))
  {
    ghost var id := GetSessionId(r.header.fields, r.query, signingKey, mac);
    ghost var saved := if id.Success? then Saved(store, id.value) else None;
    assert SessionUser(r, signingKey, mac, store, state) == if saved.None? then None else state(saved.value);
    var decodes := j => state(j).Some?;
    var sid, json, err := GetState(r, signingKey, mac, store, decodes, fault);
    if err.Some? {
      if saved.Some? && !(store.Redis? && fault) {
        assert decodes(saved.value) == state(saved.value).Some?;
      }
      return None;
    }
    assert saved == Some(json);
    return state(json);
  }

  /**
   * The search entries after a user is updated from `before` to `after`:
   * the tokens of the old first and last names no longer lead to the user,
   * the tokens of every new name do. The old user name's tokens stay.
   */
  ghost function Renamed(entries: set<(string, Int64)>, before: User, after: User): set<(string, Int64)> {
    entries - Tagged(NameTokens([before.firstName, before.lastName]), before.id)
    + Tagged(NameTokens([after.firstName, after.lastName, after.userName]), after.id)
  }

  /**
   * The PATCH branch of `SpecificUserHandler`: only the signed-in user may
   * update themself (403 otherwise, with nothing changed); the body must be
   * JSON; once the user store has applied the update (`updated`), the old
   * first and last names' tokens are dropped from the search trie and the
   * updated user's names are indexed.
   */
  method PatchUser(r: Request, trie: Trie, sessionUser: User, reqId: Int64, bodyDecodes: bool, updated: Option<User>)
    returns (status: int)
    requires trie.Valid()
    modifies trie
    ensures trie.Valid()
    ensures status == StatusForbidden <==> reqId != sessionUser.id
    ensures reqId == sessionUser.id && DecodeReq(r.header.Get(HeaderContentType), bodyDecodes) != StatusOK ==>
      status == DecodeReq(r.header.Get(HeaderContentType), bodyDecodes)
    ensures reqId == sessionUser.id && DecodeReq(r.header.Get(HeaderContentType), bodyDecodes) == StatusOK ==>
      status == (if updated.None? then StatusInternalServerError else StatusOK)
    ensures status != StatusOK ==> unchanged(trie)
    ensures status == StatusOK ==> updated.Some? && trie.Contents == Renamed(old(trie.Contents), sessionUser, updated.value)
  {
    if reqId != sessionUser.id {
      return StatusForbidden;
    }
    var code := DecodeReq(r.header.Get(HeaderContentType), bodyDecodes);
    if code != StatusOK {
      return code;
    }
    if updated.None? {
      return StatusInternalServerError;
    }
    var u := updated.value;
    trie.RemoveConvertedUsers(sessionUser.firstName, sessionUser.lastName, sessionUser.id);
    trie.AddConvertedUsers(u.firstName, u.lastName, u.userName, u.id);
    return StatusOK;
  }

  /**
   * `SpecificUserHandler` once the session user and the requested id are
   * known: GET answers the user the store finds (`lookedUp`, 404 when none),
   * PATCH updates the signed-in user, other methods get 405.
   */
  method ServeUser(r: Request, trie: Trie, sessionUser: User, reqId: Int64, lookedUp: Option<User>, bodyDecodes: bool,
                   updated: Option<User>)
    returns (status: int)
    requires trie.Valid()
    modifies trie
    ensures trie.Valid()
    ensures r.verb == MethodGet ==> status == (if lookedUp.None? then StatusNotFound else StatusOK)
    ensures r.verb == MethodPatch ==> (status == StatusForbidden <==> reqId != sessionUser.id)
    ensures r.verb != MethodGet && r.verb != MethodPatch ==> status == StatusMethodNotAllowed
    ensures !(r.verb == MethodPatch && status == StatusOK) ==> unchanged(trie)
    ensures r.verb == MethodPatch && status == StatusOK ==>
      updated.Some? && trie.Contents == Renamed(old(trie.Contents), sessionUser, updated.value)
  {
    if r.verb == MethodGet {
      return if lookedUp.None? then StatusNotFound else StatusOK;
    } else if r.verb == MethodPatch {
      status := PatchUser(r, trie, sessionUser, reqId, bodyDecodes, updated);
    } else {
      return StatusMethodNotAllowed;
    }
  }

  /**
   * `SpecificUserHandler`: 401 without a valid session, 500 when the last
   * path segment is neither "me" nor an int64, then GET answers the user
   * the store finds (`lookedUp`, 404 when none) and PATCH updates the
   * signed-in user; other methods get 405. Only a successful PATCH changes
   * the trie.
   */
  method SpecificUserHandler(r: Request, signingKey: string, mac: Hmac, store: Store, trie: Trie,
                             state: string -> Option<User>, lookedUp: Option<User>, bodyDecodes: bool,
                             updated: Option<User>, fault: bool)
    returns (status: int)
    requires trie.Valid()
    modifies Footprint(store), trie
    ensures trie.Valid()
    ensures forall x :: Saved(store, x) == old(Saved(store, x))
    ensures var u := old(SessionUser(r, signingKey, mac, store, state));
      u.None? || (store.Redis? && fault) ==> status == StatusUnauthorized
    ensures var u := old(SessionUser(r, signingKey, mac, store, state));
      u.Some? && !(store.Redis? && fault) ==>
        var reqId := ParseId(PathBase(r.path), u.value);
        (reqId.Failure? ==> status == StatusInternalServerError) &&
        (reqId.Success? && r.verb == MethodGet ==> status == (if lookedUp.None? then StatusNotFound else StatusOK)) &&
        (reqId.Success? && r.verb == MethodPatch ==> (status == StatusForbidden <==> reqId.value != u.value.id)) &&
        (reqId.Success? && r.verb != MethodGet && r.verb != MethodPatch ==> status == StatusMethodNotAllowed)
    ensures var u := old(SessionUser(r, signingKey, mac, store, state));
      !(u.Some? && r.verb == MethodPatch && status == StatusOK) ==> unchanged(trie)
    ensures var u := old(SessionUser(r, signingKey, mac, store, state));
      u.Some? && r.verb == MethodPatch && status == StatusOK ==>
        updated.Some? && trie.Contents == Renamed(old(trie.Contents), u.value, updated.value)
  {
    var signedIn := SignedInUser(r, signingKey, mac, store, state, fault);
    status := AnswerUser(r, trie, signedIn, lookedUp, bodyDecodes, updated);
  }

  /** The rest of `SpecificUserHandler` once the session check has given `signedIn`. */
  method AnswerUser(r: Request, trie: Trie, signedIn: Option<User>, lookedUp: Option<User>, bodyDecodes: bool,
                    updated: Option<User>)
    returns (status: int)
    requires trie.Valid()
    modifies trie
    ensures trie.Valid()
    ensures signedIn.None? ==> status == StatusUnauthorized
    ensures signedIn.Some? ==>
      var reqId := ParseId(PathBase(r.path), signedIn.value);
      (reqId.Failure? ==> status == StatusInternalServerError) &&
      (reqId.Success? && r.verb == MethodGet ==> status == (if lookedUp.None? then StatusNotFound else StatusOK)) &&
      (reqId.Success? && r.verb == MethodPatch ==> (status == StatusForbidden <==> reqId.value != signedIn.value.id)) &&
      (reqId.Success? && r.verb != MethodGet && r.verb != MethodPatch ==> status == StatusMethodNotAllowed)
    ensures !(signedIn.Some? && r.verb == MethodPatch && status == StatusOK) ==> unchanged(trie)
    ensures signedIn.Some? && r.verb == MethodPatch && status == StatusOK ==>
      updated.Some? && trie.Contents == Renamed(old(trie.Contents), signedIn.value, updated.value)
  {
    if signedIn.None? {
      return StatusUnauthorized;
    }
    var sessionUser := signedIn.value;
    var reqId := ParseId(PathBase(r.path), sessionUser);
    if reqId.Failure? {
      return StatusInternalServerError;
    }
    status := ServeUser(r, trie, sessionUser, reqId.value, lookedUp, bodyDecodes, updated);
  }
}

=== FILE: base64.dfy ===
/**
 * The URL-safe base64 alphabet with padding (section 5 of RFC 4648), as Go's
 * `base64.URLEncoding` writes and reads it: `EncodeToString` emits groups of
 * four symbols with `=` padding, and `DecodeString` skips carriage returns and
 * line feeds, requires the padding, and ignores leftover low bits of the last
 * symbol (the encoding is not in strict mode).
 */
module Base64 {
  import opened Wrappers

  type Byte = x: int | 0 <= x < 256

  /** The symbol of a 6-bit value: `A`-`Z`, `a`-`z`, `0`-`9`, `-`, `_`. */
  function Symbol(i: int): (c: char)
    requires 0 <= i < 64
  {
    if i < 26 then ('A' as int + i) as char
    else if i < 52 then ('a' as int + (i - 26)) as char
    else if i < 62 then ('0' as int + (i - 52)) as char
    else if i == 62 then '-'
    else '_'
  }

  /** The 6-bit value of an alphabet symbol; None for any other rune, `=` included. */
  function Value(c: char): (r: Option<int>)
    ensures r.Some? ==> 0 <= r.value < 64 && Symbol(r.value) == c
  {
    if 'A' <= c <= 'Z' then Some(c as int - 'A' as int)
    else if 'a' <= c <= 'z' then Some(c as int - 'a' as int + 26)
    else if '0' <= c <= '9' then Some(c as int - '0' as int + 52)
    else if c == '-' then Some(62)
    else if c == '_' then Some(63)
    else None
  }

  lemma ValueSymbol(i: int)
    requires 0 <= i < 64
    ensures Value(Symbol(i)) == Some(i)
  {
  }

  /** Three bytes as four symbols. */
  function Full(x: Byte, y: Byte, z: Byte): string {
    [Symbol(x / 4), Symbol(x % 4 * 16 + y / 16), Symbol(y % 16 * 4 + z / 64), Symbol(z % 64)]
  }

  /** A final two bytes: three symbols and one `=`. */
  function Two(x: Byte, y: Byte): string {
    [Symbol(x / 4), Symbol(x % 4 * 16 + y / 16), Symbol(y % 16 * 4), '=']
  }

  /** A final byte: two symbols and two `=`. */
  function One(x: Byte): string {
    [Symbol(x / 4), Symbol(x % 4 * 16), '=', '=']
  }

  /** Every byte string encodes; three bytes become four symbols, a short tail is padded. */
  function Encode(b: seq<Byte>): (s: string)
    ensures |s| == 4 * ((|b| + 2) / 3)
    ensures forall k :: 0 <= k < |s| ==> s[k] != '\r' && s[k] != '\n'
    decreases |b|
  {
    if |b| == 0 then []
    else if |b| == 1 then One(b[0])
    else if |b| == 2 then Two(b[0], b[1])
    else
      assert (|b| + 2) / 3 == (|b[3..]| + 2) / 3 + 1;
      Full(b[0], b[1], b[2]) + Encode(b[3..])
  }

  /** The runes `DecodeString` looks at: everything but carriage returns and line feeds. */
  function Significant(s: string): (t: string)
    ensures |t| <= |s|
  {
    if s == [] then []
    else if s[0] == '\r' || s[0] == '\n' then Significant(s[1..])
    else [s[0]] + Significant(s[1..])
  }

  /** One group of four symbols, the last one possibly padded. */
  function DecodeGroup(g: string, last: bool): (r: Option<seq<Byte>>)
    requires |g| == 4
    ensures r.Some? ==> 1 <= |r.value| <= 3
    ensures r.Some? && !last ==> |r.value| == 3
  {
    var v0, v1, v2, v3 := Value(g[0]), Value(g[1]), Value(g[2]), Value(g[3]);
    if v0.None? || v1.None? then None
    else if last && g[2] == '=' && g[3] == '=' then
      Some([v0.value * 4 + v1.value / 16])
    else if v2.None? then None
    else if last && g[3] == '=' then
      Some([v0.value * 4 + v1.value / 16, v1.value % 16 * 16 + v2.value / 4])
    else if v3.None? then None
    else
      Some([v0.value * 4 + v1.value / 16, v1.value % 16 * 16 + v2.value / 4, v2.value % 4 * 64 + v3.value])
  }

  /** Decoding once newlines are gone: whole groups of four, padding only in the last. */
  function DecodeGroups(t: string): (r: Option<seq<Byte>>)
    decreases |t|
  {
    if t == [] then Some([])
    else if |t| < 4 then None
    else
      var g := DecodeGroup(t[..4], |t| == 4);
      if g.None? then None
      else
        var rest := DecodeGroups(t[4..]);
        if rest.None? then None else Some(g.value + rest.value)
  }

  /** `base64.URLEncoding.DecodeString`: None stands for Go's CorruptInputError. */
  function Decode(s: string): (r: Option<seq<Byte>>)
  {
    DecodeGroups(Significant(s))
  }

  lemma {:induction false} SignificantEncoded(s: string)
    requires forall k :: 0 <= k < |s| ==> s[k] != '\r' && s[k] != '\n'
    ensures Significant(s) == s
  {
    if s != [] {
      SignificantEncoded(s[1..]);
    }
  }

  lemma FullRoundTrip(x: Byte, y: Byte, z: Byte, last: bool)
    ensures DecodeGroup(Full(x, y, z), last) == Some([x, y, z])
  {
    var a, b, c, d := x / 4, x % 4 * 16 + y / 16, y % 16 * 4 + z / 64, z % 64;
    ValueSymbol(a);
    ValueSymbol(b);
    ValueSymbol(c);
    ValueSymbol(d);
    var g := Full(x, y, z);
    assert Value(g[0]) == Some(a) && Value(g[1]) == Some(b) && Value(g[2]) == Some(c) && Value(g[3]) == Some(d);
    FullArith(x, y, z);
  }

  /** The bit arithmetic of a full group: four 6-bit values give back the three bytes. */
  lemma FullArith(x: Byte, y: Byte, z: Byte)
    ensures var a, b, c, d := x / 4, x % 4 * 16 + y / 16, y % 16 * 4 + z / 64, z % 64;
      a * 4 + b / 16 == x && b % 16 * 16 + c / 4 == y && c % 4 * 64 + d == z
  {
    var b, c := x % 4 * 16 + y / 16, y % 16 * 4 + z / 64;
    assert b / 16 == x % 4 && b % 16 == y / 16;
    assert c / 4 == y % 16 && c % 4 == z / 64;
  }

  lemma TwoRoundTrip(x: Byte, y: Byte)
    ensures DecodeGroup(Two(x, y), true) == Some([x, y])
  {
    ValueSymbol(x / 4);
    ValueSymbol(x % 4 * 16 + y / 16);
    ValueSymbol(y % 16 * 4);
  }

  lemma OneRoundTrip(x: Byte)
    ensures DecodeGroup(One(x), true) == Some([x])
  {
    ValueSymbol(x / 4);
    ValueSymbol(x % 4 * 16);
  }

  lemma DecodeCons(g: string, t: string)
    requires |g| == 4
    ensures DecodeGroups(g + t) ==
      var h := DecodeGroup(g, t == []);
      if h.None? || DecodeGroups(t).None? then None else Some(h.value + DecodeGroups(t).value)
  {
    assert (g + t)[..4] == g && (g + t)[4..] == t;
  }

  lemma LastGroup(g: string)
    requires |g| == 4
    ensures DecodeGroups(g) == DecodeGroup(g, true)
  {
    assert g[..4] == g && g[4..] == [];
    var h := DecodeGroup(g, true);
    if h.Some? {
      assert h.value + [] == h.value;
    }
  }

  lemma ShortRoundTrip(b: seq<Byte>)
    requires 1 <= |b| <= 2
    ensures DecodeGroups(Encode(b)) == Some(b)
  {
    LastGroup(Encode(b));
    if |b| == 1 {
      OneRoundTrip(b[0]);
      assert [b[0]] == b;
    } else {
      TwoRoundTrip(b[0], b[1]);
      assert [b[0], b[1]] == b;
    }
  }

  lemma ConsRoundTrip(g: string, h: seq<Byte>, t: string, u: seq<Byte>)
    requires |g| == 4 && DecodeGroup(g, t == []) == Some(h) && DecodeGroups(t) == Some(u)
    ensures DecodeGroups(g + t) == Some(h + u)
  {
    DecodeCons(g, t);
  }

  lemma FullStep(b: seq<Byte>)
    requires |b| >= 3 && DecodeGroups(Encode(b[3..])) == Some(b[3..])
    ensures DecodeGroups(Encode(b)) == Some(b)
  {
    var tail := b[3..];
    EncodeEmpty(tail);
    FullRoundTrip(b[0], b[1], b[2], Encode(tail) == []);
    ConsRoundTrip(Full(b[0], b[1], b[2]), [b[0], b[1], b[2]], Encode(tail), tail);
    assert Encode(b) == Full(b[0], b[1], b[2]) + Encode(tail);
    Split3(b);
  }

  lemma Split3(b: seq<Byte>)
    requires |b| >= 3
    ensures [b[0], b[1], b[2]] + b[3..] == b
  {
  }

  lemma {:induction false} GroupsRoundTrip(b: seq<Byte>)
    ensures DecodeGroups(Encode(b)) == Some(b)
    decreases |b|
  {
    if 1 <= |b| <= 2 {
      ShortRoundTrip(b);
    } else if |b| >= 3 {
      GroupsRoundTrip(b[3..]);
      FullStep(b);
    }
  }

  /** Decoding what was encoded gives the bytes back. */
  lemma RoundTrip(b: seq<Byte>)
    ensures Decode(Encode(b)) == Some(b)
  {
    SignificantEncoded(Encode(b));
    GroupsRoundTrip(b);
  }

  /** Only the empty text decodes to no bytes; a non-empty encoding is non-empty. */
  lemma EncodeEmpty(b: seq<Byte>)
    ensures Encode(b) == [] <==> b == []
  {
  }
}

=== FILE: channel.dfy ===
/**
 * The messaging service's `Channel` record (`servers/messaging/models/channel.js`):
 * a channel's fields, its member list, and the membership test. A member is
 * a user object; only its `id` is read, and the rest of the object is kept
 * as an opaque profile.
 */
module Channels {

  /** A member object: its `id` and the rest of the user record. */
  datatype Member = Member(id: int, profile: string)

  /** The argument of `pushMembers`: one member, or an array of members. */
  datatype Pushed = One(member: Member) | Many(members: seq<Member>)

  /** What `Array.prototype.concat` appends for the argument: the member itself, or the array's elements. */
  function Appended(p: Pushed): (ms: seq<Member>)
    ensures p.One? ==> |ms| == 1 && ms[0] == p.member
    ensures p.Many? ==> |ms| == |p.members| && forall k :: 0 <= k < |ms| ==> ms[k] == p.members[k]
  {
    match p
    case One(m) => [m]
    case Many(ms) => ms
  }

  /** The member ids, in member order (`members.map(member => member.id)`). */
  function Ids(members: seq<Member>): (ids: seq<int>)
    ensures |ids| == |members| && forall k :: 0 <= k < |ids| ==> ids[k] == members[k].id
  {
    seq(|members|, k requires 0 <= k < |members| => members[k].id)
  }

  class Channel {
    var id: int
    var name: string
    var description: string
    var isPrivate: bool
    var members: seq<Member>
    var createdAt: string
    var creator: Member
    var editedAt: string

    /** A new channel has the given fields and no members. */
    constructor (id: int, name: string, description: string, newPrivate: bool, createdAt: string,
                 creator: Member, editedAt: string)
      ensures this.id == id && this.name == name && this.description == description
      ensures this.isPrivate == newPrivate && this.createdAt == createdAt
      ensures this.creator == creator && this.editedAt == editedAt
      ensures members == []
    {
      this.id := id;
      this.name := name;
      this.description := description;
      this.isPrivate := newPrivate;
      this.members := [];
      this.createdAt := createdAt;
      this.creator := creator;
      this.editedAt := editedAt;
    }

    /** `containsUserID`: some member's id is `userId`. */
    predicate ContainsUserId(userId: int)
      reads this
      ensures ContainsUserId(userId) <==> exists k :: 0 <= k < |members| && members[k].id == userId
    {
      userId in Ids(members)
    }

    /** `pushMembers`: the argument is appended through `concat`; membership grows by exactly its ids. */
    method PushMembers(p: Pushed)
      modifies this
      ensures members == old(members) + Appended(p)
      ensures forall userId :: ContainsUserId(userId) <==> old(ContainsUserId(userId)) || userId in Ids(Appended(p))
      ensures id == old(id) && name == old(name) && description == old(description) && isPrivate == old(isPrivate)
      ensures createdAt == old(createdAt) && creator == old(creator) && editedAt == old(editedAt)
    {
      members := members + Appended(p);
      assert Ids(members) == Ids(old(members)) + Ids(Appended(p));
    }

    method SetId(id: int)
      modifies this
      ensures this.id == id
      ensures name == old(name) && description == old(description) && isPrivate == old(isPrivate) && members == old(members)
      ensures createdAt == old(createdAt) && creator == old(creator) && editedAt == old(editedAt)
    {
      this.id := id;
    }

    method SetName(name: string)
      modifies this
      ensures this.name == name
      ensures id == old(id) && description == old(description) && isPrivate == old(isPrivate) && members == old(members)
      ensures createdAt == old(createdAt) && creator == old(creator) && editedAt == old(editedAt)
    {
      this.name := name;
    }

    method SetDescription(description: string)
      modifies this
      ensures this.description == description
      ensures id == old(id) && name == old(name) && isPrivate == old(isPrivate) && members == old(members)
      ensures createdAt == old(createdAt) && creator == old(creator) && editedAt == old(editedAt)
    {
      this.description := description;
    }

    method SetPrivate(newPrivate: bool)
      modifies this
      ensures isPrivate == newPrivate
      ensures id == old(id) && name == old(name) && description == old(description) && members == old(members)
      ensures createdAt == old(createdAt) && creator == old(creator) && editedAt == old(editedAt)
    {
      isPrivate := newPrivate;
    }

    method SetMembers(members: seq<Member>)
      modifies this
      ensures this.members == members
      ensures forall userId :: ContainsUserId(userId) <==> userId in Ids(members)
      ensures id == old(id) && name == old(name) && description == old(description) && isPrivate == old(isPrivate)
      ensures createdAt == old(createdAt) && creator == old(creator) && editedAt == old(editedAt)
    {
      this.members := members;
    }

    method SetCreatedAt(createdAt: string)
      modifies this
      ensures this.createdAt == createdAt
      ensures id == old(id) && name == old(name) && description == old(description) && isPrivate == old(isPrivate)
      ensures members == old(members) && creator == old(creator) && editedAt == old(editedAt)
    {
      this.createdAt := createdAt;
    }

    method SetCreator(creator: Member)
      modifies this
      ensures this.creator == creator
      ensures id == old(id) && name == old(name) && description == old(description) && isPrivate == old(isPrivate)
      ensures members == old(members) && createdAt == old(createdAt) && editedAt == old(editedAt)
    {
      this.creator := creator;
    }

    method SetEditedAt(editedAt: string)
      modifies this
      ensures this.editedAt == editedAt
      ensures id == old(id) && name == old(name) && description == old(description) && isPrivate == old(isPrivate)
      ensures members == old(members) && createdAt == old(createdAt) && creator == old(creator)
    {
      this.editedAt := editedAt;
    }
  }

  /** A new channel contains nobody; after pushing a member, that member's id is contained. */
  method NewThenPush(c: int, m: Member, creator: Member) returns (before: bool, after: bool)
    ensures !before && after
  {
    var ch := new Channel(c, "general", "", false, "", creator, "");
    before := ch.ContainsUserId(m.id);
    ch.PushMembers(One(m));
    after := ch.ContainsUserId(m.id);
  }
}

=== FILE: cors.dfy ===
/**
 * The CORS middleware (`handlers/cors.go`): every response gets the
 * response headers of the CORS protocol (section 3.2.3 of the WHATWG Fetch
 * Standard) before the wrapped handler runs. The handler names the header
 * names and values with identifiers that `handlers/constants.go` defines
 * under capitalised names; those values are used here.
 */
module Cors {
  import opened Http

  const HeaderAccessControlAllowOrigin := "Access-Control-Allow-Origin"
  const HeaderAccessControlAllowMethods := "Access-Control-Allow-Methods"
  const HeaderAccessControlAllowHeaders := "Access-Control-Allow-Headers"
  const HeaderAccessControlExposeHeaders := "Access-Control-Expose-Headers"
  const HeaderAccessControlMaxAge := "Access-Control-Max-Age"
  const OriginAny := "*"
  /** GET, PUT, POST, PATCH and DELETE, joined with ", ". */
  const AllowedMethods := "GET, PUT, POST, PATCH, DELETE"
  const AllowHeadersAuth := "Content-Type, Authorization"
  const ExposeHeadersAuth := "Authorization"
  const MaxAge := "600"

  /** The five header names the middleware adds. */
  function CorsNames(): set<string> {
    {HeaderAccessControlAllowOrigin, HeaderAccessControlAllowMethods, HeaderAccessControlAllowHeaders,
     HeaderAccessControlExposeHeaders, HeaderAccessControlMaxAge}
  }

  /** The values a response's CORS headers hold after the middleware has run on `before`. */
  function WithCors(before: map<string, seq<string>>): (after: map<string, seq<string>>)
  {
    before[HeaderAccessControlAllowOrigin := Values(before, HeaderAccessControlAllowOrigin) + [OriginAny]]
          [HeaderAccessControlAllowMethods := Values(before, HeaderAccessControlAllowMethods) + [AllowedMethods]]
          [HeaderAccessControlAllowHeaders := Values(before, HeaderAccessControlAllowHeaders) + [AllowHeadersAuth]]
          [HeaderAccessControlExposeHeaders := Values(before, HeaderAccessControlExposeHeaders) + [ExposeHeadersAuth]]
          [HeaderAccessControlMaxAge := Values(before, HeaderAccessControlMaxAge) + [MaxAge]]
  }

  /** The five names are distinct, so each `Add` lands on its own header. */
  lemma DistinctNames()
    ensures |CorsNames()| == 5
  {
    assert HeaderAccessControlAllowMethods[21] != HeaderAccessControlAllowHeaders[21];
  }

  /**
   * The wrapped handler (in the gateway, the whole mux), seen from outside:
   * each request it has served, with the response header as it stood when
   * the request was handed over. What it writes to the response is not
   * visible here, so `written` stands for the header it leaves behind.
   */
  class Handler {
    var seen: seq<(Request, map<string, seq<string>>)>

    constructor ()
      ensures seen == []
    {
      seen := [];
    }

    method ServeHTTP(w: Header, r: Request, written: map<string, seq<string>>)
      modifies this, w
      ensures seen == old(seen) + [(r, old(w.fields))]
      ensures w.fields == written
    {
      seen := seen + [(r, w.fields)];
      w.fields := written;
    }
  }

  class CorsHandler {
    const handler: Handler

    /** `NewCorsHandler`. */
    constructor (handler: Handler)
      ensures this.handler == handler
    {
      this.handler := handler;
    }

    /**
     * `ServeHTTP`: each CORS header gains its value after the values it
     * already had (`Header.Add`), and only then does the wrapped handler
     * serve the request, whatever its method, OPTIONS included, so it runs
     * on a header that already carries the CORS values. The final header is
     * whatever the wrapped handler leaves (`written`).
     */
    method ServeHTTP(w: Header, r: Request, written: map<string, seq<string>>)
      modifies w, handler
      ensures handler.seen == old(handler.seen) + [(r, WithCors(old(w.fields)))]
      ensures w.fields == written
    {
      w.Add(HeaderAccessControlAllowOrigin, OriginAny);
      w.Add(HeaderAccessControlAllowMethods, AllowedMethods);
      w.Add(HeaderAccessControlAllowHeaders, AllowHeadersAuth);
      w.Add(HeaderAccessControlExposeHeaders, ExposeHeadersAuth);
      w.Add(HeaderAccessControlMaxAge, MaxAge);
      handler.ServeHTTP(w, r, written);
    }
  }

  /**
   * The middleware's effect on a header map: each CORS header gains exactly
   * its value at the end, and every other header keeps its values.
   */
  lemma CorsValues(before: map<string, seq<string>>, k: string)
    ensures k == HeaderAccessControlAllowOrigin ==> Values(WithCors(before), k) == Values(before, k) + [OriginAny]
    ensures k == HeaderAccessControlAllowMethods ==> Values(WithCors(before), k) == Values(before, k) + [AllowedMethods]
    ensures k == HeaderAccessControlAllowHeaders ==> Values(WithCors(before), k) == Values(before, k) + [AllowHeadersAuth]
    ensures k == HeaderAccessControlExposeHeaders ==> Values(WithCors(before), k) == Values(before, k) + [ExposeHeadersAuth]
    ensures k == HeaderAccessControlMaxAge ==> Values(WithCors(before), k) == Values(before, k) + [MaxAge]
    ensures k !in CorsNames() ==> Values(WithCors(before), k) == Values(before, k)
  {
    DistinctNames();
  }

  /** On a response with no CORS headers yet, each CORS header reads back as exactly its value. */
  lemma FreshResponse(before: map<string, seq<string>>)
    requires forall k :: k in CorsNames() ==> k !in before
    ensures First(WithCors(before), HeaderAccessControlAllowOrigin) == OriginAny
    ensures First(WithCors(before), HeaderAccessControlAllowMethods) == AllowedMethods
    ensures First(WithCors(before), HeaderAccessControlAllowHeaders) == AllowHeadersAuth
    ensures First(WithCors(before), HeaderAccessControlExposeHeaders) == ExposeHeadersAuth
    ensures First(WithCors(before), HeaderAccessControlMaxAge) == MaxAge
  {
    CorsValues(before, HeaderAccessControlAllowOrigin);
    CorsValues(before, HeaderAccessControlAllowMethods);
    CorsValues(before, HeaderAccessControlAllowHeaders);
    CorsValues(before, HeaderAccessControlExposeHeaders);
    CorsValues(before, HeaderAccessControlMaxAge);
  }
}

=== FILE: http.dfy ===
/**
 * The parts of Go's `net/http` the gateway touches: a header map that
 * handlers update in place (`Header.Get`/`Add`/`Set`/`Del`), the parsed query
 * string, and a request record. Header names are used in their canonical
 * form throughout, so the canonicalisation Go applies to keys is the
 * identity here.
 */
module Http {

  /** The values under a name, or none. */
  function Values(fields: map<string, seq<string>>, key: string): seq<string> {
    if key in fields then fields[key] else []
  }

  /** `Header.Get` and `Values.Get`: the first value under a name, or "". */
  function First(fields: map<string, seq<string>>, key: string): (v: string)
    ensures Values(fields, key) == [] ==> v == ""
    ensures Values(fields, key) != [] ==> v == Values(fields, key)[0]
  {
    var vs := Values(fields, key);
    if vs == [] then "" else vs[0]
  }

  /** `http.Header`: each name maps to its values in the order they were added. */
  class Header {
    var fields: map<string, seq<string>>

    constructor (fields0: map<string, seq<string>>)
      ensures fields == fields0
    {
      fields := fields0;
    }

    function Get(key: string): (v: string)
      reads this
    {
      First(fields, key)
    }

    /** Appends a value; the values already under the name stay. */
    method Add(key: string, value: string)
      modifies this
      ensures fields == old(fields)[key := Values(old(fields), key) + [value]]
    {
      fields := fields[key := Values(fields, key) + [value]];
    }

    /** Replaces every value under the name by one. */
    method Set(key: string, value: string)
      modifies this
      ensures fields == old(fields)[key := [value]]
    {
      fields := fields[key := [value]];
    }

    /** Drops the name and all its values. */
    method Del(key: string)
      modifies this
      ensures fields == old(fields) - {key}
    {
      fields := fields - {key};
    }
  }

  /** An incoming request: the parts the gateway reads or rewrites. */
  class Request {
    const verb: string
    const header: Header
    /** `r.URL.Query()`, already parsed. */
    const query: map<string, seq<string>>
    /** `r.URL.Path`. */
    const path: string
    const remoteAddr: string
    /** `r.URL.Scheme` and `r.URL.Host`, rewritten by the proxy. */
    var scheme: string
    var host: string

    constructor (verb: string, header: Header, query: map<string, seq<string>>, path: string, remoteAddr: string)
      ensures this.verb == verb && this.header == header && this.query == query
      ensures this.path == path && this.remoteAddr == remoteAddr
      ensures scheme == "" && host == ""
    {
      this.verb := verb;
      this.header := header;
      this.query := query;
      this.path := path;
      this.remoteAddr := remoteAddr;
      scheme := "";
      host := "";
    }
  }

  // Status codes the handlers answer with
  const StatusOK := 200
  const StatusCreated := 201
  const StatusBadRequest := 400
  const StatusUnauthorized := 401
  const StatusForbidden := 403
  const StatusNotFound := 404
  const StatusMethodNotAllowed := 405
  const StatusUnsupportedMediaType := 415
  /** Section 4 of RFC 6585. */
  const StatusTooManyRequests := 429
  const StatusInternalServerError := 500
}

=== FILE: int64set.dfy ===
/**
 * The trie's per-node id set (`int64set`, a Go map from int64 to the empty
 * struct). The map is updated in place, so it is a class whose one field is
 * the set of members; `all` walks the map in Go's unspecified iteration order,
 * modelled by picking an arbitrary remaining member at each step.
 */
module Int64Sets {
  import opened Wrappers

  /** No element occurs twice. */
  predicate Distinct(s: seq<Int64>) {
    forall i, j :: 0 <= i < j < |s| ==> s[i] != s[j]
  }

  class Int64Set {
    var members: set<Int64>

    constructor ()
      ensures members == {}
    {
      members := {};
    }

    /** Inserts `value`; reports whether it was absent before. */
    method Add(value: Int64) returns (added: bool)
      modifies this
      ensures added <==> value !in old(members)
      ensures members == old(members) + {value}
    {
      added := value !in members;
      members := members + {value};
    }

    /** Deletes `value`; reports whether it was present before. */
    method Remove(value: Int64) returns (removed: bool)
      modifies this
      ensures removed <==> value in old(members)
      ensures members == old(members) - {value}
    {
      removed := value in members;
      members := members - {value};
    }

    /** Membership test; changes nothing. */
    method Has(value: Int64) returns (present: bool)
      ensures present <==> value in members
    {
      present := value in members;
    }

    /** Every member exactly once, in no particular order. */
    method All() returns (ret: seq<Int64>)
      ensures |ret| == |members|
      ensures Distinct(ret)
      ensures forall v :: v in ret <==> v in members
    {
      ret := [];
      var rest := members;
      while rest != {}
        invariant rest <= members
        invariant forall v :: v in ret <==> v in members - rest
        invariant Distinct(ret)
        invariant |ret| + |rest| == |members|
        decreases |rest|
      {
        var k :| k in rest;
        ret := ret + [k];
        rest := rest - {k};
      }
    }
  }
}

=== FILE: memstore.dfy ===
/**
 * The in-process session store (`sessions/memstore.go`). Its cache maps a
 * session id's text to the JSON text of the session state; expiry and the
 * purge interval of the cache are not modelled. The login-throttle and
 * password-reset methods are stubs that keep no state.
 */
module MemStores {
  import opened Wrappers
  import opened SessionIds

  class MemStore {
    /** The cache: session id text to saved JSON. */
    var entries: map<string, string>

    /** `NewMemStore`: an empty cache. */
    constructor ()
      ensures entries == map[]
    {
      entries := map[];
    }

    /**
     * `Save`: `json` is the outcome of `json.Marshal(state)`; on failure the
     * error comes back and nothing is stored.
     */
    method Save(sid: SessionId, json: Option<string>) returns (err: Option<StoreError>)
      modifies this
      ensures err.None? <==> json.Some?
      ensures json.None? ==> err == Some(MarshalFailure) && entries == old(entries)
      ensures json.Some? ==> entries == old(entries)[String(sid) := json.value]
    {
      if json.None? {
        return Some(MarshalFailure);
      }
      entries := entries[String(sid) := json.value];
      return None;
    }

    /**
     * `Get`: the saved JSON, re-stored unchanged to refresh its expiry.
     * `decodes` says whether `json.Unmarshal` accepts a text for the
     * caller's state type.
     */
    method Get(sid: SessionId, decodes: string -> bool) returns (r: Result<string, StoreError>)
      modifies this
      ensures entries == old(entries)
      ensures String(sid) !in entries ==> r == Failure(StateNotFound)
      ensures String(sid) in entries && decodes(entries[String(sid)]) ==> r == Success(entries[String(sid)])
      ensures String(sid) in entries && !decodes(entries[String(sid)]) ==> r == Failure(UnmarshalFailure)
    {
      var key := String(sid);
      if key !in entries {
        return Failure(StateNotFound);
      }
      var j := entries[key];
      entries := entries[key := j];
      if !decodes(j) {
        return Failure(UnmarshalFailure);
      }
      return Success(j);
    }

    /** `Delete`: never fails, absent ids included. */
    method Delete(sid: SessionId) returns (err: Option<StoreError>)
      modifies this
      ensures err.None?
      ensures entries == old(entries) - {String(sid)}
    {
      entries := entries - {String(sid)};
      return None;
    }

    /** `Increment`: a stub, always (0, nil). */
    method Increment(id: string, amount: Int64) returns (count: Int64, err: Option<StoreError>)
      ensures count == 0 && err.None?
    {
      return 0, None;
    }

    /** `TimeLeft`: a stub, always ("", nil). */
    method TimeLeft(id: string) returns (left: string, err: Option<StoreError>)
      ensures left == "" && err.None?
    {
      return "", None;
    }

    /** `SavePass`: a stub that stores nothing. */
    method SavePass(email: string, resetPass: string) returns (err: Option<StoreError>)
      ensures err.None?
    {
      return None;
    }

    /** `GetReset`: a stub, always ("", nil). */
    method GetReset(email: string) returns (pass: string, err: Option<StoreError>)
      ensures pass == "" && err.None?
    {
      return "", None;
    }
  }

  /** Saving then getting the same id gives back the saved JSON. */
  method SaveThenGet(store: MemStore, sid: SessionId, json: string, decodes: string -> bool)
    returns (r: Result<string, StoreError>)
    requires decodes(json)
    modifies store
    ensures r == Success(json)
  {
    var err := store.Save(sid, Some(json));
    r := store.Get(sid, decodes);
  }

  /** After a `Delete`, a `Get` of that id reports not found. */
  method DeleteThenGet(store: MemStore, sid: SessionId, decodes: string -> bool)
    returns (r: Result<string, StoreError>)
    modifies store
    ensures r == Failure(StateNotFound)
  {
    var err := store.Delete(sid);
    r := store.Get(sid, decodes);
  }
}

=== FILE: mysqlstore.dfy ===
/**
 * The SQL-text and result helpers of the MySQL user store
 * (`models/users/mysqlstore.go`). The database is not modelled: what a
 * statement gives back (the scanned row, the driver's result, its error) is
 * an input, and the model states what the store makes of it.
 */
module UserStores {
  import opened Wrappers
  import opened Text

  datatype User = User(id: Int64, email: string, passHash: seq<bv8>, userName: string,
                       firstName: string, lastName: string, photoUrl: string)

  datatype Updates = Updates(firstName: string, lastName: string)

  /** Errors of the database driver: `sql.ErrNoRows`, or any other. */
  datatype DbError = ErrNoRows | DriverError(cause: string)

  /**
   * Errors of the store: `ErrUserNotFound`, a driver error passed through
   * unchanged, or one wrapped by `fmt.Errorf` with the given context.
   */
  datatype StoreError = ErrUserNotFound | Passed(err: DbError) | Wrapped(context: string, err: DbError)

  /** The driver's `sql.Result`, reduced to what the store reads from it. */
  datatype ExecResult = ExecResult(rowsAffected: Result<int, DbError>)

  /** A statement argument (`interface{}`); the store passes ids and text. */
  datatype Arg = IntArg(i: Int64) | TextArg(s: string)

  /**
   * `getBase`: `sql.ErrNoRows` becomes `ErrUserNotFound`, any other error is
   * passed through, and a scanned row is the user.
   */
  function GetBase(scanned: Result<User, DbError>): (r: Result<User, StoreError>)
    ensures scanned == Failure(ErrNoRows) <==> r == Failure(ErrUserNotFound)
    ensures scanned.Failure? && scanned.error != ErrNoRows ==> r == Failure(Passed(scanned.error))
    ensures r.Success? <==> scanned.Success?
    ensures r.Success? ==> r.value == scanned.value
  {
    match scanned
    case Success(u) => Success(u)
    case Failure(ErrNoRows) => Failure(ErrUserNotFound)
    case Failure(e) => Failure(Passed(e))
  }

  /** `checkRowsAffected`: an error reading the count is wrapped, no row is `ErrUserNotFound`, any row is success. */
  function CheckRowsAffected(result: ExecResult): (err: Option<StoreError>)
    ensures result.rowsAffected.Failure? ==> err == Some(Wrapped("getting rows affected", result.rowsAffected.error))
    ensures result.rowsAffected == Success(0) <==> err == Some(ErrUserNotFound)
    ensures err.None? <==> result.rowsAffected.Success? && result.rowsAffected.value != 0
  {
    match result.rowsAffected
    case Failure(e) => Some(Wrapped("getting rows affected", e))
    case Success(n) => if n == 0 then Some(ErrUserNotFound) else None
  }

  /**
   * `Update`: the update statement's error is wrapped, no affected row is
   * `ErrUserNotFound`, and otherwise the user is read back by id
   * (`reread` is what that select scans).
   */
  function Update(exec: Result<ExecResult, DbError>, reread: Result<User, DbError>): (r: Result<User, StoreError>)
    ensures exec.Failure? ==> r == Failure(Wrapped("updating", exec.error))
    ensures exec == Success(ExecResult(Success(0))) ==> r == Failure(ErrUserNotFound)
    ensures r.Success? <==> exec.Success? && CheckRowsAffected(exec.value).None? && reread.Success?
    ensures r.Success? ==> r.value == reread.value
  {
    if exec.Failure? then Failure(Wrapped("updating", exec.error))
    else
      var err := CheckRowsAffected(exec.value);
      if err.Some? then Failure(err.value) else GetBase(reread)
  }

  /** `Delete`: the delete statement's error is wrapped, and no affected row is `ErrUserNotFound`. */
  function Delete(exec: Result<ExecResult, DbError>): (err: Option<StoreError>)
    ensures exec.Failure? ==> err == Some(Wrapped("Error deleting user", exec.error))
    ensures exec == Success(ExecResult(Success(0))) ==> err == Some(ErrUserNotFound)
    ensures err.None? <==> exec.Success? && exec.value.rowsAffected.Success? && exec.value.rowsAffected.value != 0
  {
    if exec.Failure? then Some(Wrapped("Error deleting user", exec.error))
    else CheckRowsAffected(exec.value)
  }

  /** `queryForSearch`: one placeholder per id (at least one), then the ordering. */
  method QueryForSearch(found: seq<Int64>) returns (query: string)
    ensures HasPrefix(query, "(?")
    ensures query == Placeholders(|found|) + OrderBy
    ensures Count(query, '?') == if |found| == 0 then 1 else |found|
  {
    query := "(?";
    var i := 1;
    while i < |found|
      invariant 1 <= i <= if |found| == 0 then 1 else |found|
      invariant query == Placeholders(i)
    {
      query := query + ",?";
      i := i + 1;
    }
    assert Placeholders(|found|) == Placeholders(i);
    SearchQuery(i);
    query := query + OrderBy;
  }

  const OrderBy := ") order by username asc"

  lemma OrderByCount()
    ensures Count(OrderBy, '?') == 0
  {
    assert forall k :: 0 <= k < |OrderBy| ==> OrderBy[k] != '?';
    CountNone(OrderBy, '?');
  }

  /** The placeholders and the ordering: one '?' per id, at least one. */
  lemma SearchQuery(n: nat)
    ensures HasPrefix(Placeholders(n) + OrderBy, "(?")
    ensures Count(Placeholders(n) + OrderBy, '?') == if n == 0 then 1 else n
  {
    PlaceholdersCount(n);
    CountAppend(Placeholders(n), OrderBy, '?');
    OrderByCount();
    var q := Placeholders(n) + OrderBy;
    OpensWithPlaceholder(q);
  }

  lemma OpensWithPlaceholder(q: string)
    requires |q| >= 2 && q[0] == '(' && q[1] == '?'
    ensures HasPrefix(q, "(?")
  {
    assert q[..2] == "(?";
  }

  /** "(?" followed by ",?" for each further id. */
  function Placeholders(n: nat): (s: string)
    ensures |s| >= 2 && s[0] == '(' && s[1] == '?'
  {
    if n <= 1 then "(?" else Placeholders(n - 1) + ",?"
  }

  lemma {:induction false} PlaceholdersCount(n: nat)
    ensures Count(Placeholders(n), '?') == if n == 0 then 1 else n
  {
    if n <= 1 {
      assert "(?"[1..] == "?" && "?"[1..] == [];
    } else {
      assert ",?"[1..] == "?" && "?"[1..] == [];
      PlaceholdersCount(n - 1);
      CountAppend(Placeholders(n - 1), ",?", '?');
    }
  }

  /** `makeInterface`: the ids as statement arguments, in the same order. */
  method MakeInterface(found: seq<Int64>) returns (args: seq<Arg>)
    ensures |args| == |found|
    ensures forall i :: 0 <= i < |found| ==> args[i] == IntArg(found[i])
  {
    var a := new Arg[|found|](_ => TextArg(""));
    for i := 0 to |found|
      invariant forall k :: 0 <= k < i ==> a[k] == IntArg(found[k])
    {
      a[i] := IntArg(found[i]);
    }
    args := a[..];
  }

  /** The select of `GetSearchUsers`. */
  const SearchHead := "select id, email, passhash, username, firstname, lastname, photourl from users where id in "

  /**
   * What a query's `*sql.Rows` yields: the outcome of `Scan` on each row
   * `Next` reaches, then what `Err` reports once `Next` answers false.
   */
  datatype Rows = Rows(scans: seq<Result<User, DbError>>, err: Option<DbError>)

  const ScanContext := "Error scanning users for trie"
  const NextContext := "Error getting next row"
  const QueryContext := "Error loading users for trie"

  /** Every row scanned. */
  predicate AllScanned(rows: Rows) {
    forall k :: 0 <= k < |rows.scans| ==> rows.scans[k].Success?
  }

  /** Row `i` is the first whose scan fails. */
  predicate FirstScanFailure(rows: Rows, i: int) {
    0 <= i < |rows.scans| && rows.scans[i].Failure? && forall k :: 0 <= k < i ==> rows.scans[k].Success?
  }

  /**
   * `extractUserRows`: the scanned users in row order; the first failing
   * scan ends the loop with its error wrapped, and after the last row an
   * error of `Err` is wrapped with its own context.
   */
  method ExtractUserRows(rows: Rows) returns (users: Option<seq<User>>, err: Option<StoreError>)
    ensures forall i :: FirstScanFailure(rows, i) ==>
      users.None? && err == Some(Wrapped(ScanContext, rows.scans[i].error))
    ensures AllScanned(rows) && rows.err.Some? ==> users.None? && err == Some(Wrapped(NextContext, rows.err.value))
    ensures AllScanned(rows) && rows.err.None? ==>
      err.None? && users.Some? && |users.value| == |rows.scans| &&
      (forall k :: 0 <= k < |rows.scans| ==> users.value[k] == rows.scans[k].value)
    ensures users.None? <==> err.Some?
  {
    var found: seq<User> := [];
    for i := 0 to |rows.scans|
      invariant |found| == i
      invariant forall k :: 0 <= k < i ==> rows.scans[k].Success? && found[k] == rows.scans[k].value
    {
      var scanned := rows.scans[i];
      if scanned.Failure? {
        assert FirstScanFailure(rows, i);
        assert forall j :: FirstScanFailure(rows, j) ==> j == i;
        return None, Some(Wrapped(ScanContext, scanned.error));
      }
      found := found + [scanned.value];
    }
    if rows.err.Some? {
      return None, Some(Wrapped(NextContext, rows.err.value));
    }
    return Some(found), None;
  }

  /**
   * `GetSearchUsers`: an empty id list gives (nil, nil) and no query;
   * otherwise the ids are bound to the placeholders, a query error is
   * wrapped, and the rows are read by `extractUserRows`. `query` is what the
   * database gives back for a statement and its arguments.
   */
  method GetSearchUsers(found: seq<Int64>, query: (string, seq<Arg>) -> Result<Rows, DbError>)
    returns (users: Option<seq<User>>, err: Option<StoreError>)
    ensures found == [] ==> users.None? && err.None?
    ensures found != [] ==>
      var q := SearchHead + Placeholders(|found|) + OrderBy;
      var args := seq(|found|, i requires 0 <= i < |found| => IntArg(found[i]));
      match query(q, args)
      case Failure(e) => users.None? && err == Some(Wrapped(QueryContext, e))
      case Success(rows) =>
        (forall i :: FirstScanFailure(rows, i) ==> users.None? && err == Some(Wrapped(ScanContext, rows.scans[i].error))) &&
        (AllScanned(rows) && rows.err.Some? ==> users.None? && err == Some(Wrapped(NextContext, rows.err.value))) &&
        (AllScanned(rows) && rows.err.None? ==>
          err.None? && users.Some? && |users.value| == |rows.scans| &&
          (forall k :: 0 <= k < |rows.scans| ==> users.value[k] == rows.scans[k].value))
  {
    if |found| < 1 {
      return None, None;
    }
    var q := QueryForSearch(found);
    var selectq := SearchHead + q;
    var args := MakeInterface(found);
    assert args == seq(|found|, i requires 0 <= i < |found| => IntArg(found[i]));
    assert selectq == SearchHead + Placeholders(|found|) + OrderBy;
    var result := query(selectq, args);
    if result.Failure? {
      return None, Some(Wrapped(QueryContext, result.error));
    }
    users, err := ExtractUserRows(result.value);
  }

  /** A read of the rows either scans every row or stops at the first failing scan. */
  lemma {:induction false} ScannedOrFailed(rows: Rows)
    ensures AllScanned(rows) || exists i :: FirstScanFailure(rows, i)
    decreases |rows.scans|
  {
    if !AllScanned(rows) {
      var last := Rows(rows.scans[..|rows.scans| - 1], rows.err);
      ScannedOrFailed(last);
      if AllScanned(last) {
        assert FirstScanFailure(rows, |rows.scans| - 1);
      } else {
        var i :| FirstScanFailure(last, i);
        assert FirstScanFailure(rows, i);
      }
    }
  }
}

=== FILE: notifier.dfy ===
/**
 * The WebSocket notifier (`handlers/notifier.go`): a registry from user id to
 * the user's open connections, and the broadcast of queued messages to them.
 * Connections are compared by identity, so a connection is a number here;
 * writing to it and closing it are library calls, whose outcomes are inputs:
 * `writes(k)` says whether the k-th write of a broadcast succeeds. The
 * messages a broadcast delivers are returned as the sequence of successful
 * writes. The mutex and the goroutines are not modelled: each operation is
 * one atomic step.
 */
module Notifiers {
  import opened Wrappers

  /** A WebSocket connection, by identity (Go compares the `*websocket.Conn` pointers). */
  type Conn = nat

  /** One write of a broadcast: the user whose list holds the connection, and the connection. */
  datatype Target = Target(user: Int64, conn: Conn)

  /** The connections registered under a user; a missing key reads as the empty (nil) slice. */
  function Listed(conns: map<Int64, seq<Conn>>, user: Int64): seq<Conn> {
    if user in conns then conns[user] else []
  }

  /** The writes to one user's connections, in list order. */
  function UserTargets(conns: map<Int64, seq<Conn>>, user: Int64): (t: seq<Target>)
    ensures |t| == |Listed(conns, user)|
    ensures forall k :: 0 <= k < |t| ==> t[k] == Target(user, Listed(conns, user)[k])
  {
    seq(|Listed(conns, user)|, k requires 0 <= k < |Listed(conns, user)| => Target(user, Listed(conns, user)[k]))
  }

  /**
   * The writes of a broadcast to `users` when none fails: user by user, each
   * user's connections in list order.
   */
  function Targets(conns: map<Int64, seq<Conn>>, users: seq<Int64>): seq<Target>
    decreases |users|
  {
    if users == [] then [] else Targets(conns, users[..|users| - 1]) + UserTargets(conns, users[|users| - 1])
  }

  /** Broadcasting to two lists of users one after the other is broadcasting to their concatenation. */
  lemma {:induction false} TargetsAppend(conns: map<Int64, seq<Conn>>, a: seq<Int64>, b: seq<Int64>)
    ensures Targets(conns, a + b) == Targets(conns, a) + Targets(conns, b)
    decreases |b|
  {
    if b == [] {
      assert a + b == a;
    } else {
      var b', last := b[..|b| - 1], b[|b| - 1];
      var ab := a + b;
      assert ab[..|ab| - 1] == a + b' && ab[|ab| - 1] == last;
      TargetsAppend(conns, a, b');
      var ta, tb', tl := Targets(conns, a), Targets(conns, b'), UserTargets(conns, last);
      assert Targets(conns, ab) == Targets(conns, a + b') + tl;
      assert Targets(conns, b) == tb' + tl;
      assert (ta + tb') + tl == ta + (tb' + tl);
    }
  }

  /**
   * A broadcast to `users` writes to exactly the connections registered
   * under the listed users: ids with no entry are skipped.
   */
  lemma {:induction false} TargetsMembership(conns: map<Int64, seq<Conn>>, users: seq<Int64>, u: Int64, c: Conn)
    ensures Target(u, c) in Targets(conns, users) <==> u in users && u in conns && c in conns[u]
    decreases |users|
  {
    if users != [] {
      var last := users[|users| - 1];
      var init := users[..|users| - 1];
      TargetsMembership(conns, init, u, c);
      assert users == init + [last];
      var t := UserTargets(conns, last);
      if c in Listed(conns, last) && u == last {
        var k :| 0 <= k < |Listed(conns, last)| && Listed(conns, last)[k] == c;
        assert t[k] == Target(u, c);
      }
    }
  }

  /** A user listed twice has each of its connections written to twice. */
  lemma ListedTwice(conns: map<Int64, seq<Conn>>, u: Int64)
    ensures Targets(conns, [u, u]) == UserTargets(conns, u) + UserTargets(conns, u)
  {
    TargetsAppend(conns, [u], [u]);
    assert [u][..0] == [];
    assert [u, u] == [u] + [u];
  }

  /** `findConn` as a specification: the list without the first occurrence of `x`. */
  function Without(a: seq<Conn>, x: Conn): (r: seq<Conn>)
    ensures x in a ==> |r| == |a| - 1
    ensures x !in a ==> r == a
    ensures multiset(r) == multiset(a) - multiset{x}
  {
    if a == [] then []
    else
      assert a == [a[0]] + a[1..];
      if a[0] == x then a[1..] else [a[0]] + Without(a[1..], x)
  }

  /** Splicing out the first index holding `x` is dropping the first occurrence of `x`. */
  lemma {:induction false} SpliceFirst(a: seq<Conn>, x: Conn, i: nat)
    requires i < |a| && a[i] == x && x !in a[..i]
    ensures a[..i] + a[i + 1..] == Without(a, x)
    decreases i
  {
    if i > 0 {
      calc {
        a[..i] + a[i + 1..];
      == { assert a[..i] == [a[0]] + a[1..][..i - 1]; assert a[i + 1..] == a[1..][i..]; }
        [a[0]] + (a[1..][..i - 1] + a[1..][i..]);
      == { assert a[1..][..i - 1] == a[..i][1..]; SpliceFirst(a[1..], x, i - 1); }
        [a[0]] + Without(a[1..], x);
      == { assert a[0] == a[..i][0]; }
        Without(a, x);
      }
    } else {
      assert a[..i] == [];
    }
  }

  /** A registered connection that is dropped again leaves its user's list as it was. */
  lemma {:induction false} AppendThenWithout(a: seq<Conn>, x: Conn)
    requires x !in a
    ensures Without(a + [x], x) == a
    decreases |a|
  {
    if a != [] {
      assert (a + [x])[1..] == a[1..] + [x];
      AppendThenWithout(a[1..], x);
    }
  }

  /** The registry once connection `t.conn` is dropped from `t.user`'s list. */
  function Dropped(conns: map<Int64, seq<Conn>>, t: Target): map<Int64, seq<Conn>> {
    conns[t.user := Without(Listed(conns, t.user), t.conn)]
  }

  /**
   * What a broadcast over `targets` did, starting from registry `before`:
   * the writes in `sent` are the leading targets and all succeeded; either
   * every target was written and the registry is unchanged, or the next
   * write failed, its connection is reported in `failed` and has been
   * dropped from its user's list, and nothing after it was written.
   */
  ghost predicate Broadcasted(before: map<Int64, seq<Conn>>, targets: seq<Target>, writes: nat -> bool,
                              sent: seq<Target>, failed: Option<Target>, after: map<Int64, seq<Conn>>)
  {
    |sent| <= |targets| && sent == targets[..|sent|] &&
    (forall k :: 0 <= k < |sent| ==> writes(k)) &&
    (failed.None? ==> |sent| == |targets| && after == before) &&
    (failed.Some? ==> |sent| < |targets| && failed.value == targets[|sent|] && !writes(|sent|) &&
                      after == Dropped(before, failed.value))
  }

  /** Every user id of the registry exactly once: the order in which Go's `range` visits the map. */
  ghost predicate IsKeyOrder(order: seq<Int64>, conns: map<Int64, seq<Conn>>) {
    (forall u :: u in order <==> u in conns) &&
    (forall i, j :: 0 <= i < j < |order| ==> order[i] != order[j])
  }

  /** A public broadcast in key order writes to every registered connection. */
  lemma PublicReachesAll(conns: map<Int64, seq<Conn>>, order: seq<Int64>, u: Int64, c: Conn)
    requires IsKeyOrder(order, conns)
    ensures Target(u, c) in Targets(conns, order) <==> u in conns && c in conns[u]
  {
    TargetsMembership(conns, order, u, c);
  }

  /** A message from the queue: its body, and its `userIDs` once decoded, or None when the JSON does not decode. */
  datatype Delivery = Delivery(body: string, userIds: Option<seq<Int64>>)

  /** The number of leading messages that decode: `ProcessMessages` stops at the first that does not. */
  function Decodable(messages: seq<Delivery>): (n: nat)
    ensures n <= |messages|
    ensures forall m :: 0 <= m < n ==> messages[m].userIds.Some?
    ensures n < |messages| ==> messages[n].userIds.None?
  {
    if messages == [] || messages[0].userIds.None? then 0 else 1 + Decodable(messages[1..])
  }

  /** `findConn`: the first index holding `x`, or -1. */
  method FindConn(a: seq<Conn>, x: Conn) returns (i: int)
    ensures -1 <= i < |a|
    ensures i == -1 <==> x !in a
    ensures 0 <= i ==> a[i] == x && x !in a[..i]
  {
    i := 0;
    while i < |a|
      invariant 0 <= i <= |a|
      invariant x !in a[..i]
    {
      if a[i] == x {
        return;
      }
      assert a[..i + 1] == a[..i] + [a[i]];
      i := i + 1;
    }
    assert a[..i] == a;
    return -1;
  }

  class Notifier {
    /** `currConnections`: each user's connections, oldest first. */
    var currConnections: map<Int64, seq<Conn>>

    /** `NewNotifier`: an empty registry. */
    constructor ()
      ensures currConnections == map[]
    {
      currConnections := map[];
    }

    /** `AddClient`: the connection goes to the end of the user's list; no other list changes. */
    method AddClient(client: Conn, userID: Int64)
      modifies this
      ensures currConnections == old(currConnections)[userID := Listed(old(currConnections), userID) + [client]]
    {
      currConnections := currConnections[userID := Listed(currConnections, userID) + [client]];
    }

    /**
     * The splice `append(a[:i], a[i+1:]...)` with `i` the index `findConn`
     * gives for a registered connection: the connection is dropped from its
     * user's list.
     */
    method Splice(client: Conn, userID: Int64)
      requires client in Listed(currConnections, userID)
      modifies this
      ensures currConnections == Dropped(old(currConnections), Target(userID, client))
    {
      var list := currConnections[userID];
      var connIndex := FindConn(list, client);
      SpliceFirst(list, client, connIndex);
      currConnections := currConnections[userID := list[..connIndex] + list[connIndex + 1..]];
    }

    /**
     * The removal step of `readLoop` as written: the index `findConn` gives
     * is spliced out even when it is -1, and the slice expression `a[:-1]`
     * panics. This happens to a connection a failed broadcast has already
     * dropped: the broadcast closes it, so its read loop fails next.
     */
    method ReadLoopRemovalAsWritten(client: Conn, userID: Int64) returns (panicked: bool)
      modifies this
      ensures panicked <==> client !in Listed(old(currConnections), userID)
      ensures panicked ==> currConnections == old(currConnections)
      ensures !panicked ==> currConnections == Dropped(old(currConnections), Target(userID, client))
    {
      var connIndex := FindConn(Listed(currConnections, userID), client);
      if connIndex == -1 {
        return true;
      }
      Splice(client, userID);
      return false;
    }

    /**
     * The removal step of `readLoop`, corrected: a connection that is no
     * longer registered is left alone.
     */
    method ReadLoopRemoval(client: Conn, userID: Int64)
      modifies this
      ensures client !in Listed(old(currConnections), userID) ==> currConnections == old(currConnections)
      ensures client in Listed(old(currConnections), userID) ==>
        currConnections == Dropped(old(currConnections), Target(userID, client))
    {
      var connIndex := FindConn(Listed(currConnections, userID), client);
      if connIndex >= 0 {
        Splice(client, userID);
      }
    }

    /**
     * `broadcastPrivate`: for each listed user that has an entry, each of
     * its connections in turn is written to; a user listed twice is written
     * to twice. The first failed write closes that connection, drops it from
     * its user's list and ends the broadcast.
     */
    method BroadcastPrivate(users: seq<Int64>, writes: nat -> bool) returns (sent: seq<Target>, failed: Option<Target>)
      modifies this
      ensures Broadcasted(old(currConnections), Targets(old(currConnections), users), writes, sent, failed, currConnections)
    {
      ghost var before := currConnections;
      sent := [];
      var i := 0;
      while i < |users|
        invariant 0 <= i <= |users|
        invariant currConnections == before
        invariant sent == Targets(before, users[..i])
        invariant forall k :: 0 <= k < |sent| ==> writes(k)
      {
        var user := users[i];
        TargetsNext(before, users, i);
        if user in currConnections {
          ghost var j;
          sent, failed, j := WriteConnections(user, sent, writes);
          if failed.Some? {
            FailedWrite(before, users, i, j, sent, writes, failed.value, currConnections);
            return;
          }
        }
        i := i + 1;
      }
      failed := None;
      WroteAll(before, users, writes, sent);
    }

    /**
     * The inner loop of `broadcastPrivate`: the connections of `user` are
     * written to in list order, after the writes already in `sent0`. On
     * the first failed write, at position `j` of the list, that connection
     * is dropped and the loop ends.
     */
    method WriteConnections(user: Int64, sent0: seq<Target>, writes: nat -> bool)
      returns (sent: seq<Target>, failed: Option<Target>, ghost j: nat)
      requires user in currConnections
      requires forall k :: 0 <= k < |sent0| ==> writes(k)
      modifies this
      ensures forall k :: 0 <= k < |sent| ==> writes(k)
      ensures failed.None? ==> currConnections == old(currConnections) && sent == sent0 + UserTargets(old(currConnections), user)
      ensures failed.Some? ==>
        j < |old(currConnections)[user]| && sent == sent0 + UserTargets(old(currConnections), user)[..j] &&
        failed.value == Target(user, old(currConnections)[user][j]) && !writes(|sent|) &&
        currConnections == Dropped(old(currConnections), failed.value)
    {
      ghost var mine := UserTargets(currConnections, user);
      var list := currConnections[user];
      sent := sent0;
      var n := 0;
      while n < |list|
        invariant n <= |list| && currConnections == old(currConnections)
        invariant sent == sent0 + mine[..n]
        invariant forall k :: 0 <= k < |sent| ==> writes(k)
      {
        var connection := list[n];
        if !writes(|sent|) {
          failed, j := Some(Target(user, connection)), n;
          Splice(connection, user);
          return;
        }
        assert mine[..n + 1] == mine[..n] + [Target(user, connection)];
        sent := sent + [Target(user, connection)];
        n := n + 1;
      }
      assert mine[..n] == mine;
      failed, j := None, n;
    }

    /**
     * `broadcastPublic`: every user of the registry, in the order `range`
     * visits the map, has each of its connections written to. Ranging over
     * the map is the loop of `broadcastPrivate` over the keys, whose entry
     * test then always passes, so that loop is reused.
     */
    method BroadcastPublic(order: seq<Int64>, writes: nat -> bool) returns (sent: seq<Target>, failed: Option<Target>)
      requires IsKeyOrder(order, currConnections)
      modifies this
      ensures Broadcasted(old(currConnections), Targets(old(currConnections), order), writes, sent, failed, currConnections)
    {
      sent, failed := BroadcastPrivate(order, writes);
    }

    /**
     * One message of `ProcessMessages`: a message that does not decode is
     * not acknowledged and changes nothing; otherwise an empty `userIDs`
     * list means a public broadcast and any other a private one, after
     * which the message is acknowledged.
     */
    method ProcessMessage(message: Delivery, order: seq<Int64>, writes: nat -> bool)
      returns (sent: seq<Target>, failed: Option<Target>, acked: bool)
      requires IsKeyOrder(order, currConnections)
      modifies this
      ensures acked <==> message.userIds.Some?
      ensures !acked ==> currConnections == old(currConnections) && sent == [] && failed.None?
      ensures acked ==>
        Broadcasted(old(currConnections), Targets(old(currConnections), Recipients(message, order)), writes,
                    sent, failed, currConnections)
      ensures currConnections.Keys == old(currConnections).Keys
      ensures forall u :: u in currConnections ==> |currConnections[u]| <= |old(currConnections)[u]|
    {
      if message.userIds.None? {
        return [], None, false;
      }
      ghost var prior := currConnections;
      var users := message.userIds.value;
      if |users| == 0 {
        sent, failed := BroadcastPublic(order, writes);
        users := order;
      } else {
        sent, failed := BroadcastPrivate(users, writes);
      }
      if failed.Some? {
        DroppedKeeps(prior, users, failed.value);
      }
      acked := true;
    }

    /**
     * `ProcessMessages` over a finite run of the queue: messages are handled
     * in turn until one does not decode, which ends consumption. `orders[m]`
     * is the map order of message m's public broadcast and `writes(m)` the
     * write outcomes of its broadcast. `states` are the registries between
     * messages, from the one before the run to the one after it, and
     * `sents`/`fails` what each acknowledged message's broadcast wrote and
     * where it failed. Broadcasts only drop connections, so the registered
     * users stay the same and no list grows.
     */
    method ProcessMessages(messages: seq<Delivery>, orders: seq<seq<Int64>>, writes: nat -> nat -> bool)
      returns (acked: nat, ghost states: seq<map<Int64, seq<Conn>>>, ghost sents: seq<seq<Target>>,
               ghost fails: seq<Option<Target>>)
      requires |orders| == |messages|
      requires forall m :: 0 <= m < |orders| ==> IsKeyOrder(orders[m], currConnections)
      modifies this
      ensures acked == Decodable(messages)
      ensures Processed(messages, orders, writes, acked, states, sents, fails)
      ensures states[0] == old(currConnections) && states[acked] == currConnections
      ensures currConnections.Keys == old(currConnections).Keys
      ensures forall u :: u in currConnections ==> |currConnections[u]| <= |old(currConnections)[u]|
    {
      ghost var before := currConnections;
      acked := 0;
      states, sents, fails := [currConnections], [], [];
      while acked < |messages|
        invariant acked <= |messages|
        invariant forall m :: 0 <= m < acked ==> messages[m].userIds.Some?
        invariant Processed(messages, orders, writes, acked, states, sents, fails)
        invariant states[0] == before && states[acked] == currConnections
        invariant currConnections.Keys == before.Keys
        invariant forall u :: u in currConnections ==> |currConnections[u]| <= |before[u]|
      {
        SameKeysSameOrder(orders[acked], before, currConnections);
        var sent, failed, ack := ProcessMessage(messages[acked], orders[acked], writes(acked));
        if !ack {
          break;
        }
        ProcessedStep(messages, orders, writes, acked, states, sents, fails, sent, failed, currConnections);
        states, sents, fails := states + [currConnections], sents + [sent], fails + [failed];
        acked := acked + 1;
      }
      DecodableIs(messages, acked);
    }
  }

  /** The users a decoded message is broadcast to: every registered user (in `order`) for an empty list, else its list. */
  function Recipients(message: Delivery, order: seq<Int64>): seq<Int64> {
    match message.userIds
    case None => []
    case Some(ids) => if ids == [] then order else ids
  }

  /**
   * The first n messages were each decoded and broadcast: message m took
   * the registry from `states[m]` to `states[m + 1]`, writing `sents[m]`
   * and failing at `fails[m]`.
   */
  ghost predicate Processed(messages: seq<Delivery>, orders: seq<seq<Int64>>, writes: nat -> nat -> bool, n: nat,
                            states: seq<map<Int64, seq<Conn>>>, sents: seq<seq<Target>>, fails: seq<Option<Target>>)
  {
    n <= |messages| && n <= |orders| && |states| == n + 1 && |sents| == n && |fails| == n &&
    forall m :: 0 <= m < n ==>
      messages[m].userIds.Some? &&
      Broadcasted(states[m], Targets(states[m], Recipients(messages[m], orders[m])), writes(m),
                  sents[m], fails[m], states[m + 1])
  }

  /** One more acknowledged message extends the run. */
  lemma ProcessedStep(messages: seq<Delivery>, orders: seq<seq<Int64>>, writes: nat -> nat -> bool, n: nat,
                      states: seq<map<Int64, seq<Conn>>>, sents: seq<seq<Target>>, fails: seq<Option<Target>>,
                      sent: seq<Target>, failed: Option<Target>, after: map<Int64, seq<Conn>>)
    requires Processed(messages, orders, writes, n, states, sents, fails)
    requires n < |messages| && n < |orders| && messages[n].userIds.Some?
    requires Broadcasted(states[n], Targets(states[n], Recipients(messages[n], orders[n])), writes(n),
                         sent, failed, after)
    ensures Processed(messages, orders, writes, n + 1, states + [after], sents + [sent], fails + [failed])
  {
    var states', sents', fails' := states + [after], sents + [sent], fails + [failed];
    forall m | 0 <= m < n + 1
      ensures Broadcasted(states'[m], Targets(states'[m], Recipients(messages[m], orders[m])), writes(m),
                          sents'[m], fails'[m], states'[m + 1])
    {
      if m < n {
        assert states'[m] == states[m] && states'[m + 1] == states[m + 1];
        assert sents'[m] == sents[m] && fails'[m] == fails[m];
      }
    }
  }

  /** A broadcast that failed at connection j of the i-th listed user. */
  lemma FailedWrite(conns: map<Int64, seq<Conn>>, users: seq<Int64>, i: nat, j: nat, sent: seq<Target>,
                    writes: nat -> bool, failed: Target, after: map<Int64, seq<Conn>>)
    requires i < |users| && j < |Listed(conns, users[i])|
    requires sent == Targets(conns, users[..i]) + UserTargets(conns, users[i])[..j]
    requires forall k :: 0 <= k < |sent| ==> writes(k)
    requires failed == Target(users[i], Listed(conns, users[i])[j]) && !writes(|sent|)
    requires after == Dropped(conns, failed)
    ensures Broadcasted(conns, Targets(conns, users), writes, sent, Some(failed), after)
  {
    TargetsSplit(conns, users, i);
    PrefixOfConcat(Targets(conns, users[..i]), UserTargets(conns, users[i]), Targets(conns, users[i + 1..]), j);
  }

  /** A broadcast whose writes to every listed user succeeded. */
  lemma WroteAll(conns: map<Int64, seq<Conn>>, users: seq<Int64>, writes: nat -> bool, sent: seq<Target>)
    requires sent == Targets(conns, users[..|users|])
    requires forall k :: 0 <= k < |sent| ==> writes(k)
    ensures Broadcasted(conns, Targets(conns, users), writes, sent, None, conns)
  {
    assert users[..|users|] == users;
  }

  /** The writes of a broadcast around the i-th listed user. */
  lemma TargetsSplit(conns: map<Int64, seq<Conn>>, users: seq<Int64>, i: nat)
    requires i < |users|
    ensures Targets(conns, users) ==
            Targets(conns, users[..i]) + UserTargets(conns, users[i]) + Targets(conns, users[i + 1..])
  {
    var init := users[..i + 1];
    assert init[..i] == users[..i] && init[i] == users[i];
    assert Targets(conns, init) == Targets(conns, users[..i]) + UserTargets(conns, users[i]);
    TargetsAppend(conns, init, users[i + 1..]);
    assert init + users[i + 1..] == users;
  }

  /** The writes to the first i + 1 listed users: those to the first i, then the (i+1)-th user's. */
  lemma TargetsNext(conns: map<Int64, seq<Conn>>, users: seq<Int64>, i: nat)
    requires i < |users|
    ensures Targets(conns, users[..i + 1]) == Targets(conns, users[..i]) + UserTargets(conns, users[i])
    ensures users[i] !in conns ==> Targets(conns, users[..i + 1]) == Targets(conns, users[..i])
  {
    assert users[..i + 1][..i] == users[..i] && users[..i + 1][i] == users[i];
  }

  /** A prefix reaching into the middle part of a concatenation of three. */
  lemma PrefixOfConcat(head: seq<Target>, mine: seq<Target>, rest: seq<Target>, j: nat)
    requires j < |mine|
    ensures var t := head + mine + rest;
      |head| + j < |t| && t[..|head| + j] == head + mine[..j] && t[|head| + j] == mine[j]
  {
    var t := head + mine + rest;
    assert t[..|head| + j] == head + mine[..j];
  }

  /** Dropping a connection a broadcast wrote to keeps the users and shrinks only that user's list. */
  lemma DroppedKeeps(conns: map<Int64, seq<Conn>>, users: seq<Int64>, t: Target)
    requires t in Targets(conns, users)
    ensures Dropped(conns, t).Keys == conns.Keys
    ensures forall u :: u in conns ==> |Dropped(conns, t)[u]| <= |conns[u]|
  {
    TargetsMembership(conns, users, t.user, t.conn);
  }

  /** A key order depends only on the keys. */
  lemma SameKeysSameOrder(order: seq<Int64>, a: map<Int64, seq<Conn>>, b: map<Int64, seq<Conn>>)
    requires IsKeyOrder(order, a) && a.Keys == b.Keys
    ensures IsKeyOrder(order, b)
  {
  }

  /** The loop's stopping point is the decodable prefix. */
  lemma DecodableIs(messages: seq<Delivery>, n: nat)
    requires n <= |messages|
    requires forall m :: 0 <= m < n ==> messages[m].userIds.Some?
    requires n < |messages| ==> messages[n].userIds.None?
    ensures Decodable(messages) == n
  {
  }

  /**
   * The double removal: a user with one connection, whose only write of a
   * broadcast fails. The broadcast drops the connection and closes it, and
   * the removal step of its read loop then panics as written, while the
   * corrected step leaves the registry alone.
   */
  method BroadcastThenReadError() returns (panicked: bool)
    ensures panicked
  {
    var n := new Notifier();
    n.AddClient(7, 1);
    ghost var before := n.currConnections;
    assert [1][..0] == [];
    assert Targets(before, [1]) == [Target(1, 7)];
    var never: nat -> bool := _ => false;
    var sent, failed := n.BroadcastPrivate([1], never);
    assert !never(0);
    assert |sent| == 0;
    assert failed == Some(Target(1, 7));
    assert Without([7], 7) == [];
    panicked := n.ReadLoopRemovalAsWritten(7, 1);
  }

  /** Registering a connection and then hitting its read error restores the user's list. */
  method AddThenReadError(n: Notifier, client: Conn, userID: Int64)
    requires client !in Listed(n.currConnections, userID)
    modifies n
    ensures n.currConnections == old(n.currConnections)[userID := Listed(old(n.currConnections), userID)]
  {
    n.AddClient(client, userID);
    AppendThenWithout(Listed(old(n.currConnections), userID), client);
    n.ReadLoopRemoval(client, userID);
  }
}

=== FILE: proxy.dfy ===
/**
 * The reverse proxy's director (`handlers/proxy.go`): each request is sent
 * to the next address of a comma-separated list, round robin, over plain
 * HTTP; the client's own X-User header is dropped and, when the request
 * carries a valid session, replaced by the JSON of the session's user.
 * The forwarding itself (`httputil.ReverseProxy`) is not modelled.
 */
module Proxies {
  import opened Wrappers
  import opened Text
  import opened Http
  import opened SessionIds
  import opened Stores
  import opened Sessions

  const HeaderUser := "X-User"
  const SchemeHttp := "http"

  /** The user header a request is forwarded with: the user's JSON when the session state decodes and the user marshals. */
  ghost function ForwardedUser(json: Option<string>, decodes: string -> bool, userJson: string -> Option<string>)
    : Option<string>
  {
    if json.None? || !decodes(json.value) then None else userJson(json.value)
  }

  /** The X-User value a request with these headers and this query is forwarded with, if any. */
  ghost function Forwarded(fields: map<string, seq<string>>, query: map<string, seq<string>>, signingKey: string,
                           mac: Hmac, store: Store, decodes: string -> bool, userJson: string -> Option<string>)
    : Option<string>
    reads Footprint(store)
  {
    ForwardedUser(SessionJson(fields, query, signingKey, mac, store), decodes, userJson)
  }

  /** Moving a cursor by one and wrapping tracks the count of steps modulo the length. */
  lemma ModStep(a: nat, n: nat)
    requires n >= 1
    ensures (a % n + 1) % n == (a + 1) % n
  {
    var q, r := a / n, a % n;
    Euclid(a, n);
    if r + 1 < n {
      ModUnique(a + 1, n, q, r + 1);
      ModUnique(r + 1, n, 0, r + 1);
    } else {
      MulSucc(q, n);
      ModUnique(a + 1, n, q + 1, 0);
      ModUnique(n, n, 1, 0);
    }
  }

  lemma Euclid(a: nat, n: nat)
    requires n >= 1
    ensures a == (a / n) * n + a % n && 0 <= a % n < n
  {
  }

  lemma MulSucc(q: int, n: int)
    ensures (q + 1) * n == q * n + n
  {
  }

  lemma {:induction false} MulAtLeast(k: nat, n: nat)
    requires k >= 1
    ensures k * n >= n
    decreases k
  {
    if k > 1 {
      MulAtLeast(k - 1, n);
      MulSucc(k - 1, n);
    }
  }

  lemma ModUnique(a: nat, n: nat, q: nat, r: int)
    requires n >= 1 && a == q * n + r && 0 <= r < n
    ensures a % n == r
  {
    var q', r' := a / n, a % n;
    Euclid(a, n);
    if q' > q {
      MulDiff(q', q, n);
      MulAtLeast(q' - q, n);
    } else if q' < q {
      MulDiff(q, q', n);
      MulAtLeast(q - q', n);
    }
  }

  lemma MulDiff(x: int, y: int, n: int)
    ensures (x - y) * n == x * n - y * n
  {
  }

  /** `NewServiceProxy`: the address list and the cursor its director turns. */
  class ServiceProxy {
    /** The comma-separated pieces of the address list, untrimmed. */
    const splitAddrs: seq<string>
    /** The index of the address the next request goes to. */
    var nextAddr: int
    /** How many requests the director has routed. */
    ghost var routed: nat

    ghost predicate Valid()
      reads this
    {
      |splitAddrs| >= 1 && nextAddr == routed % |splitAddrs|
    }

    constructor (addrs: string)
      ensures Valid()
      ensures splitAddrs == Split(addrs, ',') && Join(splitAddrs, ',') == addrs
      ensures nextAddr == 0 && routed == 0
    {
      SplitJoin(addrs, ',');
      splitAddrs := Split(addrs, ',');
      nextAddr := 0;
      routed := 0;
      assert 0 % |Split(addrs, ',')| == 0;
    }

    /** The cursor step, under the proxy's mutex: the current address, then the cursor moves on by one, wrapping. */
    method NextHost() returns (host: string)
      requires Valid()
      modifies this
      ensures Valid()
      ensures routed == old(routed) + 1
      ensures 0 <= nextAddr < |splitAddrs|
      ensures host == splitAddrs[old(routed) % |splitAddrs|]
    {
      host := splitAddrs[nextAddr];
      ModStep(routed, |splitAddrs|);
      nextAddr := (nextAddr + 1) % |splitAddrs|;
      routed := routed + 1;
    }

    /**
     * The director: request number `routed` goes to address `routed` modulo
     * the number of addresses, with scheme "http"; X-User is deleted, then
     * set to the session user's JSON when the session lookup and the
     * marshalling succeed. `decodes` says whether the session state JSON
     * decodes and `userJson` marshals its user; the Redis fault is an input.
     */
    method Director(r: Request, signingKey: string, mac: Hmac, store: Store, decodes: string -> bool,
                    userJson: string -> Option<string>, fault: bool)
      requires Valid()
      modifies this, r, r.header, Footprint(store)
      ensures Valid()
      ensures routed == old(routed) + 1
      ensures r.scheme == SchemeHttp
      ensures r.host == splitAddrs[old(routed) % |splitAddrs|]
      ensures forall x :: Saved(store, x) == old(Saved(store, x))
      ensures var u := old(Forwarded(r.header.fields, r.query, signingKey, mac, store, decodes, userJson));
        u.None? || (store.Redis? && fault) ==> r.header.fields == old(r.header.fields) - {HeaderUser}
      ensures var u := old(Forwarded(r.header.fields, r.query, signingKey, mac, store, decodes, userJson));
        u.Some? && !(store.Redis? && fault) ==> r.header.fields == old(r.header.fields)[HeaderUser := [u.value]]
    {
      // The header is rewritten first; it is independent of the scheme and host.
      ReplaceUser(r, signingKey, mac, store, decodes, userJson, fault);
      r.scheme := SchemeHttp;
      r.host := NextHost();
    }
  }

  /**
   * The session lookup of the director: the JSON of the session's user, or
   * None when the session is missing or invalid, its state does not decode,
   * the user does not marshal, or the Redis client fails.
   */
  method UserHeader(r: Request, signingKey: string, mac: Hmac, store: Store, decodes: string -> bool,
                    userJson: string -> Option<string>, fault: bool)
    returns (u: Option<string>)
    modifies Footprint(store)
    ensures r.header.fields == old(r.header.fields)
    ensures forall x :: Saved(store, x) == old(Saved(store, x))
    ensures store.Redis? && fault ==> u.None?
    ensures !(store.Redis? && fault) ==>
      u == old(Forwarded(r.header.fields, r.query, signingKey, mac, store, decodes, userJson))
  {
    ghost var json := SessionJson(r.header.fields, r.query, signingKey, mac, store);
    var sid, state, err := GetState(r, signingKey, mac, store, decodes, fault);
    if err.Some? {
      assert json.None? || !decodes(json.value) || (store.Redis? && fault);
      return None;
    }
    assert json == Some(state);
    u := userJson(state);
  }

  /** Deleting a name and then setting it is setting it. */
  lemma DelThenSet(m: map<string, seq<string>>, k: string, v: seq<string>)
    ensures (m - {k})[k := v] == m[k := v]
  {
  }

  /** The header step of the director: X-User is dropped, then set from the session when there is one. */
  method ReplaceUser(r: Request, signingKey: string, mac: Hmac, store: Store, decodes: string -> bool,
                     userJson: string -> Option<string>, fault: bool)
    modifies r.header, Footprint(store)
    ensures forall x :: Saved(store, x) == old(Saved(store, x))
    ensures var u := old(Forwarded(r.header.fields, r.query, signingKey, mac, store, decodes, userJson));
      u.None? || (store.Redis? && fault) ==> r.header.fields == old(r.header.fields) - {HeaderUser}
    ensures var u := old(Forwarded(r.header.fields, r.query, signingKey, mac, store, decodes, userJson));
      u.Some? && !(store.Redis? && fault) ==> r.header.fields == old(r.header.fields)[HeaderUser := [u.value]]
  {
    ghost var fwd := Forwarded(r.header.fields, r.query, signingKey, mac, store, decodes, userJson);
    ghost var before := r.header.fields;
    DropUser(r, signingKey, mac, store);
    label dropped:
    var u := UserHeader(r, signingKey, mac, store, decodes, userJson, fault);
    label looked:
    if u.Some? {
      assert fwd == u && !(store.Redis? && fault);
      r.header.Set(HeaderUser, u.value);
      DelThenSet(before, HeaderUser, [u.value]);
    } else {
      assert fwd.None? || (store.Redis? && fault);
    }
    forall x ensures Saved(store, x) == old(Saved(store, x)) {
      assert Saved(store, x) == old@looked(Saved(store, x));
      assert old@looked(Saved(store, x)) == old@dropped(Saved(store, x));
    }
  }

  /** `Header.Del("X-User")`: the session the request names is the same without it. */
  method DropUser(r: Request, signingKey: string, mac: Hmac, store: Store)
    modifies r.header
    ensures r.header.fields == old(r.header.fields) - {HeaderUser}
    ensures SessionJson(r.header.fields, r.query, signingKey, mac, store) ==
            old(SessionJson(r.header.fields, r.query, signingKey, mac, store))
  {
    ghost var before := r.header.fields;
    r.header.Del(HeaderUser);
    assert First(r.header.fields, HeaderAuthorization) == First(before, HeaderAuthorization) by {
      assert HeaderUser != HeaderAuthorization by { assert |HeaderUser| != |HeaderAuthorization|; }
    }
    OnlyAuthorizationRead(r.header.fields, before, r.query, signingKey, mac);
  }
}

=== FILE: redisstore.dfy ===
/**
 * The Redis-backed session store (`sessions/redisstore.go`). The Redis
 * server is a map from keys to string values plus a map from keys to their
 * time to live; time itself does not pass, so keys never expire here. Each
 * call to the Redis client may fail, which the methods take as a boolean
 * `fault` per client call.
 */
module RedisStores {
  import opened Wrappers
  import opened Text
  import opened SessionIds

  /** `time.Minute`, in nanoseconds like every Go duration. */
  const Minute := 60_000_000_000

  /** The failure count at which `Increment` arms the 10-minute block. */
  const LockoutCount := 5
  const LockoutTtl := 10 * Minute
  const ResetTtl := 5 * Minute

  /** `getRedisKey`: session keys live under the "sid:" prefix. */
  function RedisKey(sid: SessionId): (k: string)
    ensures HasPrefix(k, "sid:") && k[4..] == String(sid)
  {
    "sid:" + String(sid)
  }

  /** Distinct session ids never share a Redis key. */
  lemma RedisKeyInjective(a: SessionId, b: SessionId)
    ensures RedisKey(a) == RedisKey(b) <==> a == b
  {
    if RedisKey(a) == RedisKey(b) {
      assert String(a) == RedisKey(a)[4..];
    }
  }

  /**
   * What `INCRBY` reads under a key: 0 when absent, None when the value is
   * not an int64. Go's `ParseInt` also accepts "+5" and "05", which the
   * Redis server rejects; every value the store itself writes under a
   * counter key is canonical `FormatInt` text, so the two agree on it.
   */
  function Counter(values: map<string, string>, key: string): Option<Int64> {
    if key !in values then Some(0) else ParseInt(values[key])
  }

  class RedisStore {
    /** The keys held by the server, with their string values. */
    var values: map<string, string>
    /** The time to live of each key that has one, in nanoseconds. */
    var ttl: map<string, int>
    /** `SessionDuration`: the time to live of a session key. */
    const sessionDuration: int

    /** `NewRedisStore`, over a server currently holding `values0` and `ttl0`. */
    constructor (values0: map<string, string>, ttl0: map<string, int>, sessionDuration: int)
      ensures values == values0 && ttl == ttl0 && this.sessionDuration == sessionDuration
    {
      values := values0;
      ttl := ttl0;
      this.sessionDuration := sessionDuration;
    }

    /** `Save`: the state's JSON under "sid:" + id, living `sessionDuration`. */
    method Save(sid: SessionId, json: Option<string>, fault: bool) returns (err: Option<StoreError>)
      modifies this
      ensures json.None? ==> err == Some(MarshalFailure)
      ensures json.Some? && fault ==> err == Some(ClientFailure)
      ensures err.Some? ==> values == old(values) && ttl == old(ttl)
      ensures err.None? <==> json.Some? && !fault
      ensures err.None? ==> values == old(values)[RedisKey(sid) := json.value]
      ensures err.None? ==> ttl == old(ttl)[RedisKey(sid) := sessionDuration]
    {
      if json.None? {
        return Some(MarshalFailure);
      }
      if fault {
        return Some(ClientFailure);
      }
      var key := RedisKey(sid);
      values := values[key := json.value];
      ttl := ttl[key := sessionDuration];
      return None;
    }

    /**
     * `Get`: one pipeline of GET and EXPIRE. A missing key or a failed
     * pipeline is `ErrStateNotFound`; otherwise the key's time to live is
     * reset to `sessionDuration` and the JSON is handed back if it decodes.
     */
    method Get(sid: SessionId, decodes: string -> bool, fault: bool) returns (r: Result<string, StoreError>)
      modifies this
      ensures values == old(values)
      ensures fault || RedisKey(sid) !in values ==> r == Failure(StateNotFound) && ttl == old(ttl)
      ensures !fault && RedisKey(sid) in values ==> ttl == old(ttl)[RedisKey(sid) := sessionDuration]
      ensures !fault && RedisKey(sid) in values ==>
        r == if decodes(values[RedisKey(sid)]) then Success(values[RedisKey(sid)]) else Failure(UnmarshalFailure)
    {
      var key := RedisKey(sid);
      if fault || key !in values {
        return Failure(StateNotFound);
      }
      ttl := ttl[key := sessionDuration];
      var j := values[key];
      if !decodes(j) {
        return Failure(UnmarshalFailure);
      }
      return Success(j);
    }

    /** `Delete`: DEL of the session key; deleting an absent key is no error. */
    method Delete(sid: SessionId, fault: bool) returns (err: Option<StoreError>)
      modifies this
      ensures err.None? <==> !fault
      ensures fault ==> err == Some(ClientFailure) && values == old(values) && ttl == old(ttl)
      ensures !fault ==> values == old(values) - {RedisKey(sid)} && ttl == old(ttl) - {RedisKey(sid)}
    {
      if fault {
        return Some(ClientFailure);
      }
      var key := RedisKey(sid);
      values := values - {key};
      ttl := ttl - {key};
      return None;
    }

    /**
     * `Increment`: INCRBY `amount` on the client's failure counter, then,
     * when the new count is exactly 5, EXPIRE it in ten minutes. INCRBY
     * fails on a value that is not an int64 and on overflow; any client
     * error gives (0, err). INCRBY keeps the key's time to live.
     */
    method Increment(id: string, amount: Int64, incrFault: bool, expireFault: bool)
      returns (count: Int64, err: Option<StoreError>)
      modifies this
      ensures var c := Counter(old(values), id);
        incrFault || c.None? || !(MinInt64 <= c.value + amount <= MaxInt64) ==>
          count == 0 && err == Some(ClientFailure) && values == old(values) && ttl == old(ttl)
      ensures var c := Counter(old(values), id);
        !incrFault && c.Some? && MinInt64 <= c.value + amount <= MaxInt64 ==>
          values == old(values)[id := FormatInt(c.value + amount)] &&
          (c.value + amount == LockoutCount && !expireFault ==> ttl == old(ttl)[id := LockoutTtl]) &&
          (c.value + amount != LockoutCount || expireFault ==> ttl == old(ttl)) &&
          (count, err) == if c.value + amount == LockoutCount && expireFault then (0, Some(ClientFailure))
                          else (c.value + amount, None)
    {
      var c := Counter(values, id);
      if incrFault || c.None? || !(MinInt64 <= c.value + amount <= MaxInt64) {
        return 0, Some(ClientFailure);
      }
      var n: Int64 := c.value + amount;
      values := values[id := FormatInt(n)];
      if n == LockoutCount {
        if expireFault {
          return 0, Some(ClientFailure);
        }
        ttl := ttl[id := LockoutTtl];
      }
      return n, None;
    }

    /** `SavePass`: the reset password under the raw email key, living five minutes. */
    method SavePass(email: string, resetPass: string, fault: bool) returns (err: Option<StoreError>)
      modifies this
      ensures err.None? <==> !fault
      ensures fault ==> values == old(values) && ttl == old(ttl)
      ensures !fault ==> values == old(values)[email := resetPass] && ttl == old(ttl)[email := ResetTtl]
    {
      if fault {
        return Some(ClientFailure);
      }
      values := values[email := resetPass];
      ttl := ttl[email := ResetTtl];
      return None;
    }

    /** `GetReset`: GET of the raw email key; `redis.Nil` when it is absent. */
    method GetReset(email: string, fault: bool) returns (pass: string, err: Option<StoreError>)
      ensures fault ==> pass == "" && err == Some(ClientFailure)
      ensures !fault && email !in values ==> pass == "" && err == Some(MissingKey)
      ensures !fault && email in values ==> pass == values[email] && err.None?
    {
      if fault {
        return "", Some(ClientFailure);
      }
      if email !in values {
        return "", Some(MissingKey);
      }
      return values[email], None;
    }
  }

  /** A successful increment is read back by the next one: the counter holds the returned count. */
  lemma IncrementReadBack(values: map<string, string>, id: string, n: Int64)
    ensures Counter(values[id := FormatInt(n)], id) == Some(n)
  {
    ParseFormat(n);
  }
}

=== FILE: session.dfy ===
/**
 * The session lifecycle (`sessions/session.go`): a session id travels as a
 * bearer credential (section 2.1 of RFC 6750) in the `Authorization`
 * header, or in the `auth` query parameter when that header is empty;
 * beginning a session saves its state and hands the id back in a response
 * header, getting it reads the state back, ending it deletes the state.
 */
module Sessions {
  import opened Wrappers
  import opened Text
  import opened Http
  import opened Base64
  import opened SessionIds
  import opened Stores

  const HeaderAuthorization := "Authorization"
  const ParamAuthorization := "auth"
  const SchemeBearer := "Bearer "

  /** Why a session operation failed; the Go code wraps the cause in a message. */
  datatype SessionError =
    | MissingScheme             // the credential does not start with "Bearer "
    | BadId(id: IdError)        // `ValidateID` refused the credential
    | NewIdFailed(id: IdError)  // `NewSessionID` failed
    | SaveFailed(store: StoreError)
    | GetFailed(store: StoreError)
    | DeleteFailed(store: StoreError)

  /** The credential text: the `Authorization` header, else the `auth` query parameter. */
  function Credential(fields: map<string, seq<string>>, query: map<string, seq<string>>): string {
    var h := First(fields, HeaderAuthorization);
    if h == "" then First(query, ParamAuthorization) else h
  }

  /**
   * `GetSessionID`: exactly one "Bearer " prefix is stripped from the
   * credential, and the rest must validate as a session id.
   */
  function GetSessionId(fields: map<string, seq<string>>, query: map<string, seq<string>>, signingKey: string, mac: Hmac)
    : (r: Result<SessionId, SessionError>)
    ensures r == Failure(MissingScheme) <==> !HasPrefix(Credential(fields, query), SchemeBearer)
    ensures r.Success? ==> SchemeBearer + r.value.text == Credential(fields, query)
    ensures r.Success? ==> ValidateId(r.value.text, signingKey, mac) == Success(r.value)
    ensures HasPrefix(Credential(fields, query), SchemeBearer) ==>
      var v := ValidateId(TrimPrefix(Credential(fields, query), SchemeBearer), signingKey, mac);
      (r.Success? <==> v.Success?) && (v.Failure? ==> r == Failure(BadId(v.error)))
  {
    var c := Credential(fields, query);
    if !HasPrefix(c, SchemeBearer) then Failure(MissingScheme)
    else
      var v := ValidateId(TrimPrefix(c, SchemeBearer), signingKey, mac);
      if v.Failure? then Failure(BadId(v.error)) else Success(v.value)
  }

  /** A non-empty `Authorization` header decides alone: the query string is not consulted. */
  lemma HeaderWins(fields: map<string, seq<string>>, q1: map<string, seq<string>>, q2: map<string, seq<string>>,
                   signingKey: string, mac: Hmac)
    requires First(fields, HeaderAuthorization) != ""
    ensures GetSessionId(fields, q1, signingKey, mac) == GetSessionId(fields, q2, signingKey, mac)
  {
  }

  /** Of the request's headers only `Authorization` is read: two header maps that agree on it give the same answer. */
  lemma OnlyAuthorizationRead(f1: map<string, seq<string>>, f2: map<string, seq<string>>,
                              query: map<string, seq<string>>, signingKey: string, mac: Hmac)
    requires First(f1, HeaderAuthorization) == First(f2, HeaderAuthorization)
    ensures GetSessionId(f1, query, signingKey, mac) == GetSessionId(f2, query, signingKey, mac)
  {
  }

  /** With no `Authorization` value the `auth` query parameter is read as if it were the header. */
  lemma QueryFallback(fields: map<string, seq<string>>, query: map<string, seq<string>>, signingKey: string, mac: Hmac)
    requires First(fields, HeaderAuthorization) == ""
    ensures GetSessionId(fields, query, signingKey, mac) ==
            GetSessionId(map[HeaderAuthorization := [First(query, ParamAuthorization)]], map[], signingKey, mac)
  {
  }

  /** The header `BeginSession` writes, sent back, yields the same id. */
  lemma BearerAccepted(fields: map<string, seq<string>>, query: map<string, seq<string>>,
                       signingKey: string, random: seq<Byte>, mac: Hmac)
    requires signingKey != [] && |random| == IdLength
    requires First(fields, HeaderAuthorization) == SchemeBearer + NewSessionId(signingKey, Some(random), mac).value.text
    ensures GetSessionId(fields, query, signingKey, mac) == Success(NewSessionId(signingKey, Some(random), mac).value)
  {
    var sid := NewSessionId(signingKey, Some(random), mac).value;
    NewThenValidate(signingKey, random, mac);
    assert (SchemeBearer + sid.text)[|SchemeBearer|..] == sid.text;
  }

  /**
   * `BeginSession`: a new id, the state saved under it, then
   * "Authorization: Bearer <id>" added to the response header `w`. The new
   * id's random bytes and the outcome of marshalling the state are inputs.
   */
  method BeginSession(signingKey: string, store: Store, json: Option<string>, w: Header,
                      random: Option<seq<Byte>>, mac: Hmac, fault: bool)
    returns (sid: SessionId, err: Option<SessionError>)
    requires random.Some? ==> |random.value| == IdLength
    modifies Footprint(store), w
    ensures var n := NewSessionId(signingKey, random, mac);
      n.Failure? ==> sid == InvalidSessionId && err == Some(NewIdFailed(n.error)) &&
                     unchanged(Footprint(store)) && unchanged(w)
    ensures err.Some? ==> sid == InvalidSessionId && unchanged(w) &&
                          forall x :: Saved(store, x) == old(Saved(store, x))
    ensures err.None? ==> NewSessionId(signingKey, random, mac) == Success(sid) && Saved(store, sid) == json
    ensures err.None? ==>
      w.fields == old(w.fields)[HeaderAuthorization := Values(old(w.fields), HeaderAuthorization) + [SchemeBearer + sid.text]]
    ensures err.None? <==> NewSessionId(signingKey, random, mac).Success? && json.Some? && !(store.Redis? && fault)
    ensures forall x :: x != sid ==> Saved(store, x) == old(Saved(store, x))
    ensures forall k: string :: !HasPrefix(k, "sid:") ==> Failures(store, k) == old(Failures(store, k))
  {
    var n := NewSessionId(signingKey, random, mac);
    if n.Failure? {
      return InvalidSessionId, Some(NewIdFailed(n.error));
    }
    var e := Save(store, n.value, json, fault);
    if e.Some? {
      return InvalidSessionId, Some(SaveFailed(e.value));
    }
    w.Add(HeaderAuthorization, SchemeBearer + String(n.value));
    return n.value, None;
  }

  /**
   * The JSON of the session state held for the request's session, when its
   * id validates and state is saved under it.
   */
  ghost function SessionJson(fields: map<string, seq<string>>, query: map<string, seq<string>>, signingKey: string,
                             mac: Hmac, store: Store): Option<string>
    reads Footprint(store)
  {
    var id := GetSessionId(fields, query, signingKey, mac);
    if id.Failure? then None else Saved(store, id.value)
  }

  /**
   * `GetState`: the request's session id and the state saved under it, as
   * JSON text that `decodes` accepts. A store error comes back as it is.
   */
  method GetState(r: Request, signingKey: string, mac: Hmac, store: Store, decodes: string -> bool, fault: bool)
    returns (sid: SessionId, state: string, err: Option<SessionError>)
    modifies Footprint(store)
    ensures var id := GetSessionId(r.header.fields, r.query, signingKey, mac);
      id.Failure? ==> sid == InvalidSessionId && err == Some(id.error) && unchanged(Footprint(store))
    ensures forall x :: Saved(store, x) == old(Saved(store, x))
    ensures forall k: string :: Failures(store, k) == old(Failures(store, k))
    ensures err.Some? ==> sid == InvalidSessionId
    ensures store.Redis? && fault ==> err.Some?
    ensures err.None? ==> GetSessionId(r.header.fields, r.query, signingKey, mac) == Success(sid) &&
                          Saved(store, sid) == Some(state) && decodes(state)
    ensures var id := GetSessionId(r.header.fields, r.query, signingKey, mac);
      id.Success? && Saved(store, id.value).None? ==> err == Some(GetFailed(StateNotFound))
    ensures var id := GetSessionId(r.header.fields, r.query, signingKey, mac);
      (id.Success? && Saved(store, id.value).Some? && decodes(Saved(store, id.value).value) &&
       !(store.Redis? && fault)) ==> err.None?
  {
    var id := GetSessionId(r.header.fields, r.query, signingKey, mac);
    if id.Failure? {
      return InvalidSessionId, "", Some(id.error);
    }
    var g := Get(store, id.value, decodes, fault);
    if g.Failure? {
      return InvalidSessionId, "", Some(GetFailed(g.error));
    }
    return id.value, g.value, None;
  }

  /** `EndSession`: the state saved under the request's session id is deleted. */
  method EndSession(r: Request, signingKey: string, mac: Hmac, store: Store, fault: bool)
    returns (sid: SessionId, err: Option<SessionError>)
    modifies Footprint(store)
    ensures var id := GetSessionId(r.header.fields, r.query, signingKey, mac);
      id.Failure? ==> sid == InvalidSessionId && err == Some(id.error) && unchanged(Footprint(store))
    ensures var id := GetSessionId(r.header.fields, r.query, signingKey, mac);
      id.Success? ==> (err.None? <==> !(store.Redis? && fault)) &&
                      (err.None? ==> sid == id.value && Saved(store, id.value).None?) &&
                      (err.Some? ==> sid == InvalidSessionId && err == Some(DeleteFailed(ClientFailure))) &&
                      forall x :: x != id.value ==> Saved(store, x) == old(Saved(store, x))
  {
    var id := GetSessionId(r.header.fields, r.query, signingKey, mac);
    if id.Failure? {
      return InvalidSessionId, Some(id.error);
    }
    var e := Delete(store, id.value, fault);
    if e.Some? {
      return InvalidSessionId, Some(DeleteFailed(e.value));
    }
    return id.value, None;
  }

  /**
   * A session begun on one response is found by the next request that
   * carries the returned header, and its state comes back as saved.
   */
  method BeginThenGet(signingKey: string, store: Store, json: string, random: seq<Byte>, mac: Hmac,
                      decodes: string -> bool)
    returns (r: Request, state: string)
    requires signingKey != [] && |random| == IdLength && decodes(json)
    modifies Footprint(store)
    ensures state == json
    ensures GetSessionId(r.header.fields, r.query, signingKey, mac) == Success(NewSessionId(signingKey, Some(random), mac).value)
  {
    var sid;
    r, sid := BeginForRequest(signingKey, store, json, random, mac);
    var got, e;
    got, state, e := GetState(r, signingKey, mac, store, decodes, false);
  }

  /** The first half of `BeginThenGet`: the session is begun and a request carrying its header is built. */
  method BeginForRequest(signingKey: string, store: Store, json: string, random: seq<Byte>, mac: Hmac)
    returns (r: Request, sid: SessionId)
    requires signingKey != [] && |random| == IdLength
    modifies Footprint(store)
    ensures sid == NewSessionId(signingKey, Some(random), mac).value
    ensures GetSessionId(r.header.fields, r.query, signingKey, mac) == Success(sid)
    ensures Saved(store, sid) == Some(json)
  {
    var w := new Header(map[]);
    var err;
    sid, err := BeginSession(signingKey, store, Some(json), w, Some(random), mac, false);
    assert err.None? && Saved(store, sid) == Some(json);
    assert w.fields[HeaderAuthorization] == [SchemeBearer + sid.text];
    var h := new Header(w.fields);
    r := new Request("GET", h, map[], "/", "");
    BearerAccepted(r.header.fields, r.query, signingKey, random, mac);
  }

  /** Once a session is ended, getting its state reports `ErrStateNotFound`. */
  method EndThenGet(r: Request, signingKey: string, mac: Hmac, store: Store, decodes: string -> bool)
    returns (afterEnd: Option<SessionError>)
    requires GetSessionId(r.header.fields, r.query, signingKey, mac).Success?
    modifies Footprint(store)
    ensures afterEnd == Some(GetFailed(StateNotFound))
  {
    var ended, e := EndSession(r, signingKey, mac, store, false);
    var gone, s;
    gone, s, afterEnd := GetState(r, signingKey, mac, store, decodes, false);
  }
}

=== FILE: sessionid.dfy ===
/**
 * Signed session ids (`sessions/sessionid.go`). An id is the base64url text of
 * 32 random bytes followed by the HMAC-SHA256 (RFC 2104) of those bytes under
 * the server's signing key. The HMAC and the random source are not computed
 * here: the HMAC is a function parameter and the random bytes (or the failure
 * to read them) are an input.
 */
module SessionIds {
  import opened Wrappers
  import opened Base64

  /** A `SessionID` is a string underneath. */
  datatype SessionId = SessionId(text: string)

  /** The empty, invalid id returned with every error. */
  const InvalidSessionId := SessionId("")

  /** The random part of an id, and the whole signed id (random part plus a SHA-256 sized MAC). */
  const IdLength := 32
  const MacSize := 32
  const SignedLength := IdLength + MacSize

  /** HMAC-SHA256 of a message under a key, as `makeSignature` computes it. */
  type Hmac = (string, seq<Byte>) -> seq<Byte>

  /** A MAC of SHA-256 size, whatever key and message. */
  ghost predicate IsSha256Mac(mac: Hmac) {
    forall key, msg :: |mac(key, msg)| == MacSize
  }

  datatype IdError =
    | EmptySigningKey   // the signing key is zero-length
    | RandomFailure     // reading random bytes failed
    | EmptyId           // the id to validate is empty
    | NotBase64         // the id does not decode
    | InvalidId         // `ErrInvalidID`: the signature does not match

  /**
   * The errors of the session stores: `ErrStateNotFound`, a failure of
   * `json.Marshal` or `json.Unmarshal`, an error of the Redis client, and
   * the client's `redis.Nil` for a missing key.
   */
  datatype StoreError = StateNotFound | MarshalFailure | UnmarshalFailure | ClientFailure | MissingKey

  /** `String`: the text of the id. */
  function String(sid: SessionId): (s: string)
    ensures SessionId(s) == sid
  {
    sid.text
  }

  /**
   * `NewSessionID`: random bytes followed by their signature, base64url
   * encoded. `random` is what `rand.Read` produced into the 32-byte buffer,
   * or None when it failed.
   */
  function NewSessionId(signingKey: string, random: Option<seq<Byte>>, mac: Hmac): (r: Result<SessionId, IdError>)
    requires random.Some? ==> |random.value| == IdLength
    ensures signingKey == [] ==> r == Failure(EmptySigningKey)
    ensures signingKey != [] && random.None? ==> r == Failure(RandomFailure)
    ensures r.Success? <==> signingKey != [] && random.Some?
    ensures r.Success? ==> Decode(r.value.text) == Some(random.value + mac(signingKey, random.value))
  {
    if |signingKey| == 0 then Failure(EmptySigningKey)
    else if random.None? then Failure(RandomFailure)
    else
      var signed := random.value + mac(signingKey, random.value);
      RoundTrip(signed);
      Success(SessionId(Encode(signed)))
  }

  /** The id portion carries a matching signature in the rest of the decoded bytes. */
  predicate Signed(decoded: seq<Byte>, signingKey: string, mac: Hmac)
    requires |decoded| >= IdLength
  {
    mac(signingKey, decoded[..IdLength]) == decoded[IdLength..]
  }

  /**
   * `ValidateID`, with decoded input shorter than the id portion rejected as
   * `ErrInvalidID` (see `ValidateIdAsWritten` for the code as written).
   */
  function ValidateId(id: string, signingKey: string, mac: Hmac): (r: Result<SessionId, IdError>)
    ensures id == [] ==> r == Failure(EmptyId)
    ensures id != [] && Decode(id).None? ==> r == Failure(NotBase64)
    ensures r.Success? <==>
      id != [] && Decode(id).Some? && |Decode(id).value| >= IdLength && Signed(Decode(id).value, signingKey, mac)
    ensures r.Success? ==> r.value == SessionId(id)
    ensures id != [] && Decode(id).Some? && r.Failure? ==> r.error == InvalidId
  {
    if |id| == 0 then Failure(EmptyId)
    else
      var decoded := Decode(id);
      if decoded.None? then Failure(NotBase64)
      else if |decoded.value| < IdLength then Failure(InvalidId)
      else if Signed(decoded.value, signingKey, mac) then Success(SessionId(id))
      else Failure(InvalidId)
  }

  /** A fresh id validates under the same key and comes back unchanged. */
  lemma NewThenValidate(signingKey: string, random: seq<Byte>, mac: Hmac)
    requires signingKey != [] && |random| == IdLength
    ensures NewSessionId(signingKey, Some(random), mac).Success?
    ensures var sid := NewSessionId(signingKey, Some(random), mac).value;
      ValidateId(sid.text, signingKey, mac) == Success(sid)
  {
    var signed := random + mac(signingKey, random);
    assert signed[..IdLength] == random && signed[IdLength..] == mac(signingKey, random);
    RoundTrip(signed);
    EncodeEmpty(signed);
  }

  /** With a SHA-256 sized MAC a fresh id holds 64 bytes, which is 88 base64 symbols. */
  lemma NewIdLength(signingKey: string, random: seq<Byte>, mac: Hmac)
    requires signingKey != [] && |random| == IdLength && IsSha256Mac(mac)
    ensures var sid := NewSessionId(signingKey, Some(random), mac).value;
      |Decode(sid.text).value| == SignedLength && |sid.text| == 88
  {
    var signed := random + mac(signingKey, random);
    assert |signed| == SignedLength by {
      assert |mac(signingKey, random)| == MacSize;
    }
    var sid := NewSessionId(signingKey, Some(random), mac).value;
    assert sid.text == Encode(signed);
    assert Decode(sid.text) == Some(signed);
    assert |Encode(signed)| == 88 by {
      assert (SignedLength + 2) / 3 == 22;
    }
  }

  // ---------------------------------------------------------------------------
  // `ValidateID` as the Go code is written

  /**
   * `ValidateID` as written: `decoded[:idLength]` is taken without a length
   * check, so a decoded id shorter than 32 bytes makes the slice expression
   * panic; every other input gets the answer of `ValidateId`.
   */
  function ValidateIdAsWritten(id: string, signingKey: string, mac: Hmac): (r: Outcome<Result<SessionId, IdError>>)
    ensures r.Panicked? <==> id != [] && Decode(id).Some? && |Decode(id).value| < IdLength
    ensures r.Returned? ==> r.value == ValidateId(id, signingKey, mac)
  {
    if |id| == 0 then Returned(Failure(EmptyId))
    else
      var decoded := Decode(id);
      if decoded.None? then Returned(Failure(NotBase64))
      else if |decoded.value| < IdLength then Panicked
      else if Signed(decoded.value, signingKey, mac) then Returned(Success(SessionId(id)))
      else Returned(Failure(InvalidId))
  }

  /** Any well-formed id of 1 to 31 bytes panics as written, and is rejected with `ErrInvalidID` once corrected. */
  lemma ShortIdPanics(b: seq<Byte>, signingKey: string, mac: Hmac)
    requires 1 <= |b| < IdLength
    ensures ValidateIdAsWritten(Encode(b), signingKey, mac) == Panicked
    ensures ValidateId(Encode(b), signingKey, mac) == Failure(InvalidId)
  {
    RoundTrip(b);
    EncodeEmpty(b);
  }
}

=== FILE: store.dfy ===
/**
 * The `Store` interface of the session package (`sessions/store.go` is not
 * part of this model): a session store is either the in-process cache or
 * the Redis store, and each operation dispatches on which one it is. The
 * `fault` inputs are the outcomes of the Redis client calls; the in-process
 * store ignores them.
 */
module Stores {
  import opened Wrappers
  import opened SessionIds
  import opened MemStores
  import opened Text
  import opened RedisStores

  datatype Store = Mem(mem: MemStore) | Redis(redis: RedisStore)

  /** The objects a store operation may change. */
  function Footprint(store: Store): set<object> {
    if store.Mem? then {store.mem} else {store.redis}
  }

  /** The JSON saved for a session id, if any, whichever store holds it. */
  ghost function Saved(store: Store, sid: SessionId): Option<string>
    reads Footprint(store)
  {
    match store
    case Mem(m) => if String(sid) in m.entries then Some(m.entries[String(sid)]) else None
    case Redis(r) => if RedisKey(sid) in r.values then Some(r.values[RedisKey(sid)]) else None
  }

  /** `Store.Save`: the state is saved under the id and no other id's state changes. */
  method Save(store: Store, sid: SessionId, json: Option<string>, fault: bool) returns (err: Option<StoreError>)
    modifies Footprint(store)
    ensures err.None? <==> json.Some? && !(store.Redis? && fault)
    ensures json.None? ==> err == Some(MarshalFailure)
    ensures err.Some? ==> forall x :: Saved(store, x) == old(Saved(store, x))
    ensures err.None? ==> Saved(store, sid) == json
    ensures forall x :: x != sid ==> Saved(store, x) == old(Saved(store, x))
    ensures forall k: string :: k != RedisKey(sid) ==> Failures(store, k) == old(Failures(store, k))
  {
    match store
    case Mem(m) =>
      err := m.Save(sid, json);
    case Redis(r) =>
      err := r.Save(sid, json, fault);
      forall x | x != sid ensures RedisKey(x) != RedisKey(sid) {
        RedisKeyInjective(x, sid);
      }
  }

  /**
   * `Store.Get`: the saved JSON if it decodes for the caller's state type,
   * `ErrStateNotFound` for an id with nothing saved; no saved state changes.
   */
  method Get(store: Store, sid: SessionId, decodes: string -> bool, fault: bool) returns (r: Result<string, StoreError>)
    modifies Footprint(store)
    ensures forall x :: Saved(store, x) == old(Saved(store, x))
    ensures Saved(store, sid).None? ==> r == Failure(StateNotFound)
    ensures store.Redis? && fault ==> r == Failure(StateNotFound)
    ensures Saved(store, sid).Some? && !(store.Redis? && fault) ==>
      r == if decodes(Saved(store, sid).value) then Success(Saved(store, sid).value) else Failure(UnmarshalFailure)
    ensures r.Success? ==> Saved(store, sid) == Some(r.value) && decodes(r.value)
    ensures forall k: string :: Failures(store, k) == old(Failures(store, k))
  {
    match store
    case Mem(m) =>
      r := m.Get(sid, decodes);
    case Redis(rs) =>
      r := rs.Get(sid, decodes, fault);
  }

  /** `Store.Delete`: afterwards nothing is saved under the id; other ids keep their state. */
  method Delete(store: Store, sid: SessionId, fault: bool) returns (err: Option<StoreError>)
    modifies Footprint(store)
    ensures err.None? <==> !(store.Redis? && fault)
    ensures err.Some? ==> err == Some(ClientFailure)
    ensures err.Some? ==> forall x :: Saved(store, x) == old(Saved(store, x))
    ensures err.None? ==> Saved(store, sid).None?
    ensures forall x :: x != sid ==> Saved(store, x) == old(Saved(store, x))
  {
    match store
    case Mem(m) =>
      err := m.Delete(sid);
    case Redis(r) =>
      err := r.Delete(sid, fault);
      forall x | x != sid ensures RedisKey(x) != RedisKey(sid) {
        RedisKeyInjective(x, sid);
      }
  }

  /**
   * The failure count a store keeps for a client key: the in-process store
   * keeps none and always reads 0; None when the Redis value is not an
   * int64, which makes every `INCRBY` on it fail.
   */
  ghost function Failures(store: Store, key: string): Option<Int64>
    reads Footprint(store)
  {
    if store.Mem? then Some(0) else Counter(store.redis.values, key)
  }

  /**
   * `Store.Increment`: the in-process store always answers (0, nil); the
   * Redis store adds `amount` to the count and answers the new count, or
   * (0, err) on any client error. The count is stored even when only the
   * expiry at the fifth failure fails.
   */
  method Increment(store: Store, id: string, amount: Int64, incrFault: bool, expireFault: bool)
    returns (count: Int64, err: Option<StoreError>)
    modifies Footprint(store)
    ensures store.Mem? ==> count == 0 && err.None? && unchanged(store.mem)
    ensures err.Some? ==> count == 0 && err == Some(ClientFailure)
    ensures forall x :: Saved(store, x) == old(Saved(store, x)) || RedisKey(x) == id
    ensures var c := old(Failures(store, id));
      store.Redis? && (incrFault || c.None? || !(MinInt64 <= c.value + amount <= MaxInt64)) ==>
        err.Some? && Failures(store, id) == c
    ensures var c := old(Failures(store, id));
      store.Redis? && !incrFault && c.Some? && MinInt64 <= c.value + amount <= MaxInt64 ==>
        Failures(store, id) == Some(c.value + amount) &&
        (err.Some? <==> c.value + amount == LockoutCount && expireFault) &&
        (err.None? ==> count == c.value + amount)
  {
    match store
    case Mem(m) =>
      count, err := m.Increment(id, amount);
    case Redis(r) =>
      ghost var c := Counter(r.values, id);
      count, err := r.Increment(id, amount, incrFault, expireFault);
      if !incrFault && c.Some? && MinInt64 <= c.value + amount <= MaxInt64 {
        IncrementReadBack(old(r.values), id, c.value + amount);
      }
  }
}

=== FILE: summary.dfy ===
/**
 * Page summaries from Open Graph metadata (`handlers/summary.go`). The HTML
 * tokenizer is replaced by a finite sequence of tokens, and URL resolution
 * (section 5.2 of RFC 3986, `url.ResolveReference`) by a function parameter.
 * `strconv.Atoi` failing makes the Go code call `log.Fatalf`, which ends the
 * process: that outcome is modelled as a halt.
 */
module Summaries {
  import opened Wrappers
  import opened Text

  datatype PreviewImage = PreviewImage(url: string, secureUrl: string, kind: string, width: int, height: int, alt: string)

  datatype PreviewVideo = PreviewVideo(url: string, secureUrl: string, kind: string, width: int, height: int)

  /** `PageSummary`; a nil `Keywords` slice is the empty sequence and a nil `Icon` is None. */
  datatype PageSummary = PageSummary(kind: string, url: string, title: string, siteName: string,
                                     description: string, author: string, keywords: seq<string>,
                                     icon: Option<PreviewImage>, images: seq<PreviewImage>,
                                     videos: seq<PreviewVideo>)

  /** `base.ResolveReference(u).String()` for a page URL and a reference. */
  type Resolve = (string, string) -> string

  /** Reading a Go `map[string]string`: a missing key reads as "". */
  function Get(m: map<string, string>, k: string): string {
    if k in m then m[k] else ""
  }

  /** Reading a Go `map[string]int`: a missing key reads as 0. */
  function GetInt(m: map<string, int>, k: string): int {
    if k in m then m[k] else 0
  }

  // ---------------------------------------------------------------------------
  // Keywords, icon and the summary record

  /** The keywords of a `keywords` meta value: the comma-separated pieces, trimmed. */
  function Keywords(keywords: string): seq<string> {
    if keywords == "" then []
    else
      var parts := Split(keywords, ',');
      seq(|parts|, k requires 0 <= k < |parts| => TrimSpace(parts[k]))
  }

  /** No keywords for an empty value; otherwise one per comma, plus one. */
  lemma KeywordsCount(keywords: string)
    ensures keywords == "" ==> Keywords(keywords) == []
    ensures keywords != "" ==> |Keywords(keywords)| == Count(keywords, ',') + 1
  {
    SplitLength(keywords, ',');
  }

  /** `getKeywords`: the pieces are trimmed and appended one by one. */
  method GetKeywords(keywords: string) returns (cleaned: seq<string>)
    ensures cleaned == Keywords(keywords)
    ensures keywords != "" ==> |cleaned| == Count(keywords, ',') + 1
  {
    KeywordsCount(keywords);
    if keywords == "" {
      return [];
    }
    var splitK := Split(keywords, ',');
    cleaned := [];
    for i := 0 to |splitK|
      invariant |cleaned| == i
      invariant forall k :: 0 <= k < i ==> cleaned[k] == TrimSpace(splitK[k])
    {
      cleaned := cleaned + [TrimSpace(splitK[i])];
    }
    KeywordsAre(keywords, cleaned);
  }

  /** The pieces trimmed one by one are the keywords. */
  lemma KeywordsAre(keywords: string, cleaned: seq<string>)
    requires keywords != ""
    requires |cleaned| == |Split(keywords, ',')|
    requires forall k :: 0 <= k < |cleaned| ==> cleaned[k] == TrimSpace(Split(keywords, ',')[k])
    ensures cleaned == Keywords(keywords)
  {
  }

  /**
   * `getIcon` as written: a sizes value other than "any" or "" is split at
   * "x" and the first piece read as the height, then the second as the
   * width. A piece that is not a number makes `convToInt` end the process;
   * a value without an "x" whose first piece is a number indexes past the
   * pieces and panics.
   */
  function GetIconAsWritten(extracted: map<string, string>): (r: Outcome<Option<PreviewImage>>)
    ensures r == Returned(None) <==> Get(extracted, "icon") == ""
  {
    if Get(extracted, "icon") == "" then Returned(None)
    else
      var sizes := Get(extracted, "icon:sizes");
      if sizes != "any" && sizes != "" then
        var splitS := Split(sizes, 'x');
        var h := ParseInt(splitS[0]);
        if h.None? then Exited
        else if |splitS| < 2 then Panicked
        else
          var w := ParseInt(splitS[1]);
          if w.None? then Exited
          else Returned(Some(PreviewImage(Get(extracted, "icon"), "", Get(extracted, "icon:type"), w.value, h.value, "")))
      else Returned(Some(PreviewImage(Get(extracted, "icon"), "", Get(extracted, "icon:type"), 0, 0, "")))
  }

  /** The dimensions read from an icon's sizes value: (height, width), or (0, 0) when they cannot be read. */
  function IconDims(sizes: string): (int, int) {
    if sizes == "any" || sizes == "" then (0, 0)
    else
      var splitS := Split(sizes, 'x');
      if |splitS| < 2 then (0, 0)
      else
        var h, w := ParseInt(splitS[0]), ParseInt(splitS[1]);
        if h.None? || w.None? then (0, 0) else (h.value, w.value)
  }

  /**
   * `getIcon`, corrected so that it never stops the server: sizes it
   * cannot read give zero dimensions, like "any".
   */
  function GetIcon(extracted: map<string, string>): (r: Option<PreviewImage>)
    ensures r.None? <==> Get(extracted, "icon") == ""
    ensures r.Some? ==> r.value.url == Get(extracted, "icon") && r.value.kind == Get(extracted, "icon:type")
    ensures r.Some? && Get(extracted, "icon:sizes") in {"any", ""} ==> r.value.width == 0 && r.value.height == 0
  {
    if Get(extracted, "icon") == "" then None
    else
      var dims := IconDims(Get(extracted, "icon:sizes"));
      Some(PreviewImage(Get(extracted, "icon"), "", Get(extracted, "icon:type"), dims.1, dims.0, ""))
  }

  /** Wherever the code as written returns, it returns the corrected icon. */
  lemma IconAsWrittenAgrees(extracted: map<string, string>)
    ensures GetIconAsWritten(extracted).Returned? ==> GetIconAsWritten(extracted).value == GetIcon(extracted)
  {
  }

  /** A sizes value "HxW" of two decimal numbers gives height H and width W. */
  lemma IconSizes(extracted: map<string, string>, h: nat, w: nat)
    requires h <= MaxInt64 && w <= MaxInt64
    requires Get(extracted, "icon") != ""
    requires Get(extracted, "icon:sizes") == FormatNat(h) + "x" + FormatNat(w)
    ensures GetIconAsWritten(extracted) == Returned(GetIcon(extracted))
    ensures GetIcon(extracted).value.height == h && GetIcon(extracted).value.width == w
  {
    DimsOfSizes(h, w);
  }

  lemma DimsOfSizes(h: nat, w: nat)
    requires h <= MaxInt64 && w <= MaxInt64
    ensures var sizes := FormatNat(h) + "x" + FormatNat(w);
      sizes != "any" && sizes != "" && Split(sizes, 'x') == [FormatNat(h), FormatNat(w)] &&
      ParseInt(FormatNat(h)) == Some(h) && ParseInt(FormatNat(w)) == Some(w) && IconDims(sizes) == (h, w)
  {
    var sizes := FormatNat(h) + "x" + FormatNat(w);
    SplitDigits(FormatNat(h), FormatNat(w));
    ParseFormat(h);
    ParseFormat(w);
    assert sizes != "any" by {
      assert IsDigit(sizes[0]);
    }
  }

  /** Two runs of digits around an "x" split into the two runs. */
  lemma SplitDigits(a: string, b: string)
    requires forall k :: 0 <= k < |a| ==> IsDigit(a[k])
    requires forall k :: 0 <= k < |b| ==> IsDigit(b[k])
    ensures Split(a + "x" + b, 'x') == [a, b]
  {
    var s := a + "x" + b;
    assert forall k :: 0 <= k < |a| ==> a[k] != 'x';
    assert forall k :: 0 <= k < |b| ==> b[k] != 'x';
    assert s[..|a|] == a && s[|a|] == 'x';
    assert IndexOf(s, 'x') == |a|;
    assert s[|a| + 1..] == b;
    SplitFirst(b, 'x');
  }

  /**
   * A sizes value without a lower-case "x", such as "16" or "16X16" (HTML
   * allows either case), stops the code as written: a number panics at the
   * missing second piece, anything else ends the process in `convToInt`.
   * Once corrected it gives zero dimensions.
   */
  lemma SizesWithoutX(extracted: map<string, string>)
    requires Get(extracted, "icon") != ""
    requires Get(extracted, "icon:sizes") !in {"any", ""} && 'x' !in Get(extracted, "icon:sizes")
    ensures ParseInt(Get(extracted, "icon:sizes")).Some? ==> GetIconAsWritten(extracted) == Panicked
    ensures ParseInt(Get(extracted, "icon:sizes")).None? ==> GetIconAsWritten(extracted) == Exited
    ensures GetIcon(extracted).Some? && GetIcon(extracted).value.height == 0 && GetIcon(extracted).value.width == 0
  {
    SplitFirst(Get(extracted, "icon:sizes"), 'x');
  }

  /** The sizes "16" panic as written, and "16X16" end the process. */
  lemma SixteenStops(icon: string)
    requires icon != ""
    ensures GetIconAsWritten(map["icon" := icon, "icon:sizes" := "16"]) == Panicked
    ensures GetIconAsWritten(map["icon" := icon, "icon:sizes" := "16X16"]) == Exited
  {
    var e1, e2 := map["icon" := icon, "icon:sizes" := "16"], map["icon" := icon, "icon:sizes" := "16X16"];
    assert Get(e1, "icon:sizes") == "16" && Get(e2, "icon:sizes") == "16X16";
    assert DigitsValue("16") == 16 by {
      assert "16"[..1] == "1";
      assert DigitsValue("1") == 1 by {
        assert "1"[..0] == "";
      }
    }
    assert ParseInt("16") == Some(16);
    assert !IsDigit("16X16"[2]);
    NotDigitsNone("16X16", 2);
    assert "16X16" != "any" && "16X16" != "";
    assert 'x' !in "16X16";
    assert "16" != "any" && "16" != "" && 'x' !in "16";
    SizesWithoutX(e1);
    SizesWithoutX(e2);
  }

  /**
   * Which `getIcon` and `makeVideos` the summary is built with: the code as
   * written, or the corrected definitions (README, "Findings").
   */
  datatype Version = AsWritten | Corrected

  /** `getIcon` in the given version; the corrected one always returns. */
  function IconFor(v: Version, extracted: map<string, string>): (r: Outcome<Option<PreviewImage>>)
    ensures v.Corrected? ==> r == Returned(GetIcon(extracted))
    ensures r.Returned? ==> r.value == GetIcon(extracted)
  {
    if v.AsWritten? then GetIconAsWritten(extracted) else Returned(GetIcon(extracted))
  }

  /** `PageSummary` as `constructSummary` fills it, once the icon is known. */
  function Summary(extracted: map<string, string>, icon: Option<PreviewImage>, images: seq<PreviewImage>,
                   videos: seq<PreviewVideo>): PageSummary {
    PageSummary(Get(extracted, "og:type"), Get(extracted, "og:url"), Get(extracted, "og:title"),
                Get(extracted, "og:site_name"), Get(extracted, "og:description"), Get(extracted, "og:author"),
                Keywords(Get(extracted, "keywords")), icon, images, videos)
  }

  /**
   * `constructSummary`: the Open Graph values are copied straight through
   * and the keywords and icon derived. Its own error is always nil; as
   * written, `getIcon` can panic or end the process on the way.
   */
  method ConstructSummary(v: Version, extracted: map<string, string>, images: seq<PreviewImage>, videos: seq<PreviewVideo>)
    returns (r: Outcome<PageSummary>)
    ensures r.Panicked? <==> IconFor(v, extracted).Panicked?
    ensures r.Exited? <==> IconFor(v, extracted).Exited?
    ensures v.Corrected? || Get(extracted, "icon") == "" ==> r.Returned?
    ensures r.Returned? ==> r.value == Summary(extracted, GetIcon(extracted), images, videos)
    ensures r.Returned? ==> var p := r.value;
      p.kind == Get(extracted, "og:type") && p.url == Get(extracted, "og:url") &&
      p.title == Get(extracted, "og:title") && p.siteName == Get(extracted, "og:site_name") &&
      p.description == Get(extracted, "og:description") && p.author == Get(extracted, "og:author") &&
      p.keywords == Keywords(Get(extracted, "keywords")) && p.images == images && p.videos == videos
  {
    var keywords := GetKeywords(Get(extracted, "keywords"));
    var icon := IconFor(v, extracted);
    match icon
    case Panicked => return Panicked;
    case Exited => return Exited;
    case Returned(i) =>
      r := Returned(PageSummary(Get(extracted, "og:type"), Get(extracted, "og:url"), Get(extracted, "og:title"),
                                Get(extracted, "og:site_name"), Get(extracted, "og:description"),
                                Get(extracted, "og:author"), keywords, i, images, videos));
  }

  // ---------------------------------------------------------------------------
  // Media groups

  /** Keys whose value is a URL to resolve: any key mentioning "url", and the media key itself. */
  predicate UrlLike(mediaType: string, k: string) {
    Contains(k, "url") || k == mediaType
  }

  /** Keys whose value is a dimension. */
  predicate DimKey(mediaType: string, k: string) {
    !UrlLike(mediaType, k) && (k == mediaType + ":width" || k == mediaType + ":height")
  }

  /** A key of the group that belongs to the media type. */
  predicate Belongs(mediaType: string, group: map<string, string>, k: string) {
    k in group && Contains(k, mediaType)
  }

  /** A value of the media type after cleaning: URL values are resolved against the page. */
  function CleanValue(mediaType: string, page: string, k: string, v: string, resolve: Resolve): string {
    if UrlLike(mediaType, k) then resolve(page, v) else v
  }

  /** The cleaned values: the keys of the media type, with URL values resolved against the page. */
  function Cleaned(mediaType: string, page: string, group: map<string, string>, resolve: Resolve): map<string, string> {
    map k | k in group.Keys && Contains(k, mediaType) :: CleanValue(mediaType, page, k, group[k], resolve)
  }

  /** Some dimension of the group is not a number: `convToInt` ends the process. */
  predicate DimFails(mediaType: string, group: map<string, string>) {
    exists k :: k in group.Keys && Contains(k, mediaType) && DimKey(mediaType, k) && ParseInt(group[k]).None?
  }

  /** The dimensions of the group, as numbers. */
  function Dims(mediaType: string, group: map<string, string>): map<string, int>
    requires !DimFails(mediaType, group)
  {
    map k | k in group.Keys && Contains(k, mediaType) && DimKey(mediaType, k) :: ParseInt(group[k]).value
  }

  /** Cleaning one more key adds at most that key. */
  lemma CleanedAdd(mediaType: string, page: string, group: map<string, string>, k: string, v: string, resolve: Resolve)
    requires k !in group
    ensures Contains(k, mediaType) ==>
      Cleaned(mediaType, page, group[k := v], resolve) == Cleaned(mediaType, page, group, resolve)[k := CleanValue(mediaType, page, k, v, resolve)]
    ensures !Contains(k, mediaType) ==> Cleaned(mediaType, page, group[k := v], resolve) == Cleaned(mediaType, page, group, resolve)
  {
  }

  /** Parsing one more key fails exactly when that key is a dimension that is not a number. */
  lemma DimFailsAdd(mediaType: string, group: map<string, string>, k: string, v: string)
    requires k !in group && !DimFails(mediaType, group)
    ensures DimFails(mediaType, group[k := v]) <==> Contains(k, mediaType) && DimKey(mediaType, k) && ParseInt(v).None?
  {
    var g := group[k := v];
    if DimFails(mediaType, g) {
      var j :| j in g.Keys && Contains(j, mediaType) && DimKey(mediaType, j) && ParseInt(g[j]).None?;
      assert j == k;
    }
  }

  /** Parsing one more key adds at most that dimension. */
  lemma DimsAdd(mediaType: string, group: map<string, string>, k: string, v: string)
    requires k !in group && !DimFails(mediaType, group[k := v])
    ensures !DimFails(mediaType, group)
    ensures Contains(k, mediaType) && DimKey(mediaType, k) ==>
      Dims(mediaType, group[k := v]) == Dims(mediaType, group)[k := ParseInt(v).value]
    ensures !(Contains(k, mediaType) && DimKey(mediaType, k)) ==>
      Dims(mediaType, group[k := v]) == Dims(mediaType, group)
  {
    forall j | j in group.Keys && Contains(j, mediaType) && DimKey(mediaType, j)
      ensures ParseInt(group[j]).Some?
    {
      assert group[k := v][j] == group[j];
    }
  }

  /**
   * `cleanMedia`: the group's keys are visited in some order; keys of the
   * media type are kept, URL values resolved and dimensions parsed. Go
   * rewrites the URL values of the caller's map in place, but no caller
   * reads that map again.
   */
  method CleanMedia(mediaType: string, page: string, group: map<string, string>, resolve: Resolve)
    returns (cleaned: map<string, string>, dim: map<string, int>, halted: bool)
    ensures halted <==> DimFails(mediaType, group)
    ensures !halted ==> cleaned == Cleaned(mediaType, page, group, resolve) && dim == Dims(mediaType, group)
  {
    cleaned, dim := map[], map[];
    var rest := group.Keys;
    assert group - rest == map[];
    while rest != {}
      invariant rest <= group.Keys
      invariant !DimFails(mediaType, group - rest)
      invariant cleaned == Cleaned(mediaType, page, group - rest, resolve)
      invariant dim == Dims(mediaType, group - rest)
      decreases rest
    {
      var k :| k in rest;
      var v := group[k];
      ghost var done := group - rest;
      assert group - (rest - {k}) == done[k := v];
      CleanedAdd(mediaType, page, done, k, v, resolve);
      DimFailsAdd(mediaType, done, k, v);
      if Contains(k, mediaType) {
        if UrlLike(mediaType, k) {
          v := resolve(page, v);
        } else if k == mediaType + ":width" || k == mediaType + ":height" {
          var d := ParseInt(v);
          if d.None? {
            assert DimKey(mediaType, k) && ParseInt(group[k]).None?;
            return cleaned, dim, true;
          }
          DimsAdd(mediaType, done, k, group[k]);
          dim := dim[k := d.value];
        }
        cleaned := cleaned[k := v];
      }
      if !(Contains(k, mediaType) && DimKey(mediaType, k)) {
        DimsAdd(mediaType, done, k, group[k]);
      }
      rest := rest - {k};
    }
    assert group - rest == group;
    halted := false;
  }

  /** `makeImages` as a specification: None when the process ends. */
  function ImageOf(page: string, group: map<string, string>, resolve: Resolve): Option<PreviewImage> {
    if DimFails("og:image", group) then None
    else
      var c, d := Cleaned("og:image", page, group, resolve), Dims("og:image", group);
      Some(PreviewImage(Get(c, "og:image"), Get(c, "og:image:secure_url"), Get(c, "og:image:type"),
                        GetInt(d, "og:image:width"), GetInt(d, "og:image:height"), Get(c, "og:image:alt")))
  }

  /** `makeVideos` as a specification, with the secure URL key spelled as intended. */
  function VideoOf(page: string, group: map<string, string>, resolve: Resolve): Option<PreviewVideo> {
    if DimFails("og:video", group) then None
    else
      var c, d := Cleaned("og:video", page, group, resolve), Dims("og:video", group);
      Some(PreviewVideo(Get(c, "og:video"), Get(c, "og:video:secure_url"), Get(c, "og:video:type"),
                        GetInt(d, "og:video:width"), GetInt(d, "og:video:height")))
  }

  /** `makeImages`: the cleaned group as an image. */
  method MakeImages(page: string, group: map<string, string>, resolve: Resolve) returns (img: Option<PreviewImage>)
    ensures img == ImageOf(page, group, resolve)
  {
    var imageVal, dim, halted := CleanMedia("og:image", page, group, resolve);
    if halted {
      return None;
    }
    img := Some(PreviewImage(Get(imageVal, "og:image"), Get(imageVal, "og:image:secure_url"),
                             Get(imageVal, "og:image:type"), GetInt(dim, "og:image:width"),
                             GetInt(dim, "og:image:height"), Get(imageVal, "og:image:alt")));
  }

  /**
   * `makeVideos` as written: the secure URL is read from the key
   * "og:vide:secure_url", which no cleaned key can be, so it is always
   * empty.
   */
  method MakeVideosAsWritten(page: string, group: map<string, string>, resolve: Resolve)
    returns (vid: Option<PreviewVideo>)
    ensures vid.None? <==> DimFails("og:video", group)
    ensures vid.Some? ==> vid.value.secureUrl == ""
    ensures vid.Some? ==> vid.value == VideoOf(page, group, resolve).value.(secureUrl := "")
  {
    var videoVal, dim, halted := CleanMedia("og:video", page, group, resolve);
    if halted {
      return None;
    }
    assert !Contains("og:vide:secure_url", "og:video") by {
      NotContainsVideo();
    }
    vid := Some(PreviewVideo(Get(videoVal, "og:video"), Get(videoVal, "og:vide:secure_url"),
                             Get(videoVal, "og:video:type"), GetInt(dim, "og:video:width"),
                             GetInt(dim, "og:video:height")));
  }

  /** The misspelt key does not mention "og:video". */
  lemma NotContainsVideo()
    ensures !Contains("og:vide:secure_url", "og:video")
  {
    var s := "og:vide:secure_url";
    assert forall j :: 1 <= j < |s| ==> s[j] != 'o';
    forall i | 0 <= i <= |s| ensures !HasPrefix(s[i..], "og:video") {
      if i + 8 <= |s| {
        assert s[i..][..8][7] == s[i + 7] != 'o';
      }
    }
    NotContainsFrom(s, "og:video", 0);
  }

  lemma {:induction false} NotContainsFrom(s: string, sub: string, i: nat)
    requires i <= |s|
    requires forall j :: i <= j <= |s| ==> !HasPrefix(s[j..], sub)
    ensures !Contains(s[i..], sub)
    decreases |s| - i
  {
    if i < |s| {
      NotContainsFrom(s, sub, i + 1);
      assert s[i..][1..] == s[i + 1..];
    }
  }

  /** `makeVideos`, corrected: the secure URL is read from "og:video:secure_url". */
  method MakeVideos(page: string, group: map<string, string>, resolve: Resolve) returns (vid: Option<PreviewVideo>)
    ensures vid == VideoOf(page, group, resolve)
  {
    var videoVal, dim, halted := CleanMedia("og:video", page, group, resolve);
    if halted {
      return None;
    }
    vid := Some(PreviewVideo(Get(videoVal, "og:video"), Get(videoVal, "og:video:secure_url"),
                             Get(videoVal, "og:video:type"), GetInt(dim, "og:video:width"),
                             GetInt(dim, "og:video:height")));
  }

  /** A video's secure URL is kept, resolved against the page, once the key is spelt as intended. */
  lemma VideoSecureUrl(page: string, group: map<string, string>, resolve: Resolve)
    requires !DimFails("og:video", group) && "og:video:secure_url" in group
    ensures VideoOf(page, group, resolve).value.secureUrl == resolve(page, group["og:video:secure_url"])
  {
    var k := "og:video:secure_url";
    assert HasPrefix(k, "og:video");
    assert k[16..19] == "url";
    ContainsAt(k, "url", 16);
  }

  /** `makeVideos` in the given version: as written, the secure URL is always empty. */
  function VideoFor(v: Version, page: string, group: map<string, string>, resolve: Resolve): (r: Option<PreviewVideo>)
    ensures r.None? <==> DimFails("og:video", group)
    ensures v.Corrected? ==> r == VideoOf(page, group, resolve)
    ensures v.AsWritten? && r.Some? ==> r.value == VideoOf(page, group, resolve).value.(secureUrl := "")
  {
    var vid := VideoOf(page, group, resolve);
    if v.AsWritten? && vid.Some? then Some(vid.value.(secureUrl := "")) else vid
  }

  // ---------------------------------------------------------------------------
  // The token scan of `extractSummary`

  /** The kinds of token the HTML tokenizer yields before the end of input. */
  datatype TokenKind = StartTag | EndTag | SelfClosingTag | TextToken | CommentToken | DoctypeToken

  datatype Attribute = Attribute(key: string, val: string)

  /** A token: its kind, its `Data` (tag name or text) and its attributes. */
  datatype Token = Token(kind: TokenKind, data: string, attrs: seq<Attribute>)

  /**
   * The variables of `extractSummary`'s loop: the extracted values, the
   * image and video groups being collected, the finished groups, the
   * counts of "og:image" and "og:video" properties seen, whether the scan
   * is between `<head>` and `</head>`, and whether the process has ended.
   */
  datatype Scan = Scan(extracted: map<string, string>, image: map<string, string>, video: map<string, string>,
                       images: seq<PreviewImage>, videos: seq<PreviewVideo>, imageCount: nat, videoCount: nat,
                       inHead: bool, halted: bool)

  const Start := Scan(map[], map[], map[], [], [], 0, 0, false, false)

  /** What `extractSummary` comes to: a summary, the end of the process, or a loop that never ends. */
  datatype Extraction = Extracted(summary: PageSummary) | Exits | Spins | Panics

  /** The `attrInfo`, `isImg` and `isVid` variables of one meta tag. */
  datatype MetaInfo = MetaInfo(info: map<string, string>, isImg: bool, isVid: bool)

  /** An exact "og:image" property: the group collected so far is finished when one was started. */
  function FlushImage(s: Scan, page: string, resolve: Resolve): Scan {
    if s.imageCount != 0 then
      var img := ImageOf(page, s.image, resolve);
      if img.None? then s.(halted := true)
      else s.(images := s.images + [img.value], image := map[], imageCount := s.imageCount + 1)
    else s.(imageCount := s.imageCount + 1)
  }

  /** An exact "og:video" property, likewise. */
  function FlushVideo(v: Version, s: Scan, page: string, resolve: Resolve): Scan {
    if s.videoCount != 0 then
      var vid := VideoFor(v, page, s.video, resolve);
      if vid.None? then s.(halted := true)
      else s.(videos := s.videos + [vid.value], video := map[], videoCount := s.videoCount + 1)
    else s.(videoCount := s.videoCount + 1)
  }

  /** One attribute of a meta tag. */
  function MetaAttr(v: Version, s: Scan, m: MetaInfo, a: Attribute, page: string, resolve: Resolve): (Scan, MetaInfo) {
    if a.key == "property" then
      var m' := m.(info := m.info["property" := a.val]);
      if Contains(a.val, "og:image") then
        (if a.val == "og:image" then FlushImage(s, page, resolve) else s, m'.(isImg := true))
      else if Contains(a.val, "og:video") then
        (if a.val == "og:video" then FlushVideo(v, s, page, resolve) else s, m'.(isVid := true))
      else (s, m')
    else if a.key == "content" then (s, m.(info := m.info["content" := a.val]))
    else if a.key == "name" then
      if a.val == "description" && Get(s.extracted, "og:description") == "" then
        (s, m.(info := m.info["property" := "og:description"]))
      else if a.val == "keywords" then (s, m.(info := m.info["property" := "keywords"]))
      else if a.val == "author" then (s, m.(info := m.info["property" := "og:author"]))
      else (s, m)
    else (s, m)
  }

  /** The attributes of a meta tag in order, until the process ends. */
  function MetaAttrs(v: Version, s: Scan, m: MetaInfo, attrs: seq<Attribute>, page: string, resolve: Resolve): (Scan, MetaInfo)
    decreases |attrs|
  {
    if attrs == [] || s.halted then (s, m)
    else
      var next := MetaAttr(v, s, m, attrs[0], page, resolve);
      MetaAttrs(v, next.0, next.1, attrs[1..], page, resolve)
  }

  /** A meta tag: its content is stored under its property, in the current image or video group or with the page's values. */
  function Meta(v: Version, s: Scan, attrs: seq<Attribute>, page: string, resolve: Resolve): Scan {
    var r := MetaAttrs(v, s, MetaInfo(map[], false, false), attrs, page, resolve);
    var t, m := r.0, r.1;
    if t.halted then t
    else
      var k, v := Get(m.info, "property"), Get(m.info, "content");
      if m.isImg then t.(image := t.image[k := v])
      else if m.isVid then t.(video := t.video[k := v])
      else t.(extracted := t.extracted[k := v])
  }

  /** The attributes of a link tag: the page's values and the link's `attrInfo`. */
  function LinkAttrs(extracted: map<string, string>, info: map<string, string>, attrs: seq<Attribute>,
                     page: string, resolve: Resolve): (map<string, string>, map<string, string>)
    decreases |attrs|
  {
    if attrs == [] then (extracted, info)
    else
      var a := attrs[0];
      if a.key == "rel" && Contains(a.val, "icon") then LinkAttrs(extracted, info["property" := "icon"], attrs[1..], page, resolve)
      else if a.key == "href" then LinkAttrs(extracted, info["href" := resolve(page, a.val)], attrs[1..], page, resolve)
      else if a.key == "sizes" then LinkAttrs(extracted["icon:sizes" := a.val], info, attrs[1..], page, resolve)
      else if a.key == "type" then LinkAttrs(extracted["icon:type" := a.val], info, attrs[1..], page, resolve)
      else LinkAttrs(extracted, info, attrs[1..], page, resolve)
  }

  /** A link tag: its resolved href is stored under "icon" when its rel mentions "icon", and under "" otherwise. */
  function Link(s: Scan, attrs: seq<Attribute>, page: string, resolve: Resolve): Scan {
    var r := LinkAttrs(s.extracted, map[], attrs, page, resolve);
    s.(extracted := r.0[Get(r.1, "property") := Get(r.1, "href")])
  }

  /**
   * The scan over the tokens. Outside the head only a `<head>` start tag
   * matters. Inside it, `</head>` ends the head, meta and link tags are
   * read, and a `<title>` start tag takes the next token's data as the
   * title while none is set. Running out of tokens inside the head leaves
   * `inHead` set: the Go loop then keeps reading the error token forever.
   */
  function Run(v: Version, s: Scan, tokens: seq<Token>, page: string, resolve: Resolve): Scan
    decreases |tokens|
  {
    if s.halted || tokens == [] then s
    else
      var t, rest := tokens[0], tokens[1..];
      if !s.inHead then
        Run(v, if t.kind == StartTag && t.data == "head" then s.(inHead := true) else s, rest, page, resolve)
      else if t.kind == EndTag && t.data == "head" then Run(v, s.(inHead := false), rest, page, resolve)
      else if t.data == "meta" then Run(v, Meta(v, s, t.attrs, page, resolve), rest, page, resolve)
      else if t.data == "title" && t.kind == StartTag && Get(s.extracted, "og:title") == "" then
        if rest == [] then s.(extracted := s.extracted["og:title" := ""])
        else Run(v, s.(extracted := s.extracted["og:title" := rest[0].data]), rest[1..], page, resolve)
      else if t.data == "link" then Run(v, Link(s, t.attrs, page, resolve), rest, page, resolve)
      else Run(v, s, rest, page, resolve)
  }

  /** After the scan: the last non-empty groups are finished and the summary is built. */
  function Finish(v: Version, s: Scan, page: string, resolve: Resolve): Extraction {
    if s.halted then Exits
    else if s.inHead then Spins
    else
      var lastImage, lastVideo := ImageOf(page, s.image, resolve), VideoFor(v, page, s.video, resolve);
      if (|s.image| > 0 && lastImage.None?) || (|s.video| > 0 && lastVideo.None?) then Exits
      else
        var images := if |s.image| > 0 then s.images + [lastImage.value] else s.images;
        var videos := if |s.video| > 0 then s.videos + [lastVideo.value] else s.videos;
        match IconFor(v, s.extracted)
        case Panicked => Panics
        case Exited => Exits
        case Returned(icon) => Extracted(Summary(s.extracted, icon, images, videos))
  }

  /** `extractSummary` as a specification. */
  function Extract(v: Version, page: string, tokens: seq<Token>, resolve: Resolve): Extraction {
    Finish(v, Run(v, Start, tokens, page, resolve), page, resolve)
  }

  /** `makeVideos` in the given version. */
  method MakeVideo(v: Version, page: string, group: map<string, string>, resolve: Resolve) returns (vid: Option<PreviewVideo>)
    ensures vid == VideoFor(v, page, group, resolve)
  {
    if v.AsWritten? {
      vid := MakeVideosAsWritten(page, group, resolve);
    } else {
      vid := MakeVideos(page, group, resolve);
    }
  }

  /** `makeImages` or `makeVideos` on an exact "og:image" or "og:video" property. */
  method Flush(v: Version, s: Scan, image: bool, page: string, resolve: Resolve) returns (t: Scan)
    requires !s.halted
    ensures image ==> t == FlushImage(s, page, resolve)
    ensures !image ==> t == FlushVideo(v, s, page, resolve)
  {
    t := s;
    if image {
      if s.imageCount != 0 {
        var img := MakeImages(page, s.image, resolve);
        if img.None? {
          return s.(halted := true);
        }
        t := t.(images := t.images + [img.value], image := map[]);
      }
      t := t.(imageCount := t.imageCount + 1);
    } else {
      if s.videoCount != 0 {
        var vid := MakeVideo(v, page, s.video, resolve);
        if vid.None? {
          return s.(halted := true);
        }
        t := t.(videos := t.videos + [vid.value], video := map[]);
      }
      t := t.(videoCount := t.videoCount + 1);
    }
  }

  /** The meta branch of the head loop. */
  method MetaTag(v: Version, s: Scan, attrs: seq<Attribute>, page: string, resolve: Resolve) returns (t: Scan)
    requires !s.halted
    ensures t == Meta(v, s, attrs, page, resolve)
  {
    var attrInfo: map<string, string> := map[];
    var isImg, isVid := false, false;
    t := s;
    for i := 0 to |attrs|
      invariant !t.halted
      invariant MetaAttrs(v, t, MetaInfo(attrInfo, isImg, isVid), attrs[i..], page, resolve) ==
                MetaAttrs(v, s, MetaInfo(map[], false, false), attrs, page, resolve)
    {
      var att := attrs[i];
      assert attrs[i..][1..] == attrs[i + 1..];
      if att.key == "property" {
        if Contains(att.val, "og:image") {
          isImg := true;
          if att.val == "og:image" {
            t := Flush(v, t, true, page, resolve);
            if t.halted {
              return t;
            }
          }
        } else if Contains(att.val, "og:video") {
          isVid := true;
          if att.val == "og:video" {
            t := Flush(v, t, false, page, resolve);
            if t.halted {
              return t;
            }
          }
        }
        attrInfo := attrInfo["property" := att.val];
      } else if att.key == "content" {
        attrInfo := attrInfo["content" := att.val];
      } else if att.key == "name" {
        if att.val == "description" && Get(t.extracted, "og:description") == "" {
          attrInfo := attrInfo["property" := "og:description"];
        } else if att.val == "keywords" {
          attrInfo := attrInfo["property" := att.val];
        } else if att.val == "author" {
          attrInfo := attrInfo["property" := "og:author"];
        }
      }
    }
    var k, v := Get(attrInfo, "property"), Get(attrInfo, "content");
    if isImg {
      t := t.(image := t.image[k := v]);
    } else if isVid {
      t := t.(video := t.video[k := v]);
    } else {
      t := t.(extracted := t.extracted[k := v]);
    }
  }

  /** The link branch of the head loop. */
  method LinkTag(s: Scan, attrs: seq<Attribute>, page: string, resolve: Resolve) returns (t: Scan)
    ensures t == Link(s, attrs, page, resolve)
  {
    var attrInfo: map<string, string> := map[];
    var extracted := s.extracted;
    for i := 0 to |attrs|
      invariant LinkAttrs(extracted, attrInfo, attrs[i..], page, resolve) == LinkAttrs(s.extracted, map[], attrs, page, resolve)
    {
      var att := attrs[i];
      assert attrs[i..][1..] == attrs[i + 1..];
      if att.key == "rel" && Contains(att.val, "icon") {
        attrInfo := attrInfo["property" := "icon"];
      } else if att.key == "href" {
        attrInfo := attrInfo["href" := resolve(page, att.val)];
      } else if att.key == "sizes" {
        extracted := extracted["icon:sizes" := att.val];
      } else if att.key == "type" {
        extracted := extracted["icon:type" := att.val];
      }
    }
    t := s.(extracted := extracted[Get(attrInfo, "property") := Get(attrInfo, "href")]);
  }

  /** One pass of the head loop, from token `i`: it returns the new state and the next token to read. */
  method HeadStep(v: Version, s: Scan, tokens: seq<Token>, i: nat, page: string, resolve: Resolve) returns (t: Scan, j: nat)
    requires s.inHead && !s.halted && i < |tokens|
    ensures i < j <= |tokens|
    ensures Run(v, t, tokens[j..], page, resolve) == Run(v, s, tokens[i..], page, resolve)
  {
    var headToken := tokens[i];
    assert tokens[i..][0] == headToken && tokens[i..][1..] == tokens[i + 1..];
    j := i + 1;
    if headToken.kind == EndTag && headToken.data == "head" {
      return s.(inHead := false), j;
    }
    if headToken.data == "meta" {
      t := MetaTag(v, s, headToken.attrs, page, resolve);
    } else if headToken.data == "title" && headToken.kind == StartTag && Get(s.extracted, "og:title") == "" {
      var title := "";
      if j < |tokens| {
        title := tokens[j].data;
        assert tokens[j..][1..] == tokens[j + 1..];
        j := j + 1;
      }
      t := s.(extracted := s.extracted["og:title" := title]);
    } else if headToken.data == "link" {
      t := LinkTag(s, headToken.attrs, page, resolve);
    } else {
      t := s;
    }
  }

  /** The end of `extractSummary`: the last non-empty groups are finished and `constructSummary` is called. */
  method Conclude(v: Version, s: Scan, page: string, resolve: Resolve) returns (r: Extraction)
    requires !s.halted && !s.inHead
    ensures r == Finish(v, s, page, resolve)
  {
    var images, videos := s.images, s.videos;
    if |s.image| > 0 {
      var img := MakeImages(page, s.image, resolve);
      if img.None? {
        return Exits;
      }
      images := images + [img.value];
    }
    if |s.video| > 0 {
      var vid := MakeVideo(v, page, s.video, resolve);
      if vid.None? {
        return Exits;
      }
      videos := videos + [vid.value];
    }
    var p := ConstructSummary(v, s.extracted, images, videos);
    match p
    case Panicked => r := Panics;
    case Exited => r := Exits;
    case Returned(summary) => r := Extracted(summary);
  }

  /**
   * `extractSummary`: the outer loop looks for `<head>`, the inner loop
   * reads the head up to `</head>`, and the last groups are finished
   * before the summary is built.
   */
  method ExtractSummary(v: Version, page: string, tokens: seq<Token>, resolve: Resolve) returns (r: Extraction)
    ensures r == Extract(v, page, tokens, resolve)
  {
    var s := Start;
    var i := 0;
    while i < |tokens|
      invariant i <= |tokens| && !s.halted && !s.inHead
      invariant Run(v, s, tokens[i..], page, resolve) == Run(v, Start, tokens, page, resolve)
      decreases |tokens| - i
    {
      var token := tokens[i];
      assert tokens[i..][1..] == tokens[i + 1..];
      i := i + 1;
      if token.kind == StartTag && token.data == "head" {
        s := s.(inHead := true);
        while i < |tokens| && s.inHead
          invariant i <= |tokens| && !s.halted
          invariant Run(v, s, tokens[i..], page, resolve) == Run(v, Start, tokens, page, resolve)
          decreases |tokens| - i
        {
          s, i := HeadStep(v, s, tokens, i, page, resolve);
          if s.halted {
            return Exits;
          }
        }
        if s.inHead {
          return Spins;
        }
      }
    }
    r := Conclude(v, s, page, resolve);
  }

  // ---------------------------------------------------------------------------
  // Properties of the scan

  predicate HeadStart(t: Token) {
    t.kind == StartTag && t.data == "head"
  }

  /** Tokens before any `<head>` start tag contribute nothing. */
  lemma {:induction false} OutsideHead(v: Version, s: Scan, before: seq<Token>, after: seq<Token>, page: string, resolve: Resolve)
    requires !s.inHead
    requires forall k :: 0 <= k < |before| ==> !HeadStart(before[k])
    ensures Run(v, s, before + after, page, resolve) == Run(v, s, after, page, resolve)
    decreases |before|
  {
    if before == [] {
      assert before + after == after;
    } else if !s.halted {
      assert (before + after)[0] == before[0] && (before + after)[1..] == before[1..] + after;
      assert !HeadStart(before[0]);
      OutsideHead(v, s, before[1..], after, page, resolve);
    }
  }

  /** A page without a `<head>` start tag gives the empty summary. */
  lemma NoHeadEmpty(v: Version, page: string, tokens: seq<Token>, resolve: Resolve)
    requires forall k :: 0 <= k < |tokens| ==> !HeadStart(tokens[k])
    ensures Extract(v, page, tokens, resolve) == Extracted(PageSummary("", "", "", "", "", "", [], None, [], []))
  {
    OutsideHead(v, Start, tokens, [], page, resolve);
    assert tokens + [] == tokens;
  }

  /** A `<title>` start tag in the head is passed over once a title is set. */
  lemma TitleWhenSet(v: Version, s: Scan, t: Token, rest: seq<Token>, page: string, resolve: Resolve)
    requires s.inHead && !s.halted && t.kind == StartTag && t.data == "title"
    requires Get(s.extracted, "og:title") != ""
    ensures Run(v, s, [t] + rest, page, resolve) == Run(v, s, rest, page, resolve)
  {
    assert ([t] + rest)[1..] == rest;
  }

  /** While no title is set, a `<title>` start tag takes the data of the token after it. */
  lemma TitleWhenUnset(v: Version, s: Scan, t: Token, text: Token, rest: seq<Token>, page: string, resolve: Resolve)
    requires s.inHead && !s.halted && t.kind == StartTag && t.data == "title"
    requires Get(s.extracted, "og:title") == ""
    ensures Run(v, s, [t, text] + rest, page, resolve) ==
            Run(v, s.(extracted := s.extracted["og:title" := text.data]), rest, page, resolve)
  {
    assert ([t, text] + rest)[1..][1..] == rest;
  }

  /**
   * `<meta name="description" content=c>` sets the description only while
   * none is set; otherwise its content lands under the empty key.
   */
  lemma DescriptionOnlyIfUnset(v: Version, s: Scan, c: string, page: string, resolve: Resolve)
    requires !s.halted
    ensures var t := Meta(v, s, [Attribute("name", "description"), Attribute("content", c)], page, resolve);
      t == s.(extracted := s.extracted[(if Get(s.extracted, "og:description") == "" then "og:description" else "") := c])
  {
    var attrs := [Attribute("name", "description"), Attribute("content", c)];
    var m0 := MetaInfo(map[], false, false);
    var r1 := MetaAttr(v, s, m0, attrs[0], page, resolve);
    var r2 := MetaAttr(v, r1.0, r1.1, attrs[1], page, resolve);
    assert r1.0 == s;
    assert attrs[1..][1..] == [];
    assert MetaAttrs(v, s, m0, attrs, page, resolve) == MetaAttrs(v, r1.0, r1.1, attrs[1..], page, resolve);
    assert MetaAttrs(v, r1.0, r1.1, attrs[1..], page, resolve) == r2;
    assert Get(r2.1.info, "content") == c;
  }

  /**
   * `<meta property="og:image" content=u>` finishes the group collected
   * since the previous "og:image" and starts a new group holding u.
   */
  lemma NewImageFlushes(v: Version, s: Scan, u: string, page: string, resolve: Resolve)
    requires !s.halted && s.imageCount != 0 && ImageOf(page, s.image, resolve).Some?
    ensures var t := Meta(v, s, [Attribute("property", "og:image"), Attribute("content", u)], page, resolve);
      t == s.(images := s.images + [ImageOf(page, s.image, resolve).value], image := map["og:image" := u],
              imageCount := s.imageCount + 1)
  {
    var attrs := [Attribute("property", "og:image"), Attribute("content", u)];
    var m0 := MetaInfo(map[], false, false);
    assert HasPrefix("og:image", "og:image");
    var r1 := MetaAttr(v, s, m0, attrs[0], page, resolve);
    assert r1 == (FlushImage(s, page, resolve), MetaInfo(map["property" := "og:image"], true, false));
    var r2 := MetaAttr(v, r1.0, r1.1, attrs[1], page, resolve);
    assert attrs[1..][1..] == [];
    assert MetaAttrs(v, s, m0, attrs, page, resolve) == MetaAttrs(v, r1.0, r1.1, attrs[1..], page, resolve);
    assert MetaAttrs(v, r1.0, r1.1, attrs[1..], page, resolve) == r2;
    assert Get(r2.1.info, "property") == "og:image" && Get(r2.1.info, "content") == u;
  }

  /** The first "og:image" property joins whatever the group already holds. */
  lemma FirstImageJoins(v: Version, s: Scan, u: string, page: string, resolve: Resolve)
    requires !s.halted && s.imageCount == 0
    ensures var t := Meta(v, s, [Attribute("property", "og:image"), Attribute("content", u)], page, resolve);
      t == s.(image := s.image["og:image" := u], imageCount := 1)
  {
    var attrs := [Attribute("property", "og:image"), Attribute("content", u)];
    var m0 := MetaInfo(map[], false, false);
    assert HasPrefix("og:image", "og:image");
    var r1 := MetaAttr(v, s, m0, attrs[0], page, resolve);
    assert r1 == (FlushImage(s, page, resolve), MetaInfo(map["property" := "og:image"], true, false));
    var r2 := MetaAttr(v, r1.0, r1.1, attrs[1], page, resolve);
    assert attrs[1..][1..] == [];
    assert MetaAttrs(v, s, m0, attrs, page, resolve) == MetaAttrs(v, r1.0, r1.1, attrs[1..], page, resolve);
    assert MetaAttrs(v, r1.0, r1.1, attrs[1..], page, resolve) == r2;
    assert Get(r2.1.info, "property") == "og:image" && Get(r2.1.info, "content") == u;
  }

  /** "og:video" does not mention "og:image", so a video property is never taken for an image one. */
  lemma VideoNotImage()
    ensures !Contains("og:video", "og:image")
  {
    var s := "og:video";
    forall i | 0 <= i <= |s| ensures !HasPrefix(s[i..], "og:image") {
      if i == 0 {
        assert s[..8][3] == 'v' != "og:image"[3];
      }
    }
    NotContainsFrom(s, "og:image", 0);
  }

  /**
   * `<meta property="og:video" content=u>` finishes the video group
   * collected since the previous "og:video" and starts a new group holding
   * u, as an "og:image" property does for images.
   */
  lemma NewVideoFlushes(v: Version, s: Scan, u: string, page: string, resolve: Resolve)
    requires !s.halted && s.videoCount != 0 && VideoFor(v, page, s.video, resolve).Some?
    ensures var t := Meta(v, s, [Attribute("property", "og:video"), Attribute("content", u)], page, resolve);
      t == s.(videos := s.videos + [VideoFor(v, page, s.video, resolve).value], video := map["og:video" := u],
              videoCount := s.videoCount + 1)
  {
    var attrs := [Attribute("property", "og:video"), Attribute("content", u)];
    var m0 := MetaInfo(map[], false, false);
    VideoNotImage();
    assert HasPrefix("og:video", "og:video");
    var r1 := MetaAttr(v, s, m0, attrs[0], page, resolve);
    assert r1 == (FlushVideo(v, s, page, resolve), MetaInfo(map["property" := "og:video"], false, true));
    var r2 := MetaAttr(v, r1.0, r1.1, attrs[1], page, resolve);
    assert attrs[1..][1..] == [];
    assert MetaAttrs(v, s, m0, attrs, page, resolve) == MetaAttrs(v, r1.0, r1.1, attrs[1..], page, resolve);
    assert MetaAttrs(v, r1.0, r1.1, attrs[1..], page, resolve) == r2;
    assert Get(r2.1.info, "property") == "og:video" && Get(r2.1.info, "content") == u;
  }

  /** The first "og:video" property joins whatever the video group already holds. */
  lemma FirstVideoJoins(v: Version, s: Scan, u: string, page: string, resolve: Resolve)
    requires !s.halted && s.videoCount == 0
    ensures var t := Meta(v, s, [Attribute("property", "og:video"), Attribute("content", u)], page, resolve);
      t == s.(video := s.video["og:video" := u], videoCount := 1)
  {
    var attrs := [Attribute("property", "og:video"), Attribute("content", u)];
    var m0 := MetaInfo(map[], false, false);
    VideoNotImage();
    assert HasPrefix("og:video", "og:video");
    var r1 := MetaAttr(v, s, m0, attrs[0], page, resolve);
    assert r1 == (FlushVideo(v, s, page, resolve), MetaInfo(map["property" := "og:video"], false, true));
    var r2 := MetaAttr(v, r1.0, r1.1, attrs[1], page, resolve);
    assert attrs[1..][1..] == [];
    assert MetaAttrs(v, s, m0, attrs, page, resolve) == MetaAttrs(v, r1.0, r1.1, attrs[1..], page, resolve);
    assert MetaAttrs(v, r1.0, r1.1, attrs[1..], page, resolve) == r2;
    assert Get(r2.1.info, "property") == "og:video" && Get(r2.1.info, "content") == u;
  }

  /** The last image group is finished at the end of the page when it is not empty. */
  lemma LastGroupKept(v: Version, s: Scan, page: string, resolve: Resolve)
    requires !s.halted && !s.inHead
    requires Finish(v, s, page, resolve).Extracted?
    ensures |s.image| > 0 ==> Finish(v, s, page, resolve).summary.images == s.images + [ImageOf(page, s.image, resolve).value]
    ensures |s.image| == 0 ==> Finish(v, s, page, resolve).summary.images == s.images
    ensures |s.video| > 0 ==> Finish(v, s, page, resolve).summary.videos == s.videos + [VideoFor(v, page, s.video, resolve).value]
    ensures |s.video| == 0 ==> Finish(v, s, page, resolve).summary.videos == s.videos
  {
  }

  /** One attribute of a meta tag only adds images to those already finished. */
  lemma MetaAttrGrows(v: Version, s: Scan, m: MetaInfo, a: Attribute, page: string, resolve: Resolve)
    ensures s.images <= MetaAttr(v, s, m, a, page, resolve).0.images
    ensures s.videos <= MetaAttr(v, s, m, a, page, resolve).0.videos
  {
    MetaAttrFlushes(v, s, m, a, page, resolve);
    FlushImageGrows(s, page, resolve);
    FlushVideoGrows(v, s, page, resolve);
  }

  /** A meta attribute leaves the scan as it was or finishes an image or video group. */
  lemma MetaAttrFlushes(v: Version, s: Scan, m: MetaInfo, a: Attribute, page: string, resolve: Resolve)
    ensures var t := MetaAttr(v, s, m, a, page, resolve).0;
      t == s || t == FlushImage(s, page, resolve) || t == FlushVideo(v, s, page, resolve)
  {
  }

  lemma FlushImageGrows(s: Scan, page: string, resolve: Resolve)
    ensures s.images <= FlushImage(s, page, resolve).images && s.videos == FlushImage(s, page, resolve).videos
  {
    if s.imageCount != 0 {
      var x := ImageOf(page, s.image, resolve);
      if x.Some? {
        assert FlushImage(s, page, resolve).images == s.images + [x.value];
      }
    }
  }

  lemma FlushVideoGrows(v: Version, s: Scan, page: string, resolve: Resolve)
    ensures s.videos <= FlushVideo(v, s, page, resolve).videos && s.images == FlushVideo(v, s, page, resolve).images
  {
    if s.videoCount != 0 {
      var x := VideoFor(v, page, s.video, resolve);
      if x.Some? {
        assert FlushVideo(v, s, page, resolve).videos == s.videos + [x.value];
      }
    }
  }

  /** Attributes of a meta tag only add images to those already finished. */
  lemma {:induction false} MetaAttrsGrow(v: Version, s: Scan, m: MetaInfo, attrs: seq<Attribute>, page: string, resolve: Resolve)
    ensures s.images <= MetaAttrs(v, s, m, attrs, page, resolve).0.images
    ensures s.videos <= MetaAttrs(v, s, m, attrs, page, resolve).0.videos
    decreases |attrs|
  {
    if attrs != [] && !s.halted {
      var next := MetaAttr(v, s, m, attrs[0], page, resolve);
      MetaAttrGrows(v, s, m, attrs[0], page, resolve);
      MetaAttrsGrow(v, next.0, next.1, attrs[1..], page, resolve);
    }
  }

  /** Images and videos once finished are never changed or dropped by the rest of the page. */
  lemma {:induction false} FinishedGroupsKept(v: Version, s: Scan, tokens: seq<Token>, page: string, resolve: Resolve)
    ensures s.images <= Run(v, s, tokens, page, resolve).images
    ensures s.videos <= Run(v, s, tokens, page, resolve).videos
    decreases |tokens|
  {
    if !s.halted && tokens != [] {
      var t, rest := tokens[0], tokens[1..];
      if !s.inHead {
        var u := if HeadStart(t) then s.(inHead := true) else s;
        assert Run(v, s, tokens, page, resolve) == Run(v, u, rest, page, resolve);
        FinishedGroupsKept(v, u, rest, page, resolve);
      } else if t.kind == EndTag && t.data == "head" {
        assert Run(v, s, tokens, page, resolve) == Run(v, s.(inHead := false), rest, page, resolve);
        FinishedGroupsKept(v, s.(inHead := false), rest, page, resolve);
      } else if t.data == "meta" {
        var u := Meta(v, s, t.attrs, page, resolve);
        assert Run(v, s, tokens, page, resolve) == Run(v, u, rest, page, resolve);
        MetaGrows(v, s, t.attrs, page, resolve);
        FinishedGroupsKept(v, u, rest, page, resolve);
      } else if t.data == "title" && t.kind == StartTag && Get(s.extracted, "og:title") == "" {
        if rest != [] {
          var u := s.(extracted := s.extracted["og:title" := rest[0].data]);
          assert Run(v, s, tokens, page, resolve) == Run(v, u, rest[1..], page, resolve);
          FinishedGroupsKept(v, u, rest[1..], page, resolve);
        }
      } else if t.data == "link" {
        var u := Link(s, t.attrs, page, resolve);
        assert Run(v, s, tokens, page, resolve) == Run(v, u, rest, page, resolve);
        FinishedGroupsKept(v, u, rest, page, resolve);
      } else {
        assert Run(v, s, tokens, page, resolve) == Run(v, s, rest, page, resolve);
        FinishedGroupsKept(v, s, rest, page, resolve);
      }
    }
  }

  /** A meta tag only adds images and videos to those already finished. */
  lemma MetaGrows(v: Version, s: Scan, attrs: seq<Attribute>, page: string, resolve: Resolve)
    ensures s.images <= Meta(v, s, attrs, page, resolve).images
    ensures s.videos <= Meta(v, s, attrs, page, resolve).videos
  {
    MetaAttrsGrow(v, s, MetaInfo(map[], false, false), attrs, page, resolve);
  }

  // ---------------------------------------------------------------------------
  // The code as written against the corrected code

  /** Videos with their secure URLs emptied, as the code as written leaves them. */
  function BlankVideos(vs: seq<PreviewVideo>): (r: seq<PreviewVideo>)
    ensures |r| == |vs| && forall k :: 0 <= k < |vs| ==> r[k] == vs[k].(secureUrl := "")
  {
    seq(|vs|, k requires 0 <= k < |vs| => vs[k].(secureUrl := ""))
  }

  function Blank(s: Scan): Scan {
    s.(videos := BlankVideos(s.videos))
  }

  lemma BlankAppend(vs: seq<PreviewVideo>, x: PreviewVideo)
    ensures BlankVideos(vs + [x]) == BlankVideos(vs) + [x.(secureUrl := "")]
  {
  }

  /** Finishing a video group as written finishes the corrected one with its secure URL emptied. */
  lemma FlushVideoBlank(s: Scan, page: string, resolve: Resolve)
    ensures FlushVideo(AsWritten, Blank(s), page, resolve) == Blank(FlushVideo(Corrected, s, page, resolve))
  {
    if s.videoCount != 0 {
      var x := VideoOf(page, s.video, resolve);
      if x.Some? {
        BlankAppend(s.videos, x.value);
      }
    }
  }

  lemma FlushImageBlank(s: Scan, page: string, resolve: Resolve)
    ensures FlushImage(Blank(s), page, resolve) == Blank(FlushImage(s, page, resolve))
  {
    var b := Blank(s);
    assert b.image == s.image && b.imageCount == s.imageCount;
    if s.imageCount != 0 {
      var img := ImageOf(page, s.image, resolve);
      if img.None? {
        assert FlushImage(b, page, resolve) == b.(halted := true);
      } else {
        assert FlushImage(b, page, resolve) == b.(images := s.images + [img.value], image := map[], imageCount := s.imageCount + 1);
      }
    }
  }

  lemma MetaAttrBlank(s: Scan, m: MetaInfo, a: Attribute, page: string, resolve: Resolve)
    ensures var c := MetaAttr(Corrected, s, m, a, page, resolve);
      MetaAttr(AsWritten, Blank(s), m, a, page, resolve) == (Blank(c.0), c.1)
  {
    if a.key == "property" {
      if Contains(a.val, "og:image") {
        FlushImageBlank(s, page, resolve);
      } else if Contains(a.val, "og:video") {
        FlushVideoBlank(s, page, resolve);
      }
    } else if a.key == "name" {
      assert Blank(s).extracted == s.extracted;
    }
  }

  lemma {:induction false} MetaAttrsBlank(s: Scan, m: MetaInfo, attrs: seq<Attribute>, page: string, resolve: Resolve)
    ensures var c := MetaAttrs(Corrected, s, m, attrs, page, resolve);
      MetaAttrs(AsWritten, Blank(s), m, attrs, page, resolve) == (Blank(c.0), c.1)
    decreases |attrs|
  {
    if attrs != [] && !s.halted {
      MetaAttrBlank(s, m, attrs[0], page, resolve);
      var next := MetaAttr(Corrected, s, m, attrs[0], page, resolve);
      MetaAttrsBlank(next.0, next.1, attrs[1..], page, resolve);
    }
  }

  lemma MetaBlank(s: Scan, attrs: seq<Attribute>, page: string, resolve: Resolve)
    ensures Meta(AsWritten, Blank(s), attrs, page, resolve) == Blank(Meta(Corrected, s, attrs, page, resolve))
  {
    var c := MetaAttrs(Corrected, s, MetaInfo(map[], false, false), attrs, page, resolve);
    MetaAttrsBlank(s, MetaInfo(map[], false, false), attrs, page, resolve);
    var t, m := c.0, c.1;
    var k, v := Get(m.info, "property"), Get(m.info, "content");
    if !t.halted {
      if m.isImg {
        assert Blank(t).(image := t.image[k := v]) == Blank(t.(image := t.image[k := v]));
      } else if m.isVid {
        assert Blank(t).(video := t.video[k := v]) == Blank(t.(video := t.video[k := v]));
      } else {
        assert Blank(t).(extracted := t.extracted[k := v]) == Blank(t.(extracted := t.extracted[k := v]));
      }
    }
  }

  /** Scanning as written gives the corrected scan with every finished video's secure URL emptied. */
  lemma {:induction false} RunBlank(s: Scan, tokens: seq<Token>, page: string, resolve: Resolve)
    ensures Run(AsWritten, Blank(s), tokens, page, resolve) == Blank(Run(Corrected, s, tokens, page, resolve))
    decreases |tokens|
  {
    if !s.halted && tokens != [] {
      var t, rest := tokens[0], tokens[1..];
      if !s.inHead {
        var u := if HeadStart(t) then s.(inHead := true) else s;
        assert Blank(u) == if HeadStart(t) then Blank(s).(inHead := true) else Blank(s);
        RunBlank(u, rest, page, resolve);
      } else if t.kind == EndTag && t.data == "head" {
        assert Blank(s.(inHead := false)) == Blank(s).(inHead := false);
        RunBlank(s.(inHead := false), rest, page, resolve);
      } else if t.data == "meta" {
        MetaBlank(s, t.attrs, page, resolve);
        RunBlank(Meta(Corrected, s, t.attrs, page, resolve), rest, page, resolve);
      } else if t.data == "title" && t.kind == StartTag && Get(s.extracted, "og:title") == "" {
        if rest != [] {
          var u := s.(extracted := s.extracted["og:title" := rest[0].data]);
          assert Blank(u) == Blank(s).(extracted := s.extracted["og:title" := rest[0].data]);
          RunBlank(u, rest[1..], page, resolve);
        }
      } else if t.data == "link" {
        assert Link(Blank(s), t.attrs, page, resolve) == Blank(Link(s, t.attrs, page, resolve));
        RunBlank(Link(s, t.attrs, page, resolve), rest, page, resolve);
      } else {
        RunBlank(s, rest, page, resolve);
      }
    }
  }

  /**
   * The code as written and the corrected code read every page alike. The
   * corrected code never panics. Where the code as written builds a
   * summary, the corrected code builds the same one, except that the
   * written video secure URLs are all empty. Where the corrected code builds
   * a summary without an icon, so does the code as written; otherwise only
   * `getIcon` can stop it.
   */
  lemma ExtractVersions(page: string, tokens: seq<Token>, resolve: Resolve)
    ensures !Extract(Corrected, page, tokens, resolve).Panics?
    ensures var w, c := Extract(AsWritten, page, tokens, resolve), Extract(Corrected, page, tokens, resolve);
      (c.Exits? || c.Spins?) ==> w == c
    ensures var w, c := Extract(AsWritten, page, tokens, resolve), Extract(Corrected, page, tokens, resolve);
      w.Extracted? ==> c.Extracted? && w.summary == c.summary.(videos := BlankVideos(c.summary.videos))
    ensures var w, c := Extract(AsWritten, page, tokens, resolve), Extract(Corrected, page, tokens, resolve);
      c.Extracted? ==> w.Extracted? || w.Panics? || w.Exits?
    ensures var w, c := Extract(AsWritten, page, tokens, resolve), Extract(Corrected, page, tokens, resolve);
      c.Extracted? && c.summary.icon.None? ==> w.Extracted?
  {
    assert Blank(Start) == Start;
    RunBlank(Start, tokens, page, resolve);
    var s := Run(Corrected, Start, tokens, page, resolve);
    if !s.halted && !s.inHead {
      var lastVideo := VideoOf(page, s.video, resolve);
      if |s.video| > 0 && lastVideo.Some? {
        BlankAppend(s.videos, lastVideo.value);
      }
    }
  }
}

=== FILE: text.dfy ===
/**
 * The string and integer-text routines of Go's standard library that the
 * gateway core relies on (`strings.HasPrefix`, `strings.Split`,
 * `strings.TrimSpace`, `strings.Fields`, `strings.Contains`,
 * `strconv.ParseInt`/`Atoi`, `strconv.FormatInt`), written out so that the
 * core's own contracts can be stated over them. A Go string is a sequence of
 * runes here (`seq<char>`).
 */
module Text {
  import opened Wrappers

  predicate HasPrefix(s: string, prefix: string) {
    |prefix| <= |s| && s[..|prefix|] == prefix
  }

  function TrimPrefix(s: string, prefix: string): (r: string)
    ensures HasPrefix(s, prefix) ==> prefix + r == s
    ensures !HasPrefix(s, prefix) ==> r == s
  {
    if HasPrefix(s, prefix) then s[|prefix|..] else s
  }

  /** Index of the first `c` in `s`, or -1 (`strings.IndexByte`). */
  function IndexOf(s: string, c: char): (i: int)
    ensures -1 <= i < |s|
    ensures i == -1 <==> c !in s
    ensures 0 <= i ==> s[i] == c && c !in s[..i]
  {
    if s == [] then -1
    else if s[0] == c then 0
    else
      var j := IndexOf(s[1..], c);
      assert s[1..][..if j < 0 then 0 else j] == s[1..1 + (if j < 0 then 0 else j)];
      if j < 0 then -1 else j + 1
  }

  /** Number of occurrences of `c` in `s` (`strings.Count` for one rune). */
  function Count(s: string, c: char): nat {
    if s == [] then 0 else (if s[0] == c then 1 else 0) + Count(s[1..], c)
  }

  /** `strings.Split(s, string(c))`: the pieces between the separators, always at least one. */
  function Split(s: string, c: char): (parts: seq<string>)
    ensures |parts| >= 1
    decreases |s|
  {
    var i := IndexOf(s, c);
    if i < 0 then [s] else [s[..i]] + Split(s[i + 1..], c)
  }

  /** `strings.Join(parts, string(c))`. */
  function Join(parts: seq<string>, c: char): string
    requires |parts| >= 1
  {
    if |parts| == 1 then parts[0] else parts[0] + [c] + Join(parts[1..], c)
  }

  lemma CountAppend(a: string, b: string, c: char)
    ensures Count(a + b, c) == Count(a, c) + Count(b, c)
  {
    if a == [] {
      assert a + b == b;
    } else {
      assert (a + b)[0] == a[0];
      assert (a + b)[1..] == a[1..] + b;
      CountAppend(a[1..], b, c);
    }
  }

  /** Splitting on `c` yields one more piece than there are `c`s. */
  lemma {:induction false} SplitLength(s: string, c: char)
    ensures |Split(s, c)| == Count(s, c) + 1
    decreases |s|
  {
    var i := IndexOf(s, c);
    if i < 0 {
      CountNone(s, c);
    } else {
      assert s == s[..i] + [c] + s[i + 1..];
      CountAppend(s[..i] + [c], s[i + 1..], c);
      CountAppend(s[..i], [c], c);
      CountNone(s[..i], c);
      SplitLength(s[i + 1..], c);
    }
  }

  lemma CountNone(s: string, c: char)
    requires c !in s
    ensures Count(s, c) == 0
  {
    if s != [] {
      CountNone(s[1..], c);
    }
  }

  /** Joining the pieces back with `c` restores the input, and no piece contains `c`. */
  lemma {:induction false} SplitJoin(s: string, c: char)
    ensures Join(Split(s, c), c) == s
    ensures forall k :: 0 <= k < |Split(s, c)| ==> c !in Split(s, c)[k]
    decreases |s|
  {
    var i := IndexOf(s, c);
    if i >= 0 {
      SplitJoin(s[i + 1..], c);
      assert s == s[..i] + [c] + s[i + 1..];
      var rest := Split(s[i + 1..], c);
      assert Split(s, c) == [s[..i]] + rest;
      assert Split(s, c)[1..] == rest;
      forall k | 0 <= k < |Split(s, c)|
        ensures c !in Split(s, c)[k]
      {
        if k > 0 {
          assert Split(s, c)[k] == rest[k - 1];
        }
      }
    }
  }

  /** The first piece of a split is the longest prefix free of `c`. */
  lemma SplitFirst(s: string, c: char)
    ensures c !in s ==> Split(s, c) == [s]
    ensures c in s ==> Split(s, c)[0] == s[..IndexOf(s, c)]
  {
  }

  /** Go's `unicode.IsSpace`: the Latin-1 spaces plus the other Unicode White_Space runes. */
  predicate IsSpace(c: char) {
    c == ' ' || c == '\t' || c == '\n' || c == '\r' || c == '\U{000B}' || c == '\U{000C}'
    || c == '\U{0085}' || c == '\U{00A0}' || c == '\U{1680}' || ('\U{2000}' <= c <= '\U{200A}')
    || c == '\U{2028}' || c == '\U{2029}' || c == '\U{202F}' || c == '\U{205F}' || c == '\U{3000}'
  }

  function TrimLeft(s: string): (r: string)
    ensures r == [] || !IsSpace(r[0])
    ensures |r| <= |s| && r == s[|s| - |r|..]
    ensures forall k :: 0 <= k < |s| - |r| ==> IsSpace(s[k])
  {
    if s != [] && IsSpace(s[0]) then TrimLeft(s[1..]) else s
  }

  function TrimRight(s: string): (r: string)
    ensures r == [] || !IsSpace(r[|r| - 1])
    ensures |r| <= |s| && r == s[..|r|]
    ensures forall k :: |r| <= k < |s| ==> IsSpace(s[k])
  {
    if s != [] && IsSpace(s[|s| - 1]) then TrimRight(s[..|s| - 1]) else s
  }

  /** `strings.TrimSpace`: drops leading and trailing white space and nothing else. */
  function TrimSpace(s: string): (r: string)
    ensures r == [] || (!IsSpace(r[0]) && !IsSpace(r[|r| - 1]))
    ensures |r| <= |s|
  {
    TrimRight(TrimLeft(s))
  }

  /** `strings.Contains`. */
  predicate Contains(s: string, sub: string)
    decreases |s|
  {
    HasPrefix(s, sub) || (s != [] && Contains(s[1..], sub))
  }

  lemma ContainsAt(s: string, sub: string, i: nat)
    requires i + |sub| <= |s| && s[i..i + |sub|] == sub
    ensures Contains(s, sub)
    decreases i
  {
    if i > 0 {
      assert s[1..][i - 1..i - 1 + |sub|] == sub;
      ContainsAt(s[1..], sub, i - 1);
    }
  }

  /** ASCII lower-casing of one rune (other runes are left unchanged). */
  function LowerRune(c: char): char {
    if 'A' <= c <= 'Z' then (c as int + 32) as char else c
  }

  /** No rune is an upper-case ASCII letter. */
  predicate IsLower(s: string) {
    forall j :: 0 <= j < |s| ==> LowerRune(s[j]) == s[j]
  }

  function ToLower(s: string): (r: string)
    ensures |r| == |s|
    ensures forall k :: 0 <= k < |s| ==> r[k] == LowerRune(s[k])
    ensures IsLower(r)
  {
    if s == [] then [] else [LowerRune(s[0])] + ToLower(s[1..])
  }

  function LeadingWord(s: string): (w: string)
    ensures |w| <= |s| && w == s[..|w|]
    ensures forall k :: 0 <= k < |w| ==> !IsSpace(w[k])
    ensures |w| < |s| ==> IsSpace(s[|w|])
  {
    if s == [] || IsSpace(s[0]) then [] else [s[0]] + LeadingWord(s[1..])
  }

  predicate IsWord(w: string) {
    w != [] && forall j :: 0 <= j < |w| ==> !IsSpace(w[j])
  }

  /** `strings.Fields`: the maximal runs of non-space runes, in order. */
  function Fields(s: string): (ws: seq<string>)
    ensures forall k :: 0 <= k < |ws| ==> IsWord(ws[k])
    decreases |s|
  {
    var t := TrimLeft(s);
    if t == [] then []
    else
      var w := LeadingWord(t);
      assert IsWord(w);
      [w] + Fields(t[|w|..])
  }

  lemma LowerSlice(s: string, i: nat, j: nat)
    requires IsLower(s) && i <= j <= |s|
    ensures IsLower(s[i..j])
  {
    forall h | 0 <= h < j - i ensures LowerRune(s[i..j][h]) == s[i..j][h] {
      assert s[i..j][h] == s[i + h];
    }
  }

  /** A text that starts with a non-space splits off its leading word first. */
  lemma FieldsFirst(s: string)
    requires s != [] && !IsSpace(s[0])
    ensures Fields(s) == [LeadingWord(s)] + Fields(s[|LeadingWord(s)|..])
  {
    assert TrimLeft(s) == s;
  }

  /** The words of a lower-case text are lower-case. */
  lemma {:induction false} FieldsLower(s: string)
    requires IsLower(s)
    ensures forall k :: 0 <= k < |Fields(s)| ==> IsLower(Fields(s)[k])
    decreases |s|
  {
    var t := TrimLeft(s);
    if t != [] {
      var w := LeadingWord(t);
      LowerSlice(s, |s| - |t|, |s|);
      assert s[|s| - |t|..|s|] == t;
      LowerSlice(t, |w|, |t|);
      assert t[|w|..|t|] == t[|w|..];
      LowerSlice(t, 0, |w|);
      assert t[0..|w|] == w;
      FieldsLower(t[|w|..]);
      var ws := Fields(s);
      var rest := Fields(t[|w|..]);
      assert ws == [w] + rest;
      forall k | 0 <= k < |ws| ensures IsLower(ws[k]) {
        if k > 0 {
          assert ws[k] == rest[k - 1];
        }
      }
    }
  }

  lemma LowerIdentity(s: string)
    requires IsLower(s)
    ensures ToLower(s) == s
  {
  }

  lemma {:induction false} LeadingWordAt(s: string, i: nat)
    requires i <= |s| && IsWord(s[..i]) && (i == |s| || IsSpace(s[i]))
    ensures LeadingWord(s) == s[..i]
    decreases i
  {
    assert s[0] == s[..i][0];
    if i > 1 {
      assert s[1..][..i - 1] == s[..i][1..];
      assert i - 1 == |s[1..]| || s[1..][i - 1] == s[i];
      LeadingWordAt(s[1..], i - 1);
      assert s[..i] == [s[0]] + s[1..][..i - 1];
    } else {
      assert |s[1..]| == 0 || s[1..][0] == s[1];
    }
  }

  /** A single word is its own field. */
  lemma FieldsOne(w: string)
    requires IsWord(w)
    ensures Fields(w) == [w]
  {
    assert w[..|w|] == w;
    LeadingWordAt(w, |w|);
    assert w[|w|..] == [];
  }

  lemma FieldsAfterSpace(c: char, w: string)
    requires IsSpace(c) && IsWord(w)
    ensures Fields([c] + w) == [w]
  {
    var s := [c] + w;
    assert s[1..] == w;
    assert TrimLeft(w) == w;
    assert TrimLeft(s) == w;
    FieldsOne(w);
  }

  /** Two words joined by one space are two fields. */
  lemma FieldsTwo(u: string, c: char, w: string)
    requires IsWord(u) && IsSpace(c) && IsWord(w)
    ensures Fields(u + [c] + w) == [u, w]
  {
    var s := u + [c] + w;
    assert s[..|u|] == u && s[|u|] == c;
    calc {
      Fields(s);
    == { assert s[0] == u[0]; FieldsFirst(s); }
      [LeadingWord(s)] + Fields(s[|LeadingWord(s)|..]);
    == { LeadingWordAt(s, |u|); }
      [u] + Fields(s[|u|..]);
    == { assert s[|u|..] == [c] + w; }
      [u] + Fields([c] + w);
    == { FieldsAfterSpace(c, w); }
      [u, w];
    }
  }

  predicate IsDigit(c: char) {
    '0' <= c <= '9'
  }

  function DigitChar(d: nat): char
    requires d < 10
  {
    ('0' as int + d) as char
  }

  /** Value of a run of decimal digits, most significant first. */
  function DigitsValue(ds: string): nat
    requires forall k :: 0 <= k < |ds| ==> IsDigit(ds[k])
  {
    if ds == [] then 0
    else
      assert IsDigit(ds[|ds| - 1]);
      DigitsValue(ds[..|ds| - 1]) * 10 + (ds[|ds| - 1] as int - '0' as int)
  }

  /** The text after an optional leading sign. */
  function Unsigned(s: string): string
    requires s != []
  {
    if s[0] == '-' || s[0] == '+' then s[1..] else s
  }

  predicate AllDigits(ds: string) {
    forall k :: 0 <= k < |ds| ==> IsDigit(ds[k])
  }

  /** `strconv.ParseInt(s, 10, 64)` (and `strconv.Atoi` on a 64-bit platform):
    * an optional sign, at least one digit, nothing else, and a value in int64 range. */
  function ParseInt(s: string): Option<Int64> {
    if s == [] then None
    else
      var negative := s[0] == '-';
      var digits := Unsigned(s);
      if digits == [] || !AllDigits(digits) then None
      else
        var m: int := DigitsValue(digits);
        var v: int := if negative then 0 - m else m;
        if MinInt64 <= v <= MaxInt64 then Some(v) else None
  }

  /** Text with a character other than a digit after its first is not a number. */
  lemma NotDigitsNone(s: string, k: nat)
    requires 0 < k < |s| && !IsDigit(s[k])
    ensures ParseInt(s).None?
  {
    var j := if s[0] == '-' || s[0] == '+' then k - 1 else k;
    assert !IsDigit(Unsigned(s)[j]);
  }

  /** Canonical decimal text of a natural number (`strconv.FormatInt` for n >= 0). */
  function FormatNat(n: nat): (s: string)
    ensures s != [] && forall k :: 0 <= k < |s| ==> IsDigit(s[k])
  {
    if n < 10 then [DigitChar(n)] else FormatNat(n / 10) + [DigitChar(n % 10)]
  }

  function FormatInt(x: int): string {
    if x < 0 then "-" + FormatNat(-x) else FormatNat(x)
  }

  lemma {:induction false} FormatNatValue(n: nat)
    ensures DigitsValue(FormatNat(n)) == n
  {
    if n >= 10 {
      var s := FormatNat(n / 10) + [DigitChar(n % 10)];
      assert s[..|s| - 1] == FormatNat(n / 10);
      FormatNatValue(n / 10);
    }
  }

  /** Parsing the canonical decimal text of an int64 gives the number back. */
  lemma ParseFormat(x: Int64)
    ensures ParseInt(FormatInt(x)) == Some(x)
  {
    var s := FormatInt(x);
    if x < 0 {
      var m: nat := 0 - x as int;
      var ds := FormatNat(m);
      FormatNatValue(m);
      assert s == "-" + ds && s[0] == '-' && s[1..] == ds;
    } else {
      var ds := FormatNat(x);
      FormatNatValue(x);
      assert s == ds && IsDigit(s[0]);
    }
  }
}

=== FILE: trie.dfy ===
/**
 * The user-search trie (`indexes/trie.go`).
 *
 * Go's `*trieNode` pointers become indices into an arena: node `i` has the
 * child map `kids[i]` (rune -> node index) and the id set `ids[i]`, node 0 is
 * the root, and every child has a larger index than its parent. The arena is
 * first described as a value (`Arena`) with the walks and orders the trie's
 * contract is stated in; the `Trie` class below updates the arena in place
 * with the loops of the Go code. A ghost back-reference per node records the
 * unique edge that leads into it (the trie is a tree, not a graph).
 *
 * The ids of a node are listed in ascending order and children are visited in
 * ascending rune order: Go's map order is unspecified, and this is the order
 * the trie's tests rely on.
 */
module Indexes {
  import opened Wrappers
  import opened Text

  datatype Arena = Arena(kids: seq<map<char, nat>>, ids: seq<set<Int64>>)

  /** Node 0 exists, the two columns agree, and every edge goes to a later node. */
  predicate WellFormed(a: Arena) {
    |a.kids| == |a.ids| >= 1 &&
    forall m, c :: 0 <= m < |a.kids| && c in a.kids[m] ==> m < a.kids[m][c] < |a.kids|
  }

  predicate ParentsBefore(par: seq<(nat, char)>) {
    forall m :: 1 <= m < |par| ==> par[m].0 < m
  }

  /** `par[y] == (m, c)` for the edge `m --c--> y`: no node has two incoming edges. */
  predicate TreeShaped(a: Arena, par: seq<(nat, char)>) {
    WellFormed(a) && |par| == |a.kids| && ParentsBefore(par) &&
    forall m, c :: 0 <= m < |a.kids| && c in a.kids[m] ==> par[a.kids[m][c]] == (m, c)
  }

  /** The key spelled by the back-references from the root down to node `m`. */
  ghost function Label(par: seq<(nat, char)>, m: nat): string
    requires ParentsBefore(par) && m < |par|
    decreases m
  {
    if m == 0 then [] else Label(par, par[m].0) + [par[m].1]
  }

  /** The node reached from `x` by following the runes of `s`, if every edge exists. */
  function Reach(a: Arena, x: nat, s: string): (r: Option<nat>)
    requires WellFormed(a) && x < |a.kids|
    ensures r.Some? ==> x <= r.value < |a.kids|
    ensures r.Some? && s != [] ==> x < r.value
    decreases s
  {
    if s == [] then Some(x)
    else if s[0] in a.kids[x] then Reach(a, a.kids[x][s[0]], s[1..])
    else None
  }

  lemma {:induction false} ReachConcat(a: Arena, x: nat, s: string, t: string)
    requires WellFormed(a) && x < |a.kids|
    ensures Reach(a, x, s + t) == if Reach(a, x, s).None? then None else Reach(a, Reach(a, x, s).value, t)
    decreases s
  {
    if s == [] {
      assert s + t == t;
    } else {
      assert (s + t)[0] == s[0] && (s + t)[1..] == s[1..] + t;
      if s[0] in a.kids[x] {
        ReachConcat(a, a.kids[x][s[0]], s[1..], t);
      }
    }
  }

  /** One more rune is one more edge. */
  lemma ReachStep(a: Arena, x: nat, s: string, c: char)
    requires WellFormed(a) && x < |a.kids|
    ensures Reach(a, x, s + [c]) ==
      if Reach(a, x, s).Some? && c in a.kids[Reach(a, x, s).value]
      then Some(a.kids[Reach(a, x, s).value][c]) else None
  {
    ReachConcat(a, x, s, [c]);
    assert [c][1..] == [];
  }

  /** Every node reached from the root by `k` is labelled `k`. */
  lemma {:induction false} ReachLabel(a: Arena, par: seq<(nat, char)>, k: string)
    requires TreeShaped(a, par) && Reach(a, 0, k).Some?
    ensures Label(par, Reach(a, 0, k).value) == k
    decreases |k|
  {
    if k != [] {
      var k0, c := k[..|k| - 1], k[|k| - 1];
      assert k == k0 + [c];
      ReachStep(a, 0, k0, c);
      ReachLabel(a, par, k0);
    }
  }

  /** Two keys that reach the same node are the same key. */
  lemma ReachInjective(a: Arena, par: seq<(nat, char)>, k1: string, k2: string)
    requires TreeShaped(a, par) && Reach(a, 0, k1).Some? && Reach(a, 0, k1) == Reach(a, 0, k2)
    ensures k1 == k2
  {
    ReachLabel(a, par, k1);
    ReachLabel(a, par, k2);
  }

  /** The (key, id) pairs the trie holds: the ids of every node the root reaches. */
  ghost function Stored(a: Arena, par: seq<(nat, char)>): set<(string, Int64)>
    requires TreeShaped(a, par)
  {
    set m, v | 0 <= m < |a.ids| && v in a.ids[m] && Reach(a, 0, Label(par, m)) == Some(m) :: (Label(par, m), v)
  }

  predicate Holds(a: Arena, x: nat, s: string, v: Int64)
    requires WellFormed(a) && x < |a.kids|
  {
    Reach(a, x, s).Some? && v in a.ids[Reach(a, x, s).value]
  }

  /** `(k, v)` is held exactly when the walk along `k` ends at a node holding `v`. */
  lemma InStored(a: Arena, par: seq<(nat, char)>, k: string, v: Int64)
    requires TreeShaped(a, par)
    ensures (k, v) in Stored(a, par) <==> Holds(a, 0, k, v)
  {
    if Holds(a, 0, k, v) {
      var m := Reach(a, 0, k).value;
      ReachLabel(a, par, k);
      assert (Label(par, m), v) in Stored(a, par);
    }
  }

  /** No node other than the root is an empty leaf: emptied branches have been trimmed. */
  predicate Occupied(a: Arena, m: nat)
    requires WellFormed(a) && m < |a.kids|
  {
    a.ids[m] != {} || a.kids[m] != map[]
  }

  ghost predicate TrimmedExcept(a: Arena, e: nat)
    requires WellFormed(a)
  {
    forall k :: k != [] && Reach(a, 0, k).Some? && Reach(a, 0, k).value != e ==> Occupied(a, Reach(a, 0, k).value)
  }

  ghost predicate Trimmed(a: Arena)
    requires WellFormed(a)
  {
    TrimmedExcept(a, 0)
  }

  // ---------------------------------------------------------------------------
  // Orders

  predicate IdsAscending(s: seq<Int64>) {
    forall i, j :: 0 <= i < j < |s| ==> s[i] < s[j]
  }

  predicate RunesAscending(s: seq<char>) {
    forall i, j :: 0 <= i < j < |s| ==> s[i] < s[j]
  }

  predicate IsLeastId(m: Int64, s: set<Int64>) {
    m in s && forall y :: y in s ==> m <= y
  }

  predicate IsLeastRune(m: char, s: set<char>) {
    m in s && forall y :: y in s ==> m <= y
  }

  lemma LeastIdExists(s: set<Int64>)
    requires s != {}
    ensures exists m :: IsLeastId(m, s)
    decreases |s|
  {
    var x :| x in s;
    var rest := s - {x};
    if rest == {} {
      assert s == {x};
      assert IsLeastId(x, s);
    } else {
      LeastIdExists(rest);
      var m :| IsLeastId(m, rest);
      var lo := if x < m then x else m;
      assert forall y :: y in s ==> y == x || y in rest;
      assert IsLeastId(lo, s);
    }
  }

  lemma LeastRuneExists(s: set<char>)
    requires s != {}
    ensures exists m :: IsLeastRune(m, s)
    decreases |s|
  {
    var x :| x in s;
    var rest := s - {x};
    if rest == {} {
      assert s == {x};
      assert IsLeastRune(x, s);
    } else {
      LeastRuneExists(rest);
      var m :| IsLeastRune(m, rest);
      var lo := if x < m then x else m;
      assert forall y :: y in s ==> y == x || y in rest;
      assert IsLeastRune(lo, s);
    }
  }

  /** The least member of `s` put before the sorted rest of `s` sorts `s`. */
  lemma ConsIds(m: Int64, rest: seq<Int64>, s: set<Int64>)
    requires IsLeastId(m, s) && IdsAscending(rest) && |rest| == |s - {m}|
    requires forall v :: v in rest <==> v in s - {m}
    ensures IdsAscending([m] + rest) && |[m] + rest| == |s|
    ensures forall v :: v in [m] + rest <==> v in s
  {
    var r := [m] + rest;
    forall i, j | 0 <= i < j < |r| ensures r[i] < r[j] {
      assert r[j] == rest[j - 1] && rest[j - 1] in s - {m};
      if i > 0 {
        assert r[i] == rest[i - 1];
      }
    }
  }

  /** The least member of `s` put before the sorted rest of `s` sorts `s`. */
  lemma ConsRunes(m: char, rest: seq<char>, s: set<char>)
    requires IsLeastRune(m, s) && RunesAscending(rest) && |rest| == |s - {m}|
    requires forall v :: v in rest <==> v in s - {m}
    ensures RunesAscending([m] + rest) && |[m] + rest| == |s|
    ensures forall v :: v in [m] + rest <==> v in s
  {
    var r := [m] + rest;
    forall i, j | 0 <= i < j < |r| ensures r[i] < r[j] {
      assert r[j] == rest[j - 1] && rest[j - 1] in s - {m};
      if i > 0 {
        assert r[i] == rest[i - 1];
      }
    }
  }

  /** The members of an id set, each once, smallest first. */
  function SortedIds(s: set<Int64>): (r: seq<Int64>)
    ensures IdsAscending(r) && |r| == |s|
    ensures forall v :: v in r <==> v in s
    decreases |s|
  {
    if s == {} then []
    else
      LeastIdExists(s);
      var m :| IsLeastId(m, s);
      var rest := SortedIds(s - {m});
      ConsIds(m, rest, s);
      [m] + rest
  }

  /** The runes of a child map, each once, in ascending code-point order. */
  function SortedRunes(s: set<char>): (r: seq<char>)
    ensures RunesAscending(r) && |r| == |s|
    ensures forall c :: c in r <==> c in s
    decreases |s|
  {
    if s == {} then []
    else
      LeastRuneExists(s);
      var m :| IsLeastRune(m, s);
      var rest := SortedRunes(s - {m});
      ConsRunes(m, rest, s);
      [m] + rest
  }

  /** The first `n` elements (all of them when there are fewer; none when n <= 0). */
  function Take(s: seq<Int64>, n: int): (r: seq<Int64>)
    ensures r <= s
    ensures |r| == if n <= 0 then 0 else if |s| <= n then |s| else n
  {
    if n <= 0 then [] else if |s| <= n then s else s[..n]
  }

  // ---------------------------------------------------------------------------
  // Depth-first enumeration and the specification of Find

  /** The ids below node `x`: its own ids first, then each child's subtree in ascending rune order. */
  function Enumerate(a: Arena, x: nat): seq<Int64>
    requires WellFormed(a) && x < |a.kids|
    decreases |a.kids| - x, 1
  {
    SortedIds(a.ids[x]) + EnumerateKids(a, x, SortedRunes(a.kids[x].Keys))
  }

  function EnumerateKids(a: Arena, x: nat, cs: seq<char>): seq<Int64>
    requires WellFormed(a) && x < |a.kids|
    requires forall i :: 0 <= i < |cs| ==> cs[i] in a.kids[x]
    decreases |a.kids| - x, 0, |cs|
  {
    if cs == [] then [] else Enumerate(a, a.kids[x][cs[0]]) + EnumerateKids(a, x, cs[1..])
  }

  lemma {:induction false} KidsSound(a: Arena, x: nat, cs: seq<char>, v: Int64) returns (c: char)
    requires WellFormed(a) && x < |a.kids|
    requires forall i :: 0 <= i < |cs| ==> cs[i] in a.kids[x]
    requires v in EnumerateKids(a, x, cs)
    ensures c in a.kids[x] && v in Enumerate(a, a.kids[x][c])
    decreases |cs|
  {
    if v in Enumerate(a, a.kids[x][cs[0]]) {
      c := cs[0];
    } else {
      c := KidsSound(a, x, cs[1..], v);
    }
  }

  /** Every id the enumeration lists is held at some node below `x`. */
  lemma {:induction false} EnumerateSound(a: Arena, x: nat, v: Int64) returns (s: string)
    requires WellFormed(a) && x < |a.kids| && v in Enumerate(a, x)
    ensures Holds(a, x, s, v)
    decreases |a.kids| - x
  {
    if v in a.ids[x] {
      s := [];
    } else {
      var c := KidsSound(a, x, SortedRunes(a.kids[x].Keys), v);
      var t := EnumerateSound(a, a.kids[x][c], v);
      s := [c] + t;
      assert s[0] == c && s[1..] == t;
    }
  }

  lemma {:induction false} KidsComplete(a: Arena, x: nat, cs: seq<char>, c: char, v: Int64)
    requires WellFormed(a) && x < |a.kids|
    requires forall i :: 0 <= i < |cs| ==> cs[i] in a.kids[x]
    requires c in cs && c in a.kids[x] && v in Enumerate(a, a.kids[x][c])
    ensures v in EnumerateKids(a, x, cs)
    decreases |cs|
  {
    if cs[0] != c {
      KidsComplete(a, x, cs[1..], c, v);
    }
  }

  /** Every id held below `x` is listed by the enumeration. */
  lemma {:induction false} EnumerateComplete(a: Arena, x: nat, s: string, v: Int64)
    requires WellFormed(a) && x < |a.kids| && Holds(a, x, s, v)
    ensures v in Enumerate(a, x)
    decreases s
  {
    if s != [] {
      EnumerateComplete(a, a.kids[x][s[0]], s[1..], v);
      KidsComplete(a, x, SortedRunes(a.kids[x].Keys), s[0], v);
    }
  }

  /** In a trimmed trie every node reached by a non-empty key has some id below it. */
  lemma {:induction false} NonEmptyBelow(a: Arena, k: string, x: nat) returns (v: Int64)
    requires WellFormed(a) && Trimmed(a)
    requires k != [] && Reach(a, 0, k) == Some(x)
    ensures v in Enumerate(a, x)
    decreases |a.kids| - x
  {
    assert Occupied(a, x);
    if a.ids[x] == {} {
      var c :| c in a.kids[x];
      var y := a.kids[x][c];
      ReachStep(a, 0, k, c);
      v := NonEmptyBelow(a, k + [c], y);
      KidsComplete(a, x, SortedRunes(a.kids[x].Keys), c, v);
    } else {
      v :| v in a.ids[x];
      assert v in SortedIds(a.ids[x]);
    }
  }

  /**
   * What `Find(prefix, n)` returns: nil (None) when the trie is empty, the
   * prefix is empty, n == 0, or some rune of the prefix has no edge; otherwise
   * the first n ids of the depth-first enumeration below the prefix's node.
   */
  function FindSpec(a: Arena, length: int, prefix: string, n: int): (r: Option<seq<Int64>>)
    requires WellFormed(a)
    ensures r.Some? ==> |r.value| <= n || (n < 0 && r.value == [])
  {
    if length == 0 || |prefix| == 0 || n == 0 then None
    else match Reach(a, 0, prefix)
      case None => None
      case Some(x) => Some(Take(Enumerate(a, x), n))
  }

  /** Every id `Find` returns is held under some key that starts with the prefix. */
  lemma FindSound(a: Arena, par: seq<(nat, char)>, length: int, prefix: string, n: int, v: Int64)
    requires TreeShaped(a, par)
    requires FindSpec(a, length, prefix, n).Some? && v in FindSpec(a, length, prefix, n).value
    ensures exists k :: HasPrefix(k, prefix) && (k, v) in Stored(a, par)
  {
    var x := Reach(a, 0, prefix).value;
    var s := EnumerateSound(a, x, v);
    ReachConcat(a, 0, prefix, s);
    InStored(a, par, prefix + s, v);
    assert (prefix + s)[..|prefix|] == prefix;
  }

  /**
   * Every id held under a key that starts with the prefix is returned, unless
   * the n slots are already full.
   */
  lemma FindComplete(a: Arena, par: seq<(nat, char)>, length: int, prefix: string, n: int, k: string, v: Int64)
    requires TreeShaped(a, par)
    requires length != 0 && prefix != [] && n > 0
    requires HasPrefix(k, prefix) && (k, v) in Stored(a, par)
    ensures FindSpec(a, length, prefix, n).Some?
    ensures v in FindSpec(a, length, prefix, n).value || |FindSpec(a, length, prefix, n).value| == n
  {
    InStored(a, par, k, v);
    var s := k[|prefix|..];
    assert k == prefix + s;
    ReachConcat(a, 0, prefix, s);
    EnumerateComplete(a, Reach(a, 0, prefix).value, s, v);
  }

  /**
   * In a trimmed trie, `Find` is nil (past the guards) exactly when no held
   * key starts with the prefix, and otherwise returns at least one id.
   */
  lemma FindNil(a: Arena, par: seq<(nat, char)>, length: int, prefix: string, n: int)
    requires TreeShaped(a, par) && Trimmed(a)
    requires length != 0 && prefix != [] && n > 0
    ensures FindSpec(a, length, prefix, n).None? <==>
      forall k, v :: (k, v) in Stored(a, par) ==> !HasPrefix(k, prefix)
    ensures FindSpec(a, length, prefix, n).Some? ==> FindSpec(a, length, prefix, n).value != []
  {
    var r := FindSpec(a, length, prefix, n);
    if r.Some? {
      var u := NonEmptyBelow(a, prefix, Reach(a, 0, prefix).value);
      assert |r.value| > 0;
      var v := r.value[0];
      FindSound(a, par, length, prefix, n, v);
    } else {
      forall k, v | (k, v) in Stored(a, par)
        ensures !HasPrefix(k, prefix)
      {
        if HasPrefix(k, prefix) {
          FindComplete(a, par, length, prefix, n, k, v);
        }
      }
    }
  }

  // ---------------------------------------------------------------------------
  // The four ways the trie's methods change the arena

  /** A new, empty child of `p` along rune `c`, appended at the end. */
  function Grow(a: Arena, p: nat, c: char): Arena
    requires WellFormed(a) && p < |a.kids|
  {
    var edges: map<char, nat> := a.kids[p][c := |a.kids|];
    Arena(a.kids[p := edges] + [map[]], a.ids + [{}])
  }

  function Insert(a: Arena, t: nat, v: Int64): Arena
    requires WellFormed(a) && t < |a.kids|
  {
    Arena(a.kids, a.ids[t := a.ids[t] + {v}])
  }

  function Delete(a: Arena, t: nat, v: Int64): Arena
    requires WellFormed(a) && t < |a.kids|
  {
    Arena(a.kids, a.ids[t := a.ids[t] - {v}])
  }

  /** Unlinks the child of `p` along `c`. */
  function Cut(a: Arena, p: nat, c: char): Arena
    requires WellFormed(a) && p < |a.kids|
  {
    Arena(a.kids[p := a.kids[p] - {c}], a.ids)
  }

  lemma {:induction false} GrowKeeps(a: Arena, p: nat, c: char, x: nat, s: string)
    requires WellFormed(a) && p < |a.kids| && c !in a.kids[p] && x < |a.kids|
    requires Reach(a, x, s).Some?
    ensures WellFormed(Grow(a, p, c)) && Reach(Grow(a, p, c), x, s) == Reach(a, x, s)
    decreases s
  {
    if s != [] {
      GrowKeeps(a, p, c, a.kids[x][s[0]], s[1..]);
    }
  }

  lemma {:induction false} GrowBack(a: Arena, p: nat, c: char, x: nat, s: string)
    requires WellFormed(a) && p < |a.kids| && c !in a.kids[p] && x < |a.kids|
    requires WellFormed(Grow(a, p, c))
    requires Reach(Grow(a, p, c), x, s).Some? && Reach(Grow(a, p, c), x, s).value < |a.kids|
    ensures Reach(a, x, s) == Reach(Grow(a, p, c), x, s)
    decreases s
  {
    if s != [] {
      var y := Grow(a, p, c).kids[x][s[0]];
      if y < |a.kids| {
        GrowBack(a, p, c, y, s[1..]);
      }
    }
  }

  /** Growing a fresh empty child keeps the tree shape, the held pairs and the old walks. */
  lemma GrowLemma(a: Arena, par: seq<(nat, char)>, p: nat, c: char)
    requires TreeShaped(a, par) && p < |a.kids| && c !in a.kids[p]
    ensures TreeShaped(Grow(a, p, c), par + [(p, c)])
    ensures Stored(Grow(a, p, c), par + [(p, c)]) == Stored(a, par)
    ensures forall s :: Reach(a, 0, s).Some? ==> Reach(Grow(a, p, c), 0, s) == Reach(a, 0, s)
    ensures TrimmedExcept(a, p) ==> TrimmedExcept(Grow(a, p, c), |a.kids|)
  {
    var g, gp := Grow(a, p, c), par + [(p, c)];
    assert WellFormed(g);
    forall m | 1 <= m < |gp| ensures gp[m].0 < m {
      if m < |par| { assert gp[m] == par[m]; }
    }
    assert TreeShaped(g, gp);
    forall s | Reach(a, 0, s).Some? ensures Reach(g, 0, s) == Reach(a, 0, s) {
      GrowKeeps(a, p, c, 0, s);
    }
    forall k: string, v: Int64 ensures (k, v) in Stored(g, gp) <==> (k, v) in Stored(a, par) {
      InStored(g, gp, k, v);
      InStored(a, par, k, v);
      if Holds(g, 0, k, v) {
        GrowBack(a, p, c, 0, k);
      }
    }
    if TrimmedExcept(a, p) {
      forall k | k != [] && Reach(g, 0, k).Some? && Reach(g, 0, k).value != |a.kids|
        ensures Occupied(g, Reach(g, 0, k).value)
      {
        GrowBack(a, p, c, 0, k);
      }
    }
  }

  /** Adding `v` at the node of `key` adds exactly the pair (key, v). */
  lemma InsertLemma(a: Arena, par: seq<(nat, char)>, key: string, t: nat, v: Int64)
    requires TreeShaped(a, par) && Reach(a, 0, key) == Some(t)
    ensures TreeShaped(Insert(a, t, v), par)
    ensures Stored(Insert(a, t, v), par) == Stored(a, par) + {(key, v)}
    ensures TrimmedExcept(a, t) ==> Trimmed(Insert(a, t, v))
  {
    InsertReach(a, par, t, v);
    InsertStored(a, par, key, t, v);
  }

  /** Adding an id keeps the shape and every path. */
  lemma InsertReach(a: Arena, par: seq<(nat, char)>, t: nat, v: Int64)
    requires TreeShaped(a, par) && t < |a.kids|
    ensures TreeShaped(Insert(a, t, v), par)
    ensures forall s :: Reach(Insert(a, t, v), 0, s) == Reach(a, 0, s)
  {
    var b := Insert(a, t, v);
    forall s ensures Reach(b, 0, s) == Reach(a, 0, s) {
      SameKidsSameReach(a, b, 0, s);
    }
  }

  lemma InsertStored(a: Arena, par: seq<(nat, char)>, key: string, t: nat, v: Int64)
    requires TreeShaped(a, par) && Reach(a, 0, key) == Some(t)
    requires TreeShaped(Insert(a, t, v), par)
    requires forall s :: Reach(Insert(a, t, v), 0, s) == Reach(a, 0, s)
    ensures Stored(Insert(a, t, v), par) == Stored(a, par) + {(key, v)}
  {
    var b := Insert(a, t, v);
    forall k: string, w: Int64 ensures (k, w) in Stored(b, par) <==> (k, w) in Stored(a, par) || (k, w) == (key, v) {
      InStored(b, par, k, w);
      InStored(a, par, k, w);
      if Reach(a, 0, k) == Some(t) {
        ReachInjective(a, par, k, key);
      }
    }
  }

  lemma {:induction false} SameKidsSameReach(a: Arena, b: Arena, x: nat, s: string)
    requires WellFormed(a) && WellFormed(b) && a.kids == b.kids && x < |a.kids|
    ensures Reach(b, x, s) == Reach(a, x, s)
    decreases s
  {
    if s != [] && s[0] in a.kids[x] {
      SameKidsSameReach(a, b, a.kids[x][s[0]], s[1..]);
    }
  }

  /** Removing `v` at the node of `key` removes exactly the pair (key, v). */
  lemma DeleteLemma(a: Arena, par: seq<(nat, char)>, key: string, t: nat, v: Int64)
    requires TreeShaped(a, par) && Reach(a, 0, key) == Some(t)
    ensures TreeShaped(Delete(a, t, v), par)
    ensures Stored(Delete(a, t, v), par) == Stored(a, par) - {(key, v)}
    ensures forall s :: Reach(Delete(a, t, v), 0, s) == Reach(a, 0, s)
    ensures Trimmed(a) ==> TrimmedExcept(Delete(a, t, v), t)
  {
    var b := Delete(a, t, v);
    forall s ensures Reach(b, 0, s) == Reach(a, 0, s) {
      SameKidsSameReach(a, b, 0, s);
    }
    forall k: string, w: Int64 ensures (k, w) in Stored(b, par) <==> (k, w) in Stored(a, par) && (k, w) != (key, v) {
      InStored(b, par, k, w);
      InStored(a, par, k, w);
      if Reach(a, 0, k) == Some(t) {
        ReachInjective(a, par, k, key);
      }
    }
  }

  lemma {:induction false} CutBack(a: Arena, p: nat, c: char, x: nat, s: string)
    requires WellFormed(a) && p < |a.kids| && x < |a.kids|
    requires WellFormed(Cut(a, p, c)) && Reach(Cut(a, p, c), x, s).Some?
    ensures Reach(a, x, s) == Reach(Cut(a, p, c), x, s)
    decreases s
  {
    if s != [] {
      CutBack(a, p, c, Cut(a, p, c).kids[x][s[0]], s[1..]);
    }
  }

  lemma {:induction false} CutKeeps(a: Arena, p: nat, c: char, x: nat, s: string)
    requires WellFormed(a) && p < |a.kids| && c in a.kids[p] && x < |a.kids|
    requires a.kids[a.kids[p][c]] == map[]
    requires WellFormed(Cut(a, p, c))
    requires Reach(a, x, s).Some? && Reach(a, x, s).value != a.kids[p][c]
    ensures Reach(Cut(a, p, c), x, s) == Reach(a, x, s)
    decreases s
  {
    if s != [] {
      var y := a.kids[x][s[0]];
      if x == p && s[0] == c {
        assert false;
      } else {
        CutKeeps(a, p, c, y, s[1..]);
      }
    }
  }

  lemma CutUnreached(a: Arena, par: seq<(nat, char)>, p: nat, c: char, k: string)
    requires TreeShaped(a, par) && p < |a.kids| && c in a.kids[p]
    requires WellFormed(Cut(a, p, c))
    ensures Reach(Cut(a, p, c), 0, k) != Some(a.kids[p][c])
  {
    var b := Cut(a, p, c);
    if Reach(b, 0, k) == Some(a.kids[p][c]) {
      var k0, d := k[..|k| - 1], k[|k| - 1];
      assert k == k0 + [d];
      ReachStep(b, 0, k0, d);
      assert false;
    }
  }

  /** Unlinking an empty leaf keeps the tree shape, the held pairs and every other walk. */
  lemma CutLemma(a: Arena, par: seq<(nat, char)>, p: nat, c: char)
    requires TreeShaped(a, par) && p < |a.kids| && c in a.kids[p]
    requires a.kids[a.kids[p][c]] == map[] && a.ids[a.kids[p][c]] == {}
    ensures TreeShaped(Cut(a, p, c), par)
    ensures Stored(Cut(a, p, c), par) == Stored(a, par)
    ensures forall s :: Reach(a, 0, s).Some? && Reach(a, 0, s).value != a.kids[p][c] ==>
      Reach(Cut(a, p, c), 0, s) == Reach(a, 0, s)
    ensures TrimmedExcept(a, a.kids[p][c]) ==> TrimmedExcept(Cut(a, p, c), p)
  {
    var b, m := Cut(a, p, c), a.kids[p][c];
    assert WellFormed(b);
    assert TreeShaped(b, par);
    forall s | Reach(a, 0, s).Some? && Reach(a, 0, s).value != m
      ensures Reach(b, 0, s) == Reach(a, 0, s)
    {
      CutKeeps(a, p, c, 0, s);
    }
    forall k: string, v: Int64 ensures (k, v) in Stored(b, par) <==> (k, v) in Stored(a, par) {
      InStored(b, par, k, v);
      InStored(a, par, k, v);
      if Holds(b, 0, k, v) {
        CutBack(a, p, c, 0, k);
      }
      if Holds(a, 0, k, v) {
        CutKeeps(a, p, c, 0, k);
      }
    }
    if TrimmedExcept(a, m) {
      forall k | k != [] && Reach(b, 0, k).Some? && Reach(b, 0, k).value != p
        ensures Occupied(b, Reach(b, 0, k).value)
      {
        CutBack(a, p, c, 0, k);
        CutUnreached(a, par, p, c, k);
      }
    }
  }

  // ---------------------------------------------------------------------------
  // Converted users: the search keys of a user

  /** The lower-cased white-space separated words of each name, in order. */
  function NameTokens(names: seq<string>): (ts: seq<string>)
    ensures forall i :: 0 <= i < |ts| ==> IsWord(ts[i]) && IsLower(ts[i])
  {
    if names == [] then []
    else
      var low := ToLower(names[0]);
      var ws := Fields(low);
      FieldsLower(low);
      ws + NameTokens(names[1..])
  }

  /** The pairs (token, id) for every token in `ts`. */
  function Tagged(ts: seq<string>, id: Int64): set<(string, Int64)> {
    set t | t in ts :: (t, id)
  }

  lemma CardMinus(c: set<(string, Int64)>, x: (string, Int64))
    ensures |c - {x}| == if x in c then |c| - 1 else |c|
  {
  }

  lemma UnionStep(c: set<(string, Int64)>, x: (string, Int64), t: set<(string, Int64)>)
    ensures c + ({x} + t) == (c + {x}) + t
  {
  }

  lemma TaggedCons(ts: seq<string>, id: Int64)
    requires ts != []
    ensures Tagged(ts, id) == {(ts[0], id)} + Tagged(ts[1..], id)
  {
  }

  // ---------------------------------------------------------------------------
  // The trie

  /**
   * The trie's invariant on values: a tree-shaped, trimmed arena holding
   * exactly the pairs `c`, and a count no smaller than the number of pairs.
   */
  ghost predicate Consistent(a: Arena, par: seq<(nat, char)>, c: set<(string, Int64)>, length: int) {
    TreeShaped(a, par) && Trimmed(a) && length >= |c| &&
    forall k: string, v: Int64 :: (k, v) in c <==> Holds(a, 0, k, v)
  }

  /** A set of pairs is the one stored exactly when it agrees with `Holds` pair by pair. */
  lemma HeldExactly(a: Arena, par: seq<(nat, char)>, c: set<(string, Int64)>)
    requires TreeShaped(a, par)
    ensures c == Stored(a, par) <==> forall k: string, v: Int64 :: (k, v) in c <==> Holds(a, 0, k, v)
  {
    forall k: string, v: Int64 {
      InStored(a, par, k, v);
    }
    if forall k: string, v: Int64 :: (k, v) in c <==> Holds(a, 0, k, v) {
      forall p | p in c + Stored(a, par) ensures p in c <==> p in Stored(a, par) {
        assert (p.0, p.1) in c <==> Holds(a, 0, p.0, p.1);
      }
    }
  }

  class Trie {
    /** Every node of the trie: its child map and its id set, node 0 the root. */
    var nodes: Arena
    var length: int
    ghost var parent: seq<(nat, char)>
    /** The (key, id) pairs the trie currently holds. */
    ghost var Contents: set<(string, Int64)>

    ghost predicate Valid()
      reads this
    {
      Consistent(nodes, parent, Contents, length)
    }

    /** `NewTrie`: only the root, no entries. */
    constructor ()
      ensures Valid() && Contents == {} && length == 0
    {
      nodes := Arena([map[]], [{}]);
      length := 0;
      parent := [(0, ' ')];
      Contents := {};
      new;
      assert Reach(nodes, 0, []) == Some(0);
    }

    /** The entry count: one per `Add`, never below the number of distinct pairs held. */
    function Len(): (n: int)
      reads this
      requires Valid()
      ensures n >= |Contents|
    {
      length
    }

    /**
     * `Add` with `addHelper`: walks the runes of `key`, creating each missing
     * node, then adds `value` to the last node's id set and counts the call.
     */
    method Add(key: string, value: Int64)
      requires Valid()
      modifies this
      ensures Valid()
      ensures Contents == old(Contents) + {(key, value)}
      ensures length == old(length) + 1
      ensures |nodes.kids| <= old(|nodes.kids|) + |key|
    {
      nodes, parent := AddEntry(nodes, parent, Contents, length, key, value);
      Contents := Contents + {(key, value)};
      length := length + 1;
    }

    /**
     * `Remove`, with the gaps of the Go code closed: a key whose path is
     * missing changes nothing, the count drops only when the id was present,
     * and nodes left without ids or children are unlinked up the path.
     */
    method Remove(key: string, value: Int64)
      requires Valid()
      modifies this
      ensures Valid()
      ensures Contents == old(Contents) - {(key, value)}
      ensures length == if (key, value) in old(Contents) then old(length) - 1 else old(length)
      ensures |nodes.kids| == old(|nodes.kids|)
    {
      nodes, length := RemoveEntry(nodes, parent, Contents, length, key, value);
      Contents := Contents - {(key, value)};
    }

    /**
     * Indexes a user under each lower-cased, white-space separated token of
     * the first name, last name and user name, one `Add` per token.
     */
    method AddConvertedUsers(firstName: string, lastName: string, userName: string, id: Int64)
      requires Valid()
      modifies this
      ensures Valid()
      ensures Contents == old(Contents) + Tagged(NameTokens([firstName, lastName, userName]), id)
      ensures length == old(length) + |NameTokens([firstName, lastName, userName])|
    {
      var tokens := NameTokens([firstName, lastName, userName]);
      ghost var goal := Contents + Tagged(tokens, id);
      var rest := tokens;
      while rest != []
        invariant Valid() && Contents + Tagged(rest, id) == goal
        invariant length == old(length) + |tokens| - |rest|
      {
        TaggedCons(rest, id);
        ghost var before := Contents;
        Add(rest[0], id);
        UnionStep(before, (rest[0], id), Tagged(rest[1..], id));
        rest := rest[1..];
      }
    }

    /** Drops the pairs of the first-name and last-name tokens of user `id`, one `Remove` per token. */
    method RemoveConvertedUsers(firstName: string, lastName: string, id: Int64)
      requires Valid()
      modifies this
      ensures Valid()
      ensures Contents == old(Contents) - Tagged(NameTokens([firstName, lastName]), id)
      ensures length <= old(length)
    {
      var tokens := NameTokens([firstName, lastName]);
      ghost var goal := Contents - Tagged(tokens, id);
      var rest := tokens;
      while rest != []
        invariant Valid() && Contents - Tagged(rest, id) == goal
        invariant length <= old(length)
      {
        TaggedCons(rest, id);
        Remove(rest[0], id);
        rest := rest[1..];
      }
    }

    /** `Find`: the guards, the walk along the prefix, then the bounded depth-first collection. */
    method Find(prefix: string, n: int) returns (result: Option<seq<Int64>>)
      requires Valid()
      ensures result == FindSpec(nodes, length, prefix, n)
    {
      if length == 0 || |prefix| == 0 || n == 0 {
        return None;
      }
      var a := nodes;
      var node := Walk(a, prefix);
      if node.None? {
        return None;
      }
      var r := Collect(a, node.value, n, []);
      assert [] + Enumerate(a, node.value) == Enumerate(a, node.value);
      return Some(r);
    }
  }

  /**
   * `addHelper`: walks the runes of `key` from the root, creating each missing
   * node as a fresh empty child, and returns the grown arena with the node
   * the key ends at. The held pairs do not change, and the only node that may
   * be an empty leaf afterwards is the one returned.
   */
  method AddHelper(a: Arena, ghost par: seq<(nat, char)>, key: string)
    returns (b: Arena, ghost bpar: seq<(nat, char)>, cur: nat)
    requires TreeShaped(a, par) && Trimmed(a)
    ensures TreeShaped(b, bpar) && Reach(b, 0, key) == Some(cur)
    ensures TrimmedExcept(b, cur)
    ensures Stored(b, bpar) == Stored(a, par)
    ensures |a.kids| <= |b.kids| <= |a.kids| + |key|
  {
    b, bpar := a, par;
    cur := 0;
    var i := 0;
    while i < |key|
      invariant AddInvariant(a, par, key, b, bpar, i, cur)
    {
      b, bpar, cur := AddRune(a, par, key, b, bpar, i, cur);
      i := i + 1;
    }
    assert key[..|key|] == key;
  }

  /** One turn of the `addHelper` loop: follow the edge for `key[i]`, creating it when missing. */
  method AddRune(ghost a: Arena, ghost par: seq<(nat, char)>, key: string,
                 b: Arena, ghost bpar: seq<(nat, char)>, i: nat, cur: nat)
    returns (b': Arena, ghost bpar': seq<(nat, char)>, cur': nat)
    requires TreeShaped(a, par) && AddInvariant(a, par, key, b, bpar, i, cur) && i < |key|
    ensures AddInvariant(a, par, key, b', bpar', i + 1, cur')
  {
    var c := key[i];
    if c !in b.kids[cur] {
      GrowStep(a, par, key, b, bpar, i, cur);
      b', bpar' := Grow(b, cur, c), bpar + [(cur, c)];
    } else {
      FollowStep(a, par, key, b, bpar, i, cur);
      b', bpar' := b, bpar;
    }
    cur' := b'.kids[cur][c];
  }

  /** What holds after `addHelper` has walked the first i runes of `key` and stands at `cur`. */
  ghost predicate AddInvariant(a: Arena, par: seq<(nat, char)>, key: string,
                               b: Arena, bpar: seq<(nat, char)>, i: nat, cur: nat)
    requires TreeShaped(a, par)
  {
    i <= |key| && TreeShaped(b, bpar) && cur < |b.kids| &&
    Reach(b, 0, key[..i]) == Some(cur) && TrimmedExcept(b, cur) &&
    Stored(b, bpar) == Stored(a, par) && |a.kids| <= |b.kids| <= |a.kids| + i
  }

  /** A missing edge is created as a fresh empty child, and the walk moves onto it. */
  lemma GrowStep(a: Arena, par: seq<(nat, char)>, key: string,
                 b: Arena, bpar: seq<(nat, char)>, i: nat, cur: nat)
    requires TreeShaped(a, par) && AddInvariant(a, par, key, b, bpar, i, cur)
    requires i < |key| && key[i] !in b.kids[cur]
    ensures TreeShaped(Grow(b, cur, key[i]), bpar + [(cur, key[i])])
    ensures AddInvariant(a, par, key, Grow(b, cur, key[i]), bpar + [(cur, key[i])], i + 1, |b.kids|)
  {
    var c := key[i];
    assert key[..i + 1] == key[..i] + [c];
    GrowLemma(b, bpar, cur, c);
    ReachStep(Grow(b, cur, c), 0, key[..i], c);
  }

  /** An existing edge is followed; the node left behind has a child, so it is occupied. */
  lemma FollowStep(a: Arena, par: seq<(nat, char)>, key: string,
                   b: Arena, bpar: seq<(nat, char)>, i: nat, cur: nat)
    requires TreeShaped(a, par) && AddInvariant(a, par, key, b, bpar, i, cur)
    requires i < |key| && key[i] in b.kids[cur]
    ensures AddInvariant(a, par, key, b, bpar, i + 1, b.kids[cur][key[i]])
  {
    var c := key[i];
    assert key[..i + 1] == key[..i] + [c];
    ReachStep(b, 0, key[..i], c);
  }

  /** `Remove` on values: the arena work of `RemoveFrom` and the count it keeps. */
  method RemoveEntry(a: Arena, ghost par: seq<(nat, char)>, ghost c: set<(string, Int64)>, length: int,
                     key: string, value: Int64) returns (b: Arena, len: int)
    requires Consistent(a, par, c, length)
    ensures Consistent(b, par, c - {(key, value)}, len)
    ensures len == if (key, value) in c then length - 1 else length
    ensures |b.kids| == |a.kids|
  {
    HeldExactly(a, par, c);
    var removed;
    b, removed := RemoveFrom(a, par, key, value);
    CardMinus(c, (key, value));
    len := if removed then length - 1 else length;
    HeldExactly(b, par, c - {(key, value)});
  }

  /** `Add` on values: the arena work of `addHelper` and the id insertion. */
  method AddEntry(a: Arena, ghost par: seq<(nat, char)>, ghost c: set<(string, Int64)>, length: int,
                  key: string, value: Int64) returns (b: Arena, ghost bpar: seq<(nat, char)>)
    requires Consistent(a, par, c, length)
    ensures Consistent(b, bpar, c + {(key, value)}, length + 1)
    ensures |b.kids| <= |a.kids| + |key|
  {
    HeldExactly(a, par, c);
    var g, cur;
    g, bpar, cur := AddHelper(a, par, key);
    InsertLemma(g, bpar, key, cur, value);
    b := Insert(g, cur, value);
    assert |c + {(key, value)}| <= |c| + 1;
    HeldExactly(b, bpar, c + {(key, value)});
  }

  /**
   * The node work of `Remove` on the arena: descend along `key` (changing
   * nothing when the path is missing), drop `value` from the node reached,
   * then trim the branch. Reports whether the pair was held.
   */
  method RemoveFrom(a: Arena, ghost par: seq<(nat, char)>, key: string, value: Int64)
    returns (b: Arena, removed: bool)
    requires TreeShaped(a, par) && Trimmed(a)
    ensures TreeShaped(b, par) && Trimmed(b) && |b.kids| == |a.kids|
    ensures Stored(b, par) == Stored(a, par) - {(key, value)}
    ensures removed <==> (key, value) in Stored(a, par)
  {
    var found := Descend(a, key);
    InStored(a, par, key, value);
    if found.None? {
      return a, false;
    }
    var path := found.value;
    var t := path[|key|];
    removed := value in a.ids[t];
    assert key[..|key|] == key;
    DeleteLemma(a, par, key, t, value);
    b := Prune(Delete(a, t, value), par, key, path);
  }

  /**
   * The descent of `Remove`: the node of every prefix of `key`, root first,
   * or None when some rune of the key has no edge.
   */
  method Descend(a: Arena, key: string) returns (path: Option<seq<nat>>)
    requires WellFormed(a)
    ensures path.None? <==> Reach(a, 0, key).None?
    ensures path.Some? ==> |path.value| == |key| + 1
    ensures path.Some? ==> forall h :: 0 <= h <= |key| ==> Reach(a, 0, key[..h]) == Some(path.value[h])
  {
    var cur := 0;
    var nodes := [0];
    var i := 0;
    while i < |key|
      invariant 0 <= i <= |key| && |nodes| == i + 1 && cur == nodes[i] && cur < |a.kids|
      invariant forall h :: 0 <= h <= i ==> Reach(a, 0, key[..h]) == Some(nodes[h])
    {
      var c := key[i];
      assert key[..i + 1] == key[..i] + [c];
      ReachStep(a, 0, key[..i], c);
      if c !in a.kids[cur] {
        ReachConcat(a, 0, key[..i + 1], key[i + 1..]);
        assert key[..i + 1] + key[i + 1..] == key;
        return None;
      }
      cur := a.kids[cur][c];
      nodes := nodes + [cur];
      i := i + 1;
    }
    assert key[..|key|] == key;
    return Some(nodes);
  }

  /**
   * The branch trimming of `Remove`: going back up the path of `key`, unlinks
   * each node left with no ids and no children, stopping at the root or at the
   * first node still in use. Only the empty leaves go; the held pairs stay.
   */
  method Prune(a: Arena, ghost par: seq<(nat, char)>, key: string, path: seq<nat>) returns (b: Arena)
    requires TreeShaped(a, par) && |path| == |key| + 1
    requires forall h :: 0 <= h <= |key| ==> Reach(a, 0, key[..h]) == Some(path[h])
    requires TrimmedExcept(a, path[|key|])
    ensures TreeShaped(b, par) && Trimmed(b)
    ensures Stored(b, par) == Stored(a, par)
    ensures |b.kids| == |a.kids| && b.ids == a.ids
  {
    b := a;
    var j := |key|;
    while j > 0 && b.ids[path[j]] == {} && b.kids[path[j]] == map[]
      invariant 0 <= j <= |key|
      invariant TreeShaped(b, par) && |b.kids| == |a.kids| && b.ids == a.ids
      invariant forall h :: 0 <= h <= j ==> Reach(b, 0, key[..h]) == Some(path[h])
      invariant TrimmedExcept(b, path[j])
      invariant Stored(b, par) == Stored(a, par)
    {
      PruneStep(b, par, key, path, j);
      b := Cut(b, path[j - 1], key[j - 1]);
      j := j - 1;
    }
  }

  /** One step of the trimming loop: unlinking the empty leaf at depth j keeps the loop's invariant at depth j - 1. */
  lemma PruneStep(b: Arena, par: seq<(nat, char)>, key: string, path: seq<nat>, j: nat)
    requires TreeShaped(b, par) && |path| == |key| + 1 && 0 < j <= |key|
    requires forall h :: 0 <= h <= j ==> Reach(b, 0, key[..h]) == Some(path[h])
    requires TrimmedExcept(b, path[j]) && b.ids[path[j]] == {} && b.kids[path[j]] == map[]
    ensures path[j - 1] < |b.kids| && key[j - 1] in b.kids[path[j - 1]]
    ensures TreeShaped(Cut(b, path[j - 1], key[j - 1]), par)
    ensures forall h :: 0 <= h <= j - 1 ==> Reach(Cut(b, path[j - 1], key[j - 1]), 0, key[..h]) == Some(path[h])
    ensures TrimmedExcept(Cut(b, path[j - 1], key[j - 1]), path[j - 1])
    ensures Stored(Cut(b, path[j - 1], key[j - 1]), par) == Stored(b, par)
  {
    var p, c := path[j - 1], key[j - 1];
    assert key[..j] == key[..j - 1] + [c];
    ReachStep(b, 0, key[..j - 1], c);
    forall h | 0 <= h < j ensures path[h] != path[j] {
      ReachLabel(b, par, key[..h]);
      ReachLabel(b, par, key[..j]);
    }
    CutLemma(b, par, p, c);
  }

  /** The descent of `Find` along the runes of the prefix, stopping at the first missing edge. */
  method Walk(a: Arena, s: string) returns (r: Option<nat>)
    requires WellFormed(a)
    ensures r == Reach(a, 0, s)
  {
    var cur := 0;
    var i := 0;
    while i < |s|
      invariant 0 <= i <= |s| && cur < |a.kids|
      invariant Reach(a, 0, s[..i]) == Some(cur)
    {
      var c := s[i];
      assert s[..i + 1] == s[..i] + [c];
      ReachStep(a, 0, s[..i], c);
      if c !in a.kids[cur] {
        ReachConcat(a, 0, s[..i + 1], s[i + 1..]);
        assert s[..i + 1] + s[i + 1..] == s;
        return None;
      }
      cur := a.kids[cur][c];
      i := i + 1;
    }
    assert s[..|s|] == s;
    return Some(cur);
  }

  /**
   * `findHelper` on node `x` of the arena, with the result buffer shared by
   * every recursive call (`acc` in, the extended buffer out): the node's ids
   * while fewer than n are collected, then each child in ascending rune order
   * until n are.
   */
  method Collect(a: Arena, x: nat, n: int, acc: seq<Int64>) returns (r: seq<Int64>)
    requires WellFormed(a) && x < |a.kids|
    requires Take(acc, n) == acc
    ensures r == Take(acc + Enumerate(a, x), n)
    decreases |a.kids| - x, 1
  {
    var vs := SortedIds(a.ids[x]);
    var cs := SortedRunes(a.kids[x].Keys);
    r := TakeMore(acc, vs, n);
    r := CollectKids(a, x, cs, n, r);
    TakeTake(acc + vs, EnumerateKids(a, x, cs), n);
    Assoc(acc, vs, EnumerateKids(a, x, cs));
    assert Enumerate(a, x) == vs + EnumerateKids(a, x, cs);
  }

  /** The loop of `findHelper` over the children named in `cs`, stopping once n ids are collected. */
  method CollectKids(a: Arena, x: nat, cs: seq<char>, n: int, acc: seq<Int64>) returns (r: seq<Int64>)
    requires WellFormed(a) && x < |a.kids|
    requires forall i :: 0 <= i < |cs| ==> cs[i] in a.kids[x]
    requires Take(acc, n) == acc
    ensures r == Take(acc + EnumerateKids(a, x, cs), n)
    decreases |a.kids| - x, 0
  {
    ghost var goal := Take(acc + EnumerateKids(a, x, cs), n);
    r := acc;
    var rest := cs;
    while rest != []
      invariant forall i :: 0 <= i < |rest| ==> rest[i] in a.kids[x]
      invariant Take(r, n) == r
      invariant Take(r + EnumerateKids(a, x, rest), n) == goal
    {
      if |r| == n {
        TakeFull(r, EnumerateKids(a, x, rest), n);
        return;
      }
      var y := a.kids[x][rest[0]];
      ghost var r0 := r;
      r := Collect(a, y, n, r);
      TakeTake(r0 + Enumerate(a, y), EnumerateKids(a, x, rest[1..]), n);
      Assoc(r0, Enumerate(a, y), EnumerateKids(a, x, rest[1..]));
      rest := rest[1..];
    }
    assert r + [] == r;
  }

  /** The values loop of `findHelper`: append ids from `vs` while fewer than n are held. */
  method TakeMore(acc: seq<Int64>, vs: seq<Int64>, n: int) returns (r: seq<Int64>)
    requires Take(acc, n) == acc
    ensures r == Take(acc + vs, n)
  {
    r := acc;
    var i := 0;
    while i < |vs|
      invariant 0 <= i <= |vs|
      invariant Take(r, n) == r
      invariant Take(r + vs[i..], n) == Take(acc + vs, n)
    {
      if |r| >= n {
        TakeFull(r, vs[i..], n);
        return;
      }
      assert r + vs[i..] == (r + [vs[i]]) + vs[i + 1..];
      r := r + [vs[i]];
      i := i + 1;
    }
    assert r + vs[i..] == r;
  }

  lemma Assoc(p: seq<Int64>, q: seq<Int64>, t: seq<Int64>)
    ensures p + q + t == p + (q + t)
  {
  }

  /** A full buffer absorbs whatever would follow it. */
  lemma TakeFull(r: seq<Int64>, t: seq<Int64>, n: int)
    requires Take(r, n) == r && |r| >= n
    ensures Take(r + t, n) == r
  {
    if n > 0 {
      assert (r + t)[..n] == r;
    }
  }

  lemma TakeTake(p: seq<Int64>, e: seq<Int64>, n: int)
    ensures Take(Take(p, n) + e, n) == Take(p + e, n)
  {
    if n > 0 && |p| > n {
      assert (Take(p, n) + e)[..n] == p[..n];
    }
  }

  // ---------------------------------------------------------------------------
  // Searching for converted users

  /** When every held pair carries the same id, a one-slot search for any prefix of a held key returns just that id. */
  lemma FindSingleId(a: Arena, par: seq<(nat, char)>, length: int, prefix: string, id: Int64, k: string)
    requires TreeShaped(a, par) && Trimmed(a) && length != 0 && prefix != []
    requires forall k', v :: (k', v) in Stored(a, par) ==> v == id
    requires (k, id) in Stored(a, par) && HasPrefix(k, prefix)
    ensures FindSpec(a, length, prefix, 1) == Some([id])
  {
    FindComplete(a, par, length, prefix, 1, k, id);
    FindNil(a, par, length, prefix, 1);
    var r := FindSpec(a, length, prefix, 1).value;
    assert |r| == 1;
    FindSound(a, par, length, prefix, 1, r[0]);
    assert r == [r[0]];
  }

  /**
   * A converted user is found, by a one-slot search, under any non-empty
   * prefix of any of its name tokens (for "multiple first" that includes "m").
   */
  method SearchConvertedUser(firstName: string, lastName: string, userName: string, id: Int64,
                             i: nat, prefix: string) returns (found: Option<seq<Int64>>)
    requires i < |NameTokens([firstName, lastName, userName])|
    requires prefix != [] && HasPrefix(NameTokens([firstName, lastName, userName])[i], prefix)
    ensures found == Some([id])
  {
    var t := new Trie();
    t.AddConvertedUsers(firstName, lastName, userName, id);
    found := t.Find(prefix, 1);
    ghost var ts := NameTokens([firstName, lastName, userName]);
    assert (ts[i], id) in t.Contents;
    HeldExactly(t.nodes, t.parent, t.Contents);
    FindSingleId(t.nodes, t.parent, t.length, prefix, id, ts[i]);
  }

  lemma NameTokensOne(name: string)
    ensures NameTokens([name]) == Fields(ToLower(name)) + NameTokens([])
  {
    assert [name][0] == name && [name][1..] == [];
  }

  lemma OneWordToken(name: string)
    requires IsWord(ToLower(name))
    ensures NameTokens([name]) == [ToLower(name)]
  {
    NameTokensOne(name);
    FieldsOne(ToLower(name));
  }

  /** Two one-word names yield their lower-cased forms as tokens. */
  lemma OneWordNames(firstName: string, lastName: string)
    requires IsWord(ToLower(firstName)) && IsWord(ToLower(lastName))
    ensures NameTokens([firstName, lastName]) == [ToLower(firstName), ToLower(lastName)]
  {
    OneWordToken(firstName);
    OneWordToken(lastName);
    assert [firstName, lastName][1..] == [lastName];
    assert NameTokens([firstName, lastName]) == NameTokens([firstName]) + NameTokens([lastName]);
  }

  lemma TaggedPair(a: string, b: string, id: Int64)
    ensures Tagged([a, b], id) == {(a, id), (b, id)}
  {
    TaggedCons([a, b], id);
    TaggedCons([b], id);
    assert [a, b][1..] == [b];
    assert [b][1..] == [];
  }

  /**
   * A user stored under the lower-cased one-word first and last names is found
   * by the first letter of the first name until both names are removed; then
   * the search comes back nil.
   */
  method SearchRemovedUser(firstName: string, lastName: string, id: Int64)
    returns (before: Option<seq<Int64>>, after: Option<seq<Int64>>)
    requires IsWord(ToLower(firstName)) && IsWord(ToLower(lastName))
    ensures before == Some([id]) && after == None
  {
    var first, last := ToLower(firstName), ToLower(lastName);
    var t := new Trie();
    t.Add(first, id);
    t.Add(last, id);
    before := t.Find(first[..1], 1);
    HeldExactly(t.nodes, t.parent, t.Contents);
    FindSingleId(t.nodes, t.parent, t.length, first[..1], id, first);
    t.RemoveConvertedUsers(firstName, lastName, id);
    OneWordNames(firstName, lastName);
    TaggedPair(first, last, id);
    after := t.Find(first[..1], 1);
    HeldExactly(t.nodes, t.parent, t.Contents);
    if t.length != 0 {
      FindNil(t.nodes, t.parent, t.length, first[..1], 1);
    }
  }

  // ---------------------------------------------------------------------------
  // `Find` and `Remove` as the Go code is written

  /**
   * `Find` as written: `findHelper` receives the empty result slice by value,
   * so its appends land in copies and `Find` returns the empty slice it made
   * (Some of []) wherever the guards and the walk let it through.
   */
  function FindAsWritten(a: Arena, length: int, prefix: string, n: int): (r: Option<seq<Int64>>)
    requires WellFormed(a)
    ensures r.Some? <==> FindSpec(a, length, prefix, n).Some?
    ensures r.Some? ==> r.value == []
  {
    if length == 0 || |prefix| == 0 || n == 0 then None
    else match Reach(a, 0, prefix)
      case None => None
      case Some(_) => Some([])
  }

  /**
   * `Remove` as written: a missing edge leaves the walk on a nil node, which
   * the next step dereferences (None: the call panics); otherwise the id is
   * dropped from the node reached, the count always goes down by one, and no
   * branch is trimmed.
   */
  function RemoveAsWritten(a: Arena, length: int, key: string, value: Int64): (r: Option<(Arena, int)>)
    requires WellFormed(a)
    ensures r.None? <==> Reach(a, 0, key).None?
    ensures r.Some? ==> r.value.1 == length - 1 && WellFormed(r.value.0) && r.value.0.kids == a.kids
    ensures r.Some? ==> forall k, v :: Holds(r.value.0, 0, k, v) <==>
      Holds(a, 0, k, v) && (v != value || Reach(a, 0, k) != Reach(a, 0, key))
  {
    match Reach(a, 0, key)
      case None => None
      case Some(t) =>
        var b := Delete(a, t, value);
        assert forall k :: Reach(b, 0, k) == Reach(a, 0, k) by {
          forall k ensures Reach(b, 0, k) == Reach(a, 0, k) {
            SameKidsSameReach(a, b, 0, k);
          }
        }
        Some((b, length - 1))
  }

  // Concrete tries for the findings: "a" holding id 1, and "a" -> 1, "b" -> 2.
  const OneKey: Arena := Arena([map['a' := 1], map[]], [{}, {1}])
  const TwoKeys: Arena := Arena([map['a' := 1, 'b' := 2], map[], map[]], [{}, {1}, {2}])

  lemma SortedSingleton(v: Int64)
    ensures SortedIds({v}) == [v]
  {
    var r := SortedIds({v});
    assert v in r;
  }

  /** With ("a", 1) held, `Find("a", 1)` should give [1]; as written it gives the empty slice. */
  lemma FindLosesResults()
    ensures WellFormed(OneKey)
    ensures FindSpec(OneKey, 1, "a", 1) == Some([1])
    ensures FindAsWritten(OneKey, 1, "a", 1) == Some([])
  {
    assert Reach(OneKey, 0, "a") == Some(1) by {
      assert "a"[1..] == [];
    }
    SortedSingleton(1);
    assert SortedRunes(OneKey.kids[1].Keys) == [];
    assert Enumerate(OneKey, 1) == [1];
  }

  /** Removing ("ab", 1) from a trie that holds "a" panics as written; the corrected trie is unchanged. */
  lemma RemoveMissingPathPanics()
    ensures WellFormed(OneKey)
    ensures RemoveAsWritten(OneKey, 1, "ab", 1).None?
  {
    assert Reach(OneKey, 0, "ab") == None by {
      assert "ab"[0] == 'a' && "ab"[1..] == "b";
      assert Reach(OneKey, 1, "b") == None;
    }
  }

  /**
   * Removing ("a", 2), which is not held, still lowers the count as written;
   * with the count at 0, `Find("a", 1)` is nil although ("a", 1) is still held.
   */
  lemma RemoveAbsentHidesEntries()
    ensures WellFormed(OneKey)
    ensures RemoveAsWritten(OneKey, 1, "a", 2).Some?
    ensures var (b, len) := RemoveAsWritten(OneKey, 1, "a", 2).value;
      len == 0 && Holds(b, 0, "a", 1) && FindSpec(b, len, "a", 1) == None
  {
    assert Reach(OneKey, 0, "a") == Some(1) by {
      assert "a"[1..] == [];
    }
  }

  /**
   * Removing ("a", 1) from {"a" -> 1, "b" -> 2} leaves the node of "a" as an
   * empty leaf as written, so `Find("a", 1)` answers with an empty result
   * instead of nil: no held key starts with "a".
   */
  lemma RemoveLeavesEmptyBranch()
    ensures WellFormed(TwoKeys)
    ensures RemoveAsWritten(TwoKeys, 2, "a", 1).Some?
    ensures var (b, len) := RemoveAsWritten(TwoKeys, 2, "a", 1).value;
      len == 1 && FindSpec(b, len, "a", 1) == Some([])
  {
    assert Reach(TwoKeys, 0, "a") == Some(1) by {
      assert "a"[1..] == [];
    }
    var b := Delete(TwoKeys, 1, 1);
    assert b.ids[1] == {};
    assert Reach(b, 0, "a") == Some(1) by {
      assert "a"[1..] == [];
    }
    assert SortedRunes(b.kids[1].Keys) == [];
    assert Enumerate(b, 1) == [];
  }
}

=== FILE: trie_examples.dfy ===
/**
 * A worked trie: the "Multiple Values" case of `indexes/trie_test.go`, with
 * the enumeration of its "he" branch computed node by node.
 */

module TrieExamples {
  import opened Wrappers
  import opened Indexes

  /**
   * The trie of the "Multiple Values" test: "hello" -> 1, "hey" -> 3,
   * "tests" -> 8, "boring" -> 9, "hero" -> 10, "hell" -> 5 and "世界" -> 1.
   * Node 2 is "he"; its children "hel", "hey" and "her" are nodes 3, 6 and 7.
   */
  const TestValues: Arena := Arena(
    [ map['h' := 1, 't' := 9, 'b' := 14, '世' := 20],
      map['e' := 2], map['l' := 3, 'r' := 7, 'y' := 6], map['l' := 4], map['o' := 5], map[],
      map[], map['o' := 8], map[],
      map['e' := 10], map['s' := 11], map['t' := 12], map['s' := 13], map[],
      map['o' := 15], map['r' := 16], map['i' := 17], map['n' := 18], map['g' := 19], map[],
      map['界' := 21], map[] ],
    [ {}, {}, {}, {}, {5}, {1}, {3}, {}, {10},
      {}, {}, {}, {}, {8},
      {}, {}, {}, {}, {}, {9},
      {}, {1} ])

  lemma SortedOneRune(c: char)
    ensures SortedRunes({c}) == [c]
  {
    var r := SortedRunes({c});
    assert c in r;
  }

  lemma SortedThreeRunes(x: char, y: char, z: char)
    requires x < y < z
    ensures SortedRunes({x, y, z}) == [x, y, z]
  {
    var r := SortedRunes({x, y, z});
    assert r[0] in {x, y, z} && r[1] in {x, y, z} && r[2] in {x, y, z};
    assert r[0] < r[1] < r[2];
  }

  lemma TestValuesWellFormed()
    ensures WellFormed(TestValues)
  {
    var a := TestValues;
    forall m, c | 0 <= m < |a.kids| && c in a.kids[m] ensures m < a.kids[m][c] < |a.kids| {
      assert m in {0, 1, 2, 3, 4, 7, 9, 10, 11, 12, 14, 15, 16, 17, 18, 20};
    }
  }

  /** A node holding only `v`, with no children, enumerates [v]. */
  lemma EnumerateLeaf(a: Arena, x: nat, v: Int64)
    requires WellFormed(a) && x < |a.kids|
    requires a.kids[x] == map[] && a.ids[x] == {v}
    ensures Enumerate(a, x) == [v]
  {
    SortedSingleton(v);
    assert SortedRunes(a.kids[x].Keys) == [];
  }

  /** A node holding nothing, with the single child `c`, enumerates what the child does. */
  lemma EnumerateOneChild(a: Arena, x: nat, c: char, y: nat)
    requires WellFormed(a) && x < |a.kids|
    requires a.kids[x] == map[c := y] && a.ids[x] == {} && y < |a.kids|
    ensures Enumerate(a, x) == Enumerate(a, y)
  {
    assert a.kids[x].Keys == {c};
    SortedOneRune(c);
    assert SortedRunes(a.kids[x].Keys) == [c];
    assert SortedIds(a.ids[x]) == [];
    assert [c][1..] == [];
    assert EnumerateKids(a, x, [c]) == Enumerate(a, y) + EnumerateKids(a, x, []);
  }

  /** A node holding only `v`, with the single child `c`, enumerates `v` before the child. */
  lemma EnumerateIdThenChild(a: Arena, x: nat, c: char, y: nat, v: Int64)
    requires WellFormed(a) && x < |a.kids|
    requires a.kids[x] == map[c := y] && a.ids[x] == {v} && y < |a.kids|
    ensures Enumerate(a, x) == [v] + Enumerate(a, y)
  {
    assert a.kids[x].Keys == {c};
    SortedOneRune(c);
    SortedSingleton(v);
    assert SortedRunes(a.kids[x].Keys) == [c];
    assert SortedIds(a.ids[x]) == [v];
    assert [c][1..] == [];
    assert EnumerateKids(a, x, [c]) == Enumerate(a, y) + EnumerateKids(a, x, []);
  }

  /** A single child enumerates what that child does. */
  lemma LastKid(a: Arena, x: nat, c: char)
    requires WellFormed(a) && x < |a.kids| && c in a.kids[x]
    ensures EnumerateKids(a, x, [c]) == Enumerate(a, a.kids[x][c])
  {
    var e := Enumerate(a, a.kids[x][c]);
    assert [c][1..] == [];
    assert EnumerateKids(a, x, [c]) == e + [];
    assert e + [] == e;
  }

  /** The children named by three runes, in that order. */
  lemma ThreeKids(a: Arena, x: nat, cs: seq<char>)
    requires WellFormed(a) && x < |a.kids| && |cs| == 3
    requires forall i :: 0 <= i < |cs| ==> cs[i] in a.kids[x]
    ensures EnumerateKids(a, x, cs) ==
      Enumerate(a, a.kids[x][cs[0]]) + (Enumerate(a, a.kids[x][cs[1]]) + Enumerate(a, a.kids[x][cs[2]]))
  {
    var t := cs[1..];
    assert t[0] == cs[1] && t[1..] == [cs[2]];
    LastKid(a, x, cs[2]);
    assert EnumerateKids(a, x, t) == Enumerate(a, a.kids[x][cs[1]]) + EnumerateKids(a, x, [cs[2]]);
    assert EnumerateKids(a, x, cs) == Enumerate(a, a.kids[x][cs[0]]) + EnumerateKids(a, x, t);
  }

  /** A node holding nothing whose children are exactly the three runes `c0 < c1 < c2`. */
  lemma ThreeSorted(a: Arena, x: nat, c0: char, c1: char, c2: char)
    requires WellFormed(a) && x < |a.kids|
    requires a.kids[x].Keys == {c0, c1, c2} && c0 < c1 < c2 && a.ids[x] == {}
    ensures Enumerate(a, x) == EnumerateKids(a, x, [c0, c1, c2])
  {
    SortedThreeRunes(c0, c1, c2);
    assert SortedIds(a.ids[x]) == [];
    var e := EnumerateKids(a, x, [c0, c1, c2]);
    assert Enumerate(a, x) == [] + e;
    assert [] + e == e;
  }

  /** A node holding nothing, with three children, enumerates them in rune order. */
  lemma EnumerateThreeChildren(a: Arena, x: nat, c0: char, c1: char, c2: char)
    requires WellFormed(a) && x < |a.kids|
    requires a.kids[x].Keys == {c0, c1, c2} && c0 < c1 < c2 && a.ids[x] == {}
    ensures Enumerate(a, x) ==
      Enumerate(a, a.kids[x][c0]) + (Enumerate(a, a.kids[x][c1]) + Enumerate(a, a.kids[x][c2]))
  {
    ThreeSorted(a, x, c0, c1, c2);
    ThreeKids(a, x, [c0, c1, c2]);
  }

  /** "hell" (node 3 -> 4) holds 5, then its child "hello" holds 1. */
  lemma HellBranch(a: Arena)
    requires WellFormed(a) && |a.kids| > 5
    requires a.kids[3] == map['l' := 4] && a.ids[3] == {}
    requires a.kids[4] == map['o' := 5] && a.ids[4] == {5}
    requires a.kids[5] == map[] && a.ids[5] == {1}
    ensures Enumerate(a, 3) == [5, 1]
  {
    EnumerateLeaf(a, 5, 1);
    EnumerateIdThenChild(a, 4, 'o', 5, 5);
    EnumerateOneChild(a, 3, 'l', 4);
  }

  /** "hero" (node 7 -> 8) holds 10. */
  lemma HeroBranch(a: Arena)
    requires WellFormed(a) && |a.kids| > 8
    requires a.kids[7] == map['o' := 8] && a.ids[7] == {}
    requires a.kids[8] == map[] && a.ids[8] == {10}
    ensures Enumerate(a, 7) == [10]
  {
    EnumerateLeaf(a, 8, 10);
    EnumerateOneChild(a, 7, 'o', 8);
  }

  lemma HeOrder(p: seq<Int64>, q: seq<Int64>, t: seq<Int64>)
    requires p == [5, 1] && q == [10] && t == [3]
    ensures p + (q + t) == [5, 1, 10, 3]
  {
  }

  lemma TestValuesReach()
    ensures WellFormed(TestValues)
    ensures Reach(TestValues, 0, "he") == Some(2)
  {
    TestValuesWellFormed();
    assert "he"[1..] == "e" && "e"[1..] == [];
  }

  lemma TestValuesNodes()
    ensures |TestValues.kids| > 8
    ensures TestValues.kids[2].Keys == {'l', 'r', 'y'} && TestValues.ids[2] == {}
    ensures TestValues.kids[2]['l'] == 3 && TestValues.kids[2]['r'] == 7 && TestValues.kids[2]['y'] == 6
    ensures TestValues.kids[3] == map['l' := 4] && TestValues.ids[3] == {}
    ensures TestValues.kids[4] == map['o' := 5] && TestValues.ids[4] == {5}
    ensures TestValues.kids[5] == map[] && TestValues.ids[5] == {1}
    ensures TestValues.kids[6] == map[] && TestValues.ids[6] == {3}
    ensures TestValues.kids[7] == map['o' := 8] && TestValues.ids[7] == {}
    ensures TestValues.kids[8] == map[] && TestValues.ids[8] == {10}
  {
  }

  lemma TestValuesHe()
    ensures WellFormed(TestValues)
    ensures Enumerate(TestValues, 2) == [5, 1, 10, 3]
  {
    TestValuesWellFormed();
    TestValuesNodes();
    HellBranch(TestValues);
    HeroBranch(TestValues);
    EnumerateLeaf(TestValues, 6, 3);
    EnumerateThreeChildren(TestValues, 2, 'l', 'r', 'y');
    HeOrder(Enumerate(TestValues, 3), Enumerate(TestValues, 7), Enumerate(TestValues, 6));
  }

  /**
   * `Find("he", 4)` on the "Multiple Values" trie answers [5, 1, 10, 3];
   * as written it answers the empty slice.
   */
  lemma MultipleValuesFind()
    ensures WellFormed(TestValues)
    ensures FindSpec(TestValues, 7, "he", 4) == Some([5, 1, 10, 3])
    ensures FindAsWritten(TestValues, 7, "he", 4) == Some([])
  {
    TestValuesReach();
    TestValuesHe();
    assert Take([5, 1, 10, 3], 4) == [5, 1, 10, 3];
  }
}

=== FILE: websockets.dfy ===
/**
 * The WebSocket upgrade handler (`handlers/websockets.go`): a request is
 * admitted only with a valid session whose state decodes, and the upgraded
 * connection is registered with the notifier under the session user's id.
 * The upgrade handshake is a library call; its outcome (the new connection,
 * or None when it failed and answered the client itself) is an input. The
 * message-queue plumbing of this file is not modelled beyond `contains` and
 * the delivery filter.
 */
module WebSockets {
  import opened Wrappers
  import opened Http
  import opened SessionIds
  import opened Stores
  import opened Sessions
  import opened Notifiers

  /** `contains`: the ids are put in a set, which is then asked for `id`. */
  method Contains(userIds: seq<Int64>, id: Int64) returns (ok: bool)
    ensures ok <==> id in userIds
  {
    var ids: set<Int64> := {};
    for i := 0 to |userIds|
      invariant ids == set k | 0 <= k < i :: userIds[k]
    {
      ids := ids + {userIds[i]};
    }
    ok := id in ids;
    assert id in userIds ==> exists k :: 0 <= k < |userIds| && userIds[k] == id;
  }

  /**
   * The delivery filter of the queue loop: registry key `k` hears a message
   * when the message names no users, or names `k`.
   */
  predicate Selected(users: seq<Int64>, k: Int64) {
    users == [] || k in users
  }

  /**
   * The filter agrees with the notifier's broadcasts: a user with a
   * connection is written to exactly when it is selected, where an empty
   * list means the public broadcast over every key.
   */
  lemma SelectedIsBroadcast(conns: map<Int64, seq<Conn>>, order: seq<Int64>, users: seq<Int64>, k: Int64, c: Conn)
    requires IsKeyOrder(order, conns)
    requires k in conns && c in conns[k]
    ensures Target(k, c) in Targets(conns, if users == [] then order else users) <==> Selected(users, k)
  {
    if users == [] {
      PublicReachesAll(conns, order, k, c);
    } else {
      TargetsMembership(conns, users, k, c);
    }
  }

  /** The state a request is admitted with: the session's saved JSON, when the id is valid and the JSON decodes. */
  ghost function AdmittedState(fields: map<string, seq<string>>, query: map<string, seq<string>>, signingKey: string,
                               mac: Hmac, store: Store, decodes: string -> bool): Option<string>
    reads Footprint(store)
  {
    var json := SessionJson(fields, query, signingKey, mac, store);
    if json.Some? && decodes(json.value) then json else None
  }

  /** `WebSocketHandler`, with the parts of the handler context it uses. */
  class WebSocketHandler {
    const signingKey: string
    const store: Store
    const notifier: Notifier

    constructor (signingKey: string, store: Store, notifier: Notifier)
      ensures this.signingKey == signingKey && this.store == store && this.notifier == notifier
    {
      this.signingKey := signingKey;
      this.store := store;
      this.notifier := notifier;
    }

    /**
     * `ServeHTTP`: without session state the answer is 401 and nothing is
     * registered; otherwise the connection is upgraded and, when that
     * succeeds, registered under the user id `userId` reads from the state.
     * `status` is None when the upgrader answered the client itself.
     */
    method ServeHTTP(r: Request, mac: Hmac, decodes: string -> bool, userId: string -> Int64,
                     upgraded: Option<Conn>, fault: bool)
      returns (status: Option<int>)
      modifies notifier, Footprint(store)
      ensures forall x :: Saved(store, x) == old(Saved(store, x))
      ensures var s := old(AdmittedState(r.header.fields, r.query, signingKey, mac, store, decodes));
        s.None? || (store.Redis? && fault) ==>
          status == Some(StatusUnauthorized) && notifier.currConnections == old(notifier.currConnections)
      ensures var s := old(AdmittedState(r.header.fields, r.query, signingKey, mac, store, decodes));
        s.Some? && !(store.Redis? && fault) && upgraded.None? ==>
          status.None? && notifier.currConnections == old(notifier.currConnections)
      ensures var s := old(AdmittedState(r.header.fields, r.query, signingKey, mac, store, decodes));
        s.Some? && !(store.Redis? && fault) && upgraded.Some? ==>
          var id := userId(s.value);
          status.None? &&
          notifier.currConnections == old(notifier.currConnections)[id := Listed(old(notifier.currConnections), id) + [upgraded.value]]
    {
      var state := SessionState(r, mac, decodes, fault);
      if state.None? {
        return Some(StatusUnauthorized);
      }
      if upgraded.None? {
        return None;
      }
      notifier.AddClient(upgraded.value, userId(state.value));
      return None;
    }

    /** The `GetState` call of `ServeHTTP`: the decoded session state, or None on any error. */
    method SessionState(r: Request, mac: Hmac, decodes: string -> bool, fault: bool) returns (state: Option<string>)
      modifies Footprint(store)
      ensures forall x :: Saved(store, x) == old(Saved(store, x))
      ensures store.Redis? && fault ==> state.None?
      ensures !(store.Redis? && fault) ==> state == old(AdmittedState(r.header.fields, r.query, signingKey, mac, store, decodes))
    {
      ghost var admitted := AdmittedState(r.header.fields, r.query, signingKey, mac, store, decodes);
      var sid, json, err := GetState(r, signingKey, mac, store, decodes, fault);
      if err.Some? {
        assert admitted.None? || (store.Redis? && fault);
        return None;
      }
      assert admitted == Some(json);
      return Some(json);
    }
  }
}

=== FILE: wrappers.dfy ===
/** Option and Result values shared by every module of the gateway model. */
module Wrappers {

  datatype Option<+T> = None | Some(value: T)

  /** A Go `(value, error)` pair: `Failure` stands for a non-nil error. */
  datatype Result<+T, +E> = Success(value: T) | Failure(error: E)

  /** What a Go call does: return a value, panic, or end the process through `log.Fatalf`. */
  datatype Outcome<+T> = Returned(value: T) | Panicked | Exited

  /** Go's int64 range; user ids, counters and parsed integers live in it. */
  const MinInt64: int := -0x8000_0000_0000_0000
  const MaxInt64: int := 0x7fff_ffff_ffff_ffff

  type Int64 = x: int | MinInt64 <= x <= MaxInt64
}
